=== FILE: README.md ===
# pyzenobase in Dafny

A model of pyzenobase, a small Python client for the Zenobase lifelogging
service, and of the two Lifelogger import scripts built on it. The model
covers:

- **The event record** (`ZenobaseEvent`). It is a map from field names to
  dynamic values. Construction rejects any key outside the 27 recognised
  field names. It then cleans three fields:
  - `timestamp`: datetimes become formatted strings;
  - `volume.unit`: every `l` becomes `L`;
  - `weight.unit`: the microgram aliases become `ug`.
  The older record in `pyzenobase/main.py` has a 24-name list and does no
  cleaning.
- **The timestamp formatter** `fmt_datetime` and the older
  `dt_to_timestamp`. The output layout is `YYYY-MM-DDTHH:MM:SS.000±HHMM`.
  The zone is a fixed UTC offset in minutes, passed as a parameter.
- **The API client** `ZenobaseAPI` and its older variant. The model covers
  every decision the client makes around a request:
  - the grant it asks for, and rejection of an error response;
  - the authorization headers on every request;
  - the status rule and the JSON-or-text reply;
  - the limit and label-length checks;
  - the first-match rule of `create_or_get_bucket`;
  - bucket-id resolution and the endpoint paths.

  The remote service is a function from request to response. Each operation
  returns its result together with the trace of requests it issued, so
  "fails before any request" and "creates only when nothing matches" are
  postconditions.
- **The Lifelogger scripts**, over a given sheet (`seq<seq<string>>`):
  - the first run of dates in the first column (`get_dates`);
  - the category/label/date table (`get_main`);
  - the TRUE/FALSE streak events (`create_streaks`);
  - the supplement-cell grammar of both `create_timestamped_supps` variants:
    times, route of administration, `+`-separated doses, `~`/`?` markers,
    amount/unit/percentage/substance, the volume-or-weight choice and the
    tag order.

The module layout follows the program:

| file | module | models |
|---|---|---|
| results.dfy | Results | `Option`, `Result` |
| text.dfy | Text | `str.split`, `str.strip`, `str.replace` on one character, digits |
| ordered_dict.dfy | OrderedDict | a Python dict in insertion order (event order follows it) |
| values.dfy | Values | the dynamic `Value` type (JSON values plus datetimes) |
| calendar.dfy | Calendar | dates, clocks, fixed-offset zone conversion |
| time_format.dfy | TimeFormat | `fmt_datetime`, `dt_to_timestamp` |
| event.dfy | Event | `ZenobaseEvent` of `zenobase_event.py` |
| legacy_event.dfy | LegacyEvent | `ZenobaseEvent` of `main.py` |
| http.dfy | Http | requests, responses, the remote, reply decoding |
| buckets.dfy | Buckets | the bucket scan of `create_or_get_bucket` |
| api_client.dfy | ApiClient | `ZenobaseAPI` of `zenobase_api.py` |
| legacy_api.dfy | LegacyApi | `ZenobaseAPI` of `main.py` |
| strptime.dfy | Strptime | `strptime` for `%m/%d/%Y`, `%Y-%m-%d`, `%H:%M`, `%H:%M:%S` |
| sheet.dfy | Sheet | `get_dates`, `get_main` |
| patterns.dfy | Patterns | the regular expressions of the supplement parser |
| supplements.dfy | Supplements | the dose grammar shared by both scripts |
| timestamped_supps.dfy | TimestampedSupps | `create_timestamped_supps` of the upload script |
| simple_supps.dfy | SimpleSupps | `create_timestamped_supps` of the older script |
| streaks.dfy | Streaks | `create_streaks` (identical in both scripts) |

A Python exception is an `Err` value. Each error type names the exception
it stands for. `IndexOutOfRange` is an `IndexError` that ends a script run;
`MissingKey` is a `KeyError`.

## Code against its own messages

In several places the program's own messages and comments promise more
than its code does. The model follows the code:

- The TypeError of `pyzenobase/zenobase_event.py:50` reads "timestamp must
  be string, datetime or list of strings/datetimes". The test before it,
  at lines 48-49, never looks at the list's elements, so every list passes
  and non-datetime elements are kept (`Event.TimestampAccepted`,
  `Event.ListElementsUnchecked`).
- The message of `pyzenobase/zenobase_api.py:66` says a bucket name "can
  only contain [a-zA-Z0-9-_ ]". The code checks only the length, 1 to 20
  (`ApiClient.CreateBucketIgnoresCharset`).
- The older client's error at `pyzenobase/main.py:37` reads "Status code
  was not 2xx". The test on line 36 is `300 < r.status_code`, so 300 and
  anything below 200 succeed. The current client's test at
  `pyzenobase/zenobase_api.py:37-38` matches its message
  (`LegacyApi.StatusRulesDiffer`).
- The microgram alias list at `pyzenobase/zenobase_event.py:44` holds
  `"Âµg"`: the UTF-8 bytes of `"µg"` read as Latin-1. A weight in the real
  micro-sign spelling is therefore not rewritten
  (`Event.MicroSignNotRewritten`). The older script maps `"µg"` itself, at
  `examples/lifelogger_spreadsheet.py:241`. Its unit pattern can never
  produce that string, so the branch is dead
  (`SimpleSupps.MicroSignNotAUnit`).
- In the older script, the guard `if unit_is_weight_or_vol` at
  `examples/lifelogger_spreadsheet.py:249` tests a non-empty string and is
  always true. Every `l` of the unit is therefore uppercased, whatever the
  kind (`SimpleSupps.SentUnit`).
- `create_or_get_bucket` looks only at the first page of the listing
  (offset 0, limit 100). A bucket beyond that page is not found, and a
  second bucket with the same label is created.
- The comment at `pyzenobase/zenobase_api.py:7` reads "TODO: Keep track of
  open/closed state internally". The client keeps no such state, and
  neither does the model.

## Model

| member | source | states |
|---|---|---|
| Event.MakeEvent | pyzenobase/zenobase_event.py:15-21 | fails with UnknownField exactly when some key is outside the 27 names; succeeds exactly when every key is known and the timestamp, volume and weight fields can be cleaned; a timestamp of the wrong type is TimestampType; the record keeps exactly the input's keys and every other field's value |
| Event.CleanData | pyzenobase/zenobase_event.py:23-45 | succeeds exactly when the three cleanable fields are cleanable; adds and removes no key; leaves every field except timestamp, volume and weight unchanged; the three are replaced by their cleaned forms |
| Event.TimestampAccepted | pyzenobase/zenobase_event.py:47-50 | the type check passes exactly for a string, a datetime or a list, whatever the list holds |
| Event.FormatItems | pyzenobase/zenobase_event.py:31-33 | a list timestamp is mapped element by element: same length and order, each element formatted if it is a datetime and kept otherwise; fails only if some datetime cannot be printed |
| Event.FormatTimestamp | pyzenobase/zenobase_event.py:28-35 | a string is kept, a datetime becomes its formatted string, a list is mapped element-wise; the result holds no datetime at the top level or as a direct list element |
| Event.CleanTimestamp | pyzenobase/zenobase_event.py:28-35 | a record without a timestamp is unchanged; a timestamp of the wrong type is TimestampType; otherwise only the timestamp field changes, to its formatted form |
| Event.NormalizeVolume | pyzenobase/zenobase_event.py:38-39 | needs a string unit; the new unit has no lowercase `l`, the same length, and every other character in place; other volume keys are unchanged |
| Event.NormalizeWeight | pyzenobase/zenobase_event.py:42-45 | needs a unit; the unit becomes "ug" exactly when it was "ug" or an alias; it changes only when it was an alias; other weight keys are unchanged |
| Event.CleanVolume | pyzenobase/zenobase_event.py:37-39 | only the volume field changes, to its normalized form; a volume without a string unit is an error |
| Event.CleanWeight | pyzenobase/zenobase_event.py:41-45 | only the weight field changes, to its normalized form; a weight without a unit is an error |
| Event.MakeEventTimestamp | pyzenobase/zenobase_event.py:28-35 | the constructed record's timestamp relates to the input's as the formatting rule says |
| Event.MakeEventVolumeUnit | pyzenobase/zenobase_event.py:38-39 | after construction the volume unit is the input unit with every `l` replaced by `L`, has no `l`, and the other volume keys are untouched |
| Event.MakeEventWeightUnit | pyzenobase/zenobase_event.py:42-45 | after construction the weight unit is "ug" exactly when it was "ug", "mcg" or "Âµg"; any other weight is unchanged |
| Event.FormatTimestampIdempotent | pyzenobase/zenobase_event.py:28-35 | formatting a formatted timestamp changes nothing |
| Event.NormalizeVolumeIdempotent | pyzenobase/zenobase_event.py:38-39 | the `l` to `L` rewrite is idempotent |
| Event.NormalizeWeightIdempotent | pyzenobase/zenobase_event.py:42-45 | the microgram rewrite is idempotent |
| Event.MakeEventIdempotent | pyzenobase/zenobase_event.py:15-45 | constructing an event from a constructed event gives the same event |
| Event.CleanTimestampKeepsText | pyzenobase/zenobase_event.py:28-35 | a record whose timestamp holds no datetime passes timestamp cleaning unchanged |
| Event.MakeEventVolumeOnly | pyzenobase/zenobase_event.py:15-45 | a record of known fields with a datetime-free timestamp and a volume but no weight is built with only its volume normalized |
| Event.MakeEventWeightOnly | pyzenobase/zenobase_event.py:15-45 | the same with a weight and no volume |
| Event.MakeEventUnitless | pyzenobase/zenobase_event.py:15-45 | a record of known fields with a datetime-free timestamp and no volume or weight is built unchanged |
| Event.MicroSignNotRewritten | pyzenobase/zenobase_event.py:44 | a weight spelt "µg" with the real micro sign is kept as it is |
| Event.ListElementsUnchecked | pyzenobase/zenobase_event.py:47-50 | an empty list and a list of integers are both accepted as timestamps and kept |
| LegacyEvent.MakeLegacyEvent | pyzenobase/main.py:89-96 | fails exactly when some key is outside the 24 names; on success the record is the input, verbatim |
| LegacyEvent.LegacyFieldsAreFewer | pyzenobase/main.py:82-86 | the older names are a subset of the current ones, missing exactly currency, pace and distance/volume |
| LegacyEvent.LegacyKeysAcceptedByEvent | pyzenobase/main.py:93-96 | a record the older class accepts never fails the current class's field check |
| LegacyEvent.CurrencyOnlyInEvent | pyzenobase/main.py:82-86 | a currency record is rejected by the older class and accepted by the current one |
| LegacyEvent.LegacyKeepsUnits | pyzenobase/main.py:93-96 | the older class keeps "ml" while the current one sends "mL" |
| Http.AuthHeaders | pyzenobase/zenobase_api.py:32-33 | every request carries exactly the bearer-token authorization and the JSON content type |
| Http.DecodeReply | pyzenobase/zenobase_api.py:40-43 | the reply is parsed JSON exactly when a content-type header contains "application/json" and the body parses; such a body that does not parse is an error; otherwise the reply is the raw text |
| Http.DecodeReplyExamples | pyzenobase/zenobase_api.py:40-43 | a JSON content type with a charset is parsed; "text/json" is returned as text |
| ApiClient.TokenForm | pyzenobase/zenobase_api.py:12-16 | the password grant with username and password exactly when a username is given; otherwise the client-credentials grant alone |
| ApiClient.PyContains | pyzenobase/zenobase_api.py:19 | Python's `in`: a key of a dict, an element of a list, a substring of a string; a TypeError for anything else |
| ApiClient.ReadToken | pyzenobase/zenobase_api.py:18-22 | a response containing "error" is AuthRejected; success exactly when the response has string access_token and client_id, which are stored |
| ApiClient.Open | pyzenobase/zenobase_api.py:11-22 | issues exactly one token request, for the chosen grant; succeeds and fails according to the token response |
| ApiClient.OpenIgnoresStatus | pyzenobase/zenobase_api.py:17-19 | construction depends only on the response body, never on its status |
| ApiClient.Call | pyzenobase/zenobase_api.py:30-43 | one authorized request to host plus path with the JSON body, none if the body is not serializable; fails exactly when the status is outside [200, 300); otherwise the decoded reply |
| ApiClient.ListBuckets | pyzenobase/zenobase_api.py:54-59 | a limit above 100 fails with no request; otherwise one GET to the paged, label-ordered listing path of the client, failing exactly outside the 2xx range and otherwise decoding the reply |
| ApiClient.GetBucket | pyzenobase/zenobase_api.py:61-62 | an id `format` cannot render fails with no request; otherwise one GET to /buckets/ plus the rendered id, failing exactly outside the 2xx range and otherwise decoding the reply |
| ApiClient.CreateBucket | pyzenobase/zenobase_api.py:64-67 | no request exactly when the label length is outside 1..20, and then BadLabelLength; otherwise one POST of label and description to /buckets/, under the 2xx rule |
| ApiClient.CreateBucketIgnoresCharset | pyzenobase/zenobase_api.py:65-67 | a label with characters outside the advertised set is still sent |
| ApiClient.CreateOrGetBucket | pyzenobase/zenobase_api.py:69-74 | always lists first; a failed listing or a malformed one (no "buckets" list, an unlabelled bucket before a match) fails with that error and nothing more; returns the first bucket with the label and issues nothing more; if none matches, issues exactly the create request; at most two requests |
| ApiClient.CreateOrGetReturnsFirstMatch | pyzenobase/zenobase_api.py:70-73 | with a first match at position i, the result is bucket i and the trace is the listing alone |
| ApiClient.CreateOrGetCreatesOnce | pyzenobase/zenobase_api.py:69-74 | with no match, exactly one create POST follows the listing |
| ApiClient.DeleteBucket | pyzenobase/zenobase_api.py:76-77 | an unrenderable id fails with no request; otherwise one DELETE to /buckets/ plus the rendered id; a status outside 2xx fails; otherwise the reply is discarded and only an undecodable one fails |
| ApiClient.ListEvents | pyzenobase/zenobase_api.py:79-80 | an unrenderable id fails with no request; otherwise one GET to /buckets/ plus the rendered id and a slash, under the 2xx rule |
| ApiClient.BucketEndpointsAgree | pyzenobase/zenobase_api.py:61-97 | get_bucket and delete_bucket request the same URL, list_events and create_event that URL with a slash, and a bucket dict posts where its id does |
| ApiClient.ResolveBucketId | pyzenobase/zenobase_api.py:82-92 | a string resolves to itself, a dict with "@id" to that value; a dict without it, or any other value, fails |
| ApiClient.ResolveBucketOrId | pyzenobase/zenobase_api.py:83-92 | a bucket and its id resolve to the same id |
| ApiClient.Render | pyzenobase/zenobase_api.py:97 | the `str()` of an id placed in a path: a string as is, an integer in decimal |
| ApiClient.CreateEvent | pyzenobase/zenobase_api.py:94-97 | a non-dict event fails, then an unresolvable bucket, then an id `format` cannot render, each with no request; otherwise one POST of the event to /buckets/ plus the rendered id and a slash, whatever the id's type |
| ApiClient.CreateEvents | pyzenobase/zenobase_api.py:99-104 | a non-list, an unresolvable bucket, a non-dict element or a non-string id fails with no request; otherwise one POST of {"events": events} to /buckets/id/ |
| ApiClient.Close | pyzenobase/zenobase_api.py:106-107 | one DELETE to /authorizations/token, under the 2xx rule |
| ApiClient.CloseRevokesOpenedToken | pyzenobase/zenobase_api.py:106-107 | a client opened from a token response deletes /authorizations/ of that very token, authorised by it |
| Buckets.ScanFrom | pyzenobase/zenobase_api.py:71-73 | the first labelled match at or after the start, none when every bucket is passed over, a KeyError at the first bucket without a label |
| Buckets.Scan | pyzenobase/zenobase_api.py:71-73 | the loop returns the first bucket whose label equals the name; none exactly when all are passed over |
| Buckets.ScanFindsFirst | pyzenobase/zenobase_api.py:71-73 | any matching bucket is at or after the one returned |
| Buckets.ScanFailsOnlyOnUnlabelled | pyzenobase/zenobase_api.py:71-72 | a listing where every bucket has a label never fails |
| Buckets.FindBucket | pyzenobase/zenobase_api.py:70-73 | a malformed listing is an error; otherwise the first match, and nothing exactly when no bucket matches |
| LegacyApi.LegacyTokenForm | pyzenobase/main.py:14 | always the password grant, with username and password |
| LegacyApi.Open | pyzenobase/main.py:13-19 | one token request; the same error and success rules as the current client |
| LegacyApi.OpenAgreesWithPasswordGrant | pyzenobase/main.py:13-19 | with a username, both clients open identically |
| LegacyApi.MethodNamed | pyzenobase/main.py:27-34 | exactly "GET", "POST" and "DELETE" select a method |
| LegacyApi.Call | pyzenobase/main.py:21-42 | an unknown method fails with no request; otherwise one authorized request; fails exactly when the status is above 300 |
| LegacyApi.StatusRulesDiffer | pyzenobase/main.py:36-37 | for 2xx both clients agree; status 300 and statuses below 200 fail in the current client but succeed in the older one; above 300 both fail |
| LegacyApi.ListBuckets | pyzenobase/main.py:53-54 | one GET to the unpaged /users/client/buckets/, failing exactly when the status is above 300 |
| LegacyApi.GetBucket | pyzenobase/main.py:56-57 | an unrenderable id fails with no request; otherwise one GET to /buckets/ plus the rendered id, failing exactly when the status is above 300 |
| LegacyApi.CreateBucket | pyzenobase/main.py:59-62 | the same length-only rule: no request exactly when the length is outside 1..20; otherwise one POST, under the older status rule |
| LegacyApi.CreateOrGetBucket | pyzenobase/main.py:64-69 | the same first-match rule over the unpaged listing; a failed or malformed listing fails with no create; at most two requests |
| LegacyApi.CreateBucketAgrees | pyzenobase/main.py:59-62 | both clients refuse the same names with BadLabelLength and send the same create request for the others |
| LegacyApi.ListingsDiffer | pyzenobase/main.py:53-54 | the two listing requests differ only in the paging query the current client appends to the URL |
| LegacyApi.DeleteBucket | pyzenobase/main.py:71-72 | an unrenderable id fails with no request; otherwise one DELETE to /buckets/ plus the rendered id; a status above 300 fails; otherwise the reply is discarded |
| LegacyApi.ListEvents | pyzenobase/main.py:74-75 | an unrenderable id fails with no request; otherwise one GET to /buckets/ plus the rendered id and a slash, under the older status rule |
| LegacyApi.CreateEvent | pyzenobase/main.py:77-79 | a non-dict event fails first, then an unrenderable id, then an unserializable event, each with no request; otherwise one POST of the event to /buckets/ plus the rendered id and a slash, under the older status rule |
| LegacyApi.EndpointsAgree | pyzenobase/main.py:56-75 | for a renderable id both clients send the same get, delete and list-events requests |
| Calendar.AddMinutes | pyzenobase/util.py:7 | shifting a wall-clock time by an offset moves it by exactly that many minutes, keeps seconds and microseconds, and fails only past the first or last representable day |
| Calendar.ToZone | pyzenobase/util.py:7 | `astimezone`: the converted time carries the target offset and denotes the same UTC instant |
| TimeFormat.FmtDateTime | pyzenobase/util.py:5-8 | a naive time always prints; an aware one fails only at the ends of the calendar; the output has 28 characters with ".000" in place of the milliseconds |
| TimeFormat.FmtNaive | pyzenobase/util.py:7-8 | the naive case of the formatter always yields a string |
| TimeFormat.OffsetTextParts | pyzenobase/util.py:8 | `%z` prints the sign, then the offset's hours and minutes as two digits each |
| TimeFormat.ParseWallText | pyzenobase/util.py:8 | the first 19 characters read back as the date and the clock to the second |
| TimeFormat.ParseStampRoundTrip | pyzenobase/util.py:8 | a printed timestamp reads back as its date, its clock to the second and its offset |
| TimeFormat.FmtNaiveMeaning | pyzenobase/util.py:7-8 | a naive time keeps its wall-clock fields and is printed with the target zone's offset |
| TimeFormat.FmtAwareMeaning | pyzenobase/util.py:7-8 | for an aware time, the printed local time minus the printed offset is the input instant in UTC, and the offset is the target zone's |
| TimeFormat.StampIgnoresMicroseconds | pyzenobase/util.py:8 | the millisecond field is literal: microseconds never change the output |
| TimeFormat.ToZoneIgnoresMicroseconds | pyzenobase/util.py:7 | conversion carries microseconds along untouched |
| TimeFormat.FmtIgnoresMicroseconds | pyzenobase/util.py:7-8 | two times that differ only in microseconds format identically, naive or aware |
| TimeFormat.DtToTimestamp | pyzenobase/main.py:98-99 | the wall clock to the second, then ".000", then the zone text verbatim |
| Strptime.ParseMonthDayYear | examples/upload_lifelogger_spreadsheet/main.py:72-73 | only texts of three `/`-parts with valid month, day and four-digit year fields parse, and only to valid dates; such fields parse to their date exactly when it exists |
| Strptime.ParseYearMonthDay | examples/upload_lifelogger_spreadsheet/main.py:74-75 | the same for `%Y-%m-%d` |
| Strptime.DateRoundTrip | examples/upload_lifelogger_spreadsheet/main.py:72-75 | a zero-padded date reads back as itself in both formats |
| Strptime.UnpaddedDate | examples/upload_lifelogger_spreadsheet/main.py:73 | one-digit months and days are accepted |
| Strptime.SpacePaddedDay | examples/upload_lifelogger_spreadsheet/main.py:73 | a day written as a space and a digit is accepted |
| Strptime.DayPastMonthEnd | examples/upload_lifelogger_spreadsheet/main.py:73 | a day past the month's end fails |
| Strptime.ShortYearRefused | examples/upload_lifelogger_spreadsheet/main.py:73 | a year not of four characters fails |
| Strptime.YearZeroRefused | examples/upload_lifelogger_spreadsheet/main.py:75 | year 0000 fails |
| Strptime.ParseHourMinute | examples/upload_lifelogger_spreadsheet/main.py:216 | only one `:` with hour and minute fields parses, to a valid time whose hour and minute are the values of those fields and whose seconds are zero |
| Strptime.ParseHourMinuteSecond | examples/lifelogger_spreadsheet.py:198 | only two `:` with hour, minute and second fields parses, to the valid time whose hour, minute and second are the values of those fields, padded or not |
| Strptime.OneDigitHourSeconds | examples/lifelogger_spreadsheet.py:198 | a one-digit hour such as "8:30:00" reads as the clock it names |
| Strptime.ClockRoundTrip | examples/lifelogger_spreadsheet.py:198 | a zero-padded time reads back as itself, with and without seconds |
| Strptime.SecondsRoundTrip | examples/lifelogger_spreadsheet.py:198 | a zero-padded `H:M:S` time reads back as itself |
| Strptime.MinutesRoundTrip | examples/upload_lifelogger_spreadsheet/main.py:216 | a zero-padded `H:M` time reads back with zero seconds |
| Strptime.LeapSecondRefused | examples/lifelogger_spreadsheet.py:198 | seconds 60 and 61 match the pattern but fail |
| Strptime.LateHourRefused | examples/upload_lifelogger_spreadsheet/main.py:216 | hours 24 to 99 fail |
| Strptime.OneDigitHour | examples/upload_lifelogger_spreadsheet/main.py:216 | a one-digit hour is accepted |
| Sheet.FirstColumn | examples/upload_lifelogger_spreadsheet/main.py:70 | the first cell of every row, in order; an empty row is an IndexError |
| Sheet.DateShapedCounts | examples/upload_lifelogger_spreadsheet/main.py:71-74 | a cell is tried as a date exactly when it has two `/` or two `-` |
| Sheet.ParseDateCell | examples/upload_lifelogger_spreadsheet/main.py:72-75 | the `/` format is tried first, the `-` format otherwise; a cell that fails is a BadDate error |
| Sheet.GetDates | examples/upload_lifelogger_spreadsheet/main.py:62-87 | an empty row is an IndexError; every date returned is valid |
| Sheet.UntilEmpty | examples/upload_lifelogger_spreadsheet/main.py:84-86 | the longest prefix without an empty cell |
| Sheet.DateRun | examples/upload_lifelogger_spreadsheet/main.py:70-86 | the cells read: nothing without a date-shaped cell, otherwise the first date-shaped cell and what follows it up to the first empty cell |
| Sheet.ScanIsParsedRun | examples/upload_lifelogger_spreadsheet/main.py:68-87 | the scan equals parsing the date-shaped cells of that run in row order, skipping the others |
| Sheet.ScanAfterFirst | examples/upload_lifelogger_spreadsheet/main.py:80-86 | once a date is found, the scan stops at the first empty cell |
| Sheet.NoDatesWithoutDateCells | examples/upload_lifelogger_spreadsheet/main.py:70-79 | a first column without date-shaped cells yields no dates |
| Sheet.NextFrom | examples/upload_lifelogger_spreadsheet/main.py:99-106 | the loop of `next_cat_col`: the first non-empty category from j on, or i when there is none |
| Sheet.NextCategoryColumn | examples/upload_lifelogger_spreadsheet/main.py:99-106 | the smallest later column with a non-empty category, or the column itself when there is none |
| Sheet.LabelsEnd | examples/upload_lifelogger_spreadsheet/main.py:108-110 | a category's label range ends at the next category and within the label row |
| Sheet.IndexFrom | examples/upload_lifelogger_spreadsheet/main.py:114 | `list.index` from a start: the first occurrence, or a ValueError when there is none |
| Sheet.LabelColumn | examples/upload_lifelogger_spreadsheet/main.py:112-114 | the column found holds the label |
| Sheet.LabelColumnFound | examples/upload_lifelogger_spreadsheet/main.py:113-114 | a label standing at column k of a category is found, at column k or before it |
| Sheet.CellsUpTo | examples/upload_lifelogger_spreadsheet/main.py:115-119 | fails exactly when some row of a date is too short |
| Sheet.CellsUnique | examples/upload_lifelogger_spreadsheet/main.py:115-119 | each date appears once in a label's cells |
| Sheet.CellsAbsent | examples/upload_lifelogger_spreadsheet/main.py:116-119 | a date whose cells are all empty or "#VALUE!" is absent |
| Sheet.CellsLastWins | examples/upload_lifelogger_spreadsheet/main.py:116-119 | a date maps to the cell of its last kept row |
| Sheet.LabelCells | examples/upload_lifelogger_spreadsheet/main.py:112-120 | `get_label_cells` fails only with an IndexError |
| Sheet.FillLabels | examples/upload_lifelogger_spreadsheet/main.py:127-128 | the label loop fails only with an IndexError |
| Sheet.FillLabelsOthers | examples/upload_lifelogger_spreadsheet/main.py:127-128 | a name not in the label range is left as it was |
| Sheet.FillLabelsStep | examples/upload_lifelogger_spreadsheet/main.py:127-128 | one step of the loop stores the label's cells |
| Sheet.SameLabelSameCells | examples/upload_lifelogger_spreadsheet/main.py:113-114 | repeated labels in a category read the same column |
| Sheet.FillLabelsHas | examples/upload_lifelogger_spreadsheet/main.py:127-128 | every label of the range maps to its cells |
| Sheet.FillLabelsLastOccurrence | examples/upload_lifelogger_spreadsheet/main.py:127-128 | the last occurrence of a label determines its entry |
| Sheet.CategoryTable | examples/upload_lifelogger_spreadsheet/main.py:126-128 | a category's table fails only with an IndexError |
| Sheet.FillCategories | examples/upload_lifelogger_spreadsheet/main.py:122-128 | the category loop fails only with an IndexError |
| Sheet.FillCategoriesOthers | examples/upload_lifelogger_spreadsheet/main.py:123-128 | a name that is not a later category is left as it was |
| Sheet.FillCategoriesHas | examples/upload_lifelogger_spreadsheet/main.py:123-128 | the last column of each category determines its entry |
| Sheet.GetMain | examples/upload_lifelogger_spreadsheet/main.py:89-130 | a sheet of fewer than two rows is an IndexError; success needs the dates to parse |
| Sheet.GetMainEntry | examples/upload_lifelogger_spreadsheet/main.py:122-128 | a category maps every label of its range to that label's cells, and holds no other label |
| Sheet.LastCategoryIsEmpty | examples/upload_lifelogger_spreadsheet/main.py:99-110 | the last category gets no labels |
| Patterns.AltAt | examples/upload_lifelogger_spreadsheet/main.py:199 | an alternation at one position: an alternative that occurs there, none exactly when none does |
| Patterns.FirstAltFrom | examples/upload_lifelogger_spreadsheet/main.py:199 | the leftmost position where some alternative occurs |
| Patterns.FirstAlternative | examples/upload_lifelogger_spreadsheet/main.py:199 | `findall(...)[0]`: an alternative that occurs in the text; none exactly when none occurs anywhere |
| Patterns.FirstAlternativeAt | examples/upload_lifelogger_spreadsheet/main.py:199 | with prefix-free alternatives, the first match is the one at the leftmost position |
| Patterns.FirstUnit | examples/upload_lifelogger_spreadsheet/main.py:262 | the unit found is one of the eight unit spellings |
| Patterns.FirstUnitFound | examples/upload_lifelogger_spreadsheet/main.py:261-266 | a unit is found exactly when the text contains `g` or `l` |
| Patterns.RouteOf | examples/upload_lifelogger_spreadsheet/main.py:233-237 | the first route keyword in a token, or "oral" when there is none |
| Patterns.NumberEnd | examples/upload_lifelogger_spreadsheet/main.py:198 | the end of `[0-9]+\.?[0-9]*` from a digit: at the text's end, at a character that continues no number, or at a second dot |
| Patterns.NumberEndShape | examples/upload_lifelogger_spreadsheet/main.py:198 | the matched text is digits with at most one dot |
| Patterns.LeadingAmount | examples/upload_lifelogger_spreadsheet/main.py:198 | an amount exactly when the text starts with a digit; it is a number-shaped prefix |
| Patterns.PercentAt | examples/upload_lifelogger_spreadsheet/main.py:201 | a match found at a position is a number followed by `%`; none is found exactly when no such match exists |
| Patterns.PercentMatchFound | examples/upload_lifelogger_spreadsheet/main.py:201 | a match at a position has a single end, and it is the one found |
| Patterns.FirstPercent | examples/upload_lifelogger_spreadsheet/main.py:201 | the number of the match at the leftmost position where one exists, with the `%` removed; none exactly when no position matches |
| Patterns.PercentExamples | examples/upload_lifelogger_spreadsheet/main.py:271-272 | "50% rest" gives "50"; a bare "%" gives nothing |
| Patterns.TimeAt | examples/upload_lifelogger_spreadsheet/main.py:197 | a time match is `H:MM` or `HH:MM`; none exactly when neither shape starts there; the two-digit hour is taken when it matches |
| Patterns.FindTimes | examples/upload_lifelogger_spreadsheet/main.py:197 | every time found has the `H:MM` or `HH:MM` shape; nothing is found exactly when no position matches |
| Patterns.FindTimesStep | examples/upload_lifelogger_spreadsheet/main.py:197 | findall skips positions without a match, reports the first match and resumes right after it |
| Patterns.TimeExamples | examples/upload_lifelogger_spreadsheet/main.py:197 | "~8:30" gives "8:30"; "123:45" gives "23:45" |
| Text.Split | examples/upload_lifelogger_spreadsheet/main.py:72 | `str.split(sep)`: one part more than separators, no part holds the separator, and joining gives the text back |
| Text.SplitJoin | examples/upload_lifelogger_spreadsheet/main.py:239 | splitting the join of separator-free parts gives the parts back |
| Text.Strip | examples/upload_lifelogger_spreadsheet/main.py:239 | `str.strip`: the middle of the text with only whitespace removed from each end |
| Text.ReplaceChar | pyzenobase/zenobase_event.py:39 | replaces exactly the occurrences of one character, position by position |
| Text.ReplaceCharRemoves | pyzenobase/zenobase_event.py:39 | the replaced character is gone |
| Text.ReplaceCharIdempotent | pyzenobase/zenobase_event.py:39 | replacing twice equals replacing once |
| Text.Contains | pyzenobase/zenobase_api.py:41 | substring containment |
| Text.IntToString | pyzenobase/zenobase_api.py:59 | decimal printing of an integer, with a minus sign when negative |
| OrderedDict.Put | examples/upload_lifelogger_spreadsheet/main.py:119 | assigning to a key keeps its place when it exists and appends it otherwise |
| OrderedDict.PutFinds | examples/upload_lifelogger_spreadsheet/main.py:119 | after assigning a key, it reads back its value |
| OrderedDict.PutKeepsOthers | examples/upload_lifelogger_spreadsheet/main.py:119 | assigning a key leaves every other key's value |
| OrderedDict.PutPut | examples/upload_lifelogger_spreadsheet/main.py:119 | the second assignment to a key wins |
| Supplements.Pieces | examples/upload_lifelogger_spreadsheet/main.py:239 | one piece more than `+` signs; no piece holds `+` or has whitespace at its ends |
| Supplements.PiecesRoundTrip | examples/upload_lifelogger_spreadsheet/main.py:239 | stripped, `+`-free doses joined with `+` split back into themselves |
| Supplements.CellRoute | examples/upload_lifelogger_spreadsheet/main.py:233-237 | a route keyword; one other than "oral" occurs in the last word; "oral" when the last word holds none |
| Supplements.RouteNamedLast | examples/upload_lifelogger_spreadsheet/main.py:233-237 | a cell ending in a route keyword has that route |
| Supplements.SecondWord | examples/upload_lifelogger_spreadsheet/main.py:278 | present exactly when the piece has a space; holds no space |
| Supplements.SecondWordIsSplit | examples/upload_lifelogger_spreadsheet/main.py:278 | it is `split(" ")[1]` |
| Supplements.ReadDose | examples/upload_lifelogger_spreadsheet/main.py:254-278 | unreadable exactly when the amount, the unit, or a percentage that `%` calls for is missing; an IndexError exactly when readable without a space; otherwise the leading amount, the first unit, the percentage and the second word |
| Supplements.ReadDoseSplits | examples/upload_lifelogger_spreadsheet/main.py:278 | the IndexError case is exactly a split of fewer than two words; the substance is the second word of the split |
| Supplements.ReadDoses | examples/upload_lifelogger_spreadsheet/main.py:239-278 | each piece read in order |
| Supplements.FirstUnitOfText | examples/upload_lifelogger_spreadsheet/main.py:262 | the unit of a written dose is found again |
| Supplements.SubstanceOfText | examples/upload_lifelogger_spreadsheet/main.py:278 | the substance of a written dose is found again |
| Supplements.DoseRoundTrip | examples/upload_lifelogger_spreadsheet/main.py:254-278 | a dose written as amount, unit, space, substance reads back as itself |
| Supplements.KindOf | examples/upload_lifelogger_spreadsheet/main.py:279 | "volume" exactly when the unit contains `l`, "weight" otherwise |
| Supplements.DoseDataShape | examples/upload_lifelogger_spreadsheet/main.py:281-290 | the dict has timestamp, tag and the kind, plus percentage exactly when there is one |
| Supplements.DoseDataWellFormed | examples/upload_lifelogger_spreadsheet/main.py:281-287 | the dict uses only recognised field names |
| Supplements.DoseDataConstruction | examples/upload_lifelogger_spreadsheet/main.py:281-287 | construction succeeds and changes only the kind's field, to its normalized form |
| Supplements.UnitNormalized | examples/upload_lifelogger_spreadsheet/main.py:281-287 | cleaning rewrites only the unit |
| Supplements.DoseDataBuilds | examples/upload_lifelogger_spreadsheet/main.py:281-287 | the constructed event is the dict with its unit cleaned |
| Supplements.FoundUnitCleaned | examples/upload_lifelogger_spreadsheet/main.py:279-287 | for each of the eight units, the unit sent after cleaning is the Zenobase spelling: "mcg" becomes "ug" and `l` becomes `L` |
| TimestampedSupps.ParseClocks | examples/upload_lifelogger_spreadsheet/main.py:216-217 | every match parsed in order; none exactly when one fails |
| TimestampedSupps.ReadTimes | examples/upload_lifelogger_spreadsheet/main.py:212-227 | approximate exactly when the cell starts with `~`; unknown exactly when no time is found or one fails to parse, and then midnight alone; otherwise the parsed times |
| TimestampedSupps.HourMinuteFound | examples/upload_lifelogger_spreadsheet/main.py:216-217 | a zero-padded `HH:MM` is found and parsed, with or without a leading `~` |
| TimestampedSupps.ReadTimesRoundTrip | examples/upload_lifelogger_spreadsheet/main.py:212-227 | a written time reads back as itself, approximate exactly when `~` leads |
| TimestampedSupps.ReadMarker | examples/upload_lifelogger_spreadsheet/main.py:243-248 | a leading `~` is dropped and marks approximate; a leading `?` marks unknown and every `?` becomes `0`; any other piece is kept |
| TimestampedSupps.MarkerTags | examples/upload_lifelogger_spreadsheet/main.py:289-303 | each marker tag is present exactly when its condition holds |
| TimestampedSupps.MarkerTagsInOrder | examples/upload_lifelogger_spreadsheet/main.py:289-303 | the tags that hold, in the fixed order alcohol, unknown_dose, approximate_dose, unknown_time, approximate_time |
| TimestampedSupps.SuppEvent | examples/upload_lifelogger_spreadsheet/main.py:281-303 | the event has the timestamp, the tags substance, route, "timestamped" and then the extra tags, the amount under the unit's kind with the Zenobase unit, and the percentage when there is one |
| TimestampedSupps.SuppEventConstructed | examples/upload_lifelogger_spreadsheet/main.py:281-290 | building the script's dict and adding the percentage gives that event |
| TimestampedSupps.ReadPieces | examples/upload_lifelogger_spreadsheet/main.py:239-278 | an empty piece or one without a second word raises; every other piece is its markers and its reading |
| TimestampedSupps.ReadingEvents | examples/upload_lifelogger_spreadsheet/main.py:254-305 | one piece gives one error when unreadable, one marked event when read, and ends the run when it raises |
| TimestampedSupps.ReadingsEvents | examples/upload_lifelogger_spreadsheet/main.py:239-305 | fails exactly when some piece raises; otherwise one event or one error per piece |
| TimestampedSupps.ReadingsContent | examples/upload_lifelogger_spreadsheet/main.py:239-305 | without a raise, the events are those of the pieces that read, in order |
| TimestampedSupps.Stamps | examples/upload_lifelogger_spreadsheet/main.py:27-28 | one timestamp per time, in order, each reading back as the date at that time in the zone |
| TimestampedSupps.CellStamp | examples/upload_lifelogger_spreadsheet/main.py:27-28 | a list of strings, one per time |
| TimestampedSupps.CellEvents | examples/upload_lifelogger_spreadsheet/main.py:206-305 | an empty time cell gives nothing; fails exactly when some piece raises; otherwise one event or error per piece, plus one error for an unknown time; the events are the marked events of the pieces that read |
| TimestampedSupps.DatesEvents | examples/upload_lifelogger_spreadsheet/main.py:205-305 | on success every date's row reaches the column pair, and the counts add up over the dates |
| TimestampedSupps.ColumnsEvents | examples/upload_lifelogger_spreadsheet/main.py:204-305 | on success every column pair from i on exists for every date |
| TimestampedSupps.CreateTimestampedSupps | examples/upload_lifelogger_spreadsheet/main.py:188-309 | a date error is passed on; an empty sheet is an IndexError; on success every column pair exists for every date |
| SimpleSupps.MappedUnit | examples/lifelogger_spreadsheet.py:240-242 | "mcg" and "µg" become "ug", any other unit is kept |
| SimpleSupps.SentUnit | examples/lifelogger_spreadsheet.py:245-250 | the unit after the always-taken `l` to `L` rewrite has no `l` |
| SimpleSupps.MicroSignNotAUnit | examples/lifelogger_spreadsheet.py:187 | the unit pattern never yields "µg" |
| SimpleSupps.SentUnitAgrees | examples/lifelogger_spreadsheet.py:240-250 | the older script decides the same kind and sends, after cleaning, the same unit as the upload script |
| SimpleSupps.SimpleEvent | examples/lifelogger_spreadsheet.py:252-260 | the event has the timestamp, exactly the tags substance, route, "timestamped", the amount under the kind, and the percentage when there is one |
| SimpleSupps.SimpleEventConstructed | examples/lifelogger_spreadsheet.py:252-260 | building the script's dict and adding the percentage gives that event |
| SimpleSupps.SimpleEventIsUnmarked | examples/lifelogger_spreadsheet.py:252-258 | it is the upload script's event with no marker tags |
| SimpleSupps.SimpleReadingEvents | examples/lifelogger_spreadsheet.py:216-261 | one reading gives one error when unreadable, one event when read, and ends the run without a second word |
| SimpleSupps.SimpleReadingsEvents | examples/lifelogger_spreadsheet.py:215-261 | fails exactly when some reading lacks a second word; otherwise one event or error per piece |
| SimpleSupps.SimpleReadingsContent | examples/lifelogger_spreadsheet.py:215-261 | without a raise, the events are those of the readable pieces, in order |
| SimpleSupps.SimpleCellEvents | examples/lifelogger_spreadsheet.py:194-261 | an empty time cell gives nothing; an unparsable time gives one error and no events; otherwise the pieces' events at that time |
| SimpleSupps.SimpleStampRoundTrip | examples/lifelogger_spreadsheet.py:198 | a written `H:M:S` time reads back, and its timestamp reads back as the date at that time in the zone |
| SimpleSupps.SimpleDatesEvents | examples/lifelogger_spreadsheet.py:193-261 | on success every date's row reaches the column pair, and the counts add up over the dates |
| SimpleSupps.SimpleColumnsEvents | examples/lifelogger_spreadsheet.py:192-261 | on success every column pair from i on exists for every date |
| SimpleSupps.CreateSimpleSupps | examples/lifelogger_spreadsheet.py:179-265 | a date error is passed on; an empty sheet is an IndexError; on success every column pair exists for every date |
| Streaks.StreakState | examples/upload_lifelogger_spreadsheet/main.py:144-149 | "TRUE" is 1, "FALSE" is -1, anything else has no state |
| Streaks.StreakEvent | examples/upload_lifelogger_spreadsheet/main.py:150-154 | exactly timestamp, count and tag; count 1 for TRUE and -1 for FALSE; tag [label, value]; the timestamp reads back as midnight of the date in the zone |
| Streaks.StreakEventConstructed | examples/upload_lifelogger_spreadsheet/main.py:151-154 | constructing the script's dict gives that event |
| Streaks.StreakDataShape | examples/upload_lifelogger_spreadsheet/main.py:150-154 | the dict's three keys and its midnight timestamp |
| Streaks.StreakDataBuilds | examples/upload_lifelogger_spreadsheet/main.py:151-154 | construction leaves the dict as it is |
| Streaks.StatedCells | examples/upload_lifelogger_spreadsheet/main.py:142-149 | exactly the cells holding TRUE or FALSE, no more of them than there are cells |
| Streaks.DateEvents | examples/upload_lifelogger_spreadsheet/main.py:142-154 | one event per TRUE/FALSE cell, the k-th event being that of the k-th kept cell |
| Streaks.DateEventsComplete | examples/upload_lifelogger_spreadsheet/main.py:142-154 | every TRUE/FALSE cell has its event |
| Streaks.DateEventsSound | examples/upload_lifelogger_spreadsheet/main.py:142-154 | every event comes from a TRUE/FALSE cell |
| Streaks.DateEventsCount | examples/upload_lifelogger_spreadsheet/main.py:142-149 | all TRUE/FALSE gives one event per date; no TRUE/FALSE gives none |
| Streaks.StatedCellsOne | examples/upload_lifelogger_spreadsheet/main.py:142-149 | a single cell is kept exactly when it holds TRUE or FALSE |
| Streaks.StatedCellsAppend | examples/upload_lifelogger_spreadsheet/main.py:142-149 | the kept cells of two runs are the first run's followed by the second's: the dict's order is kept |
| Streaks.DateEventsAppend | examples/upload_lifelogger_spreadsheet/main.py:142-154 | the events of two runs of dates are the first run's followed by the second's |
| Streaks.DateEventsOne | examples/upload_lifelogger_spreadsheet/main.py:142-154 | a lone TRUE/FALSE cell yields exactly its event; any other cell none |
| Streaks.LabelEvents | examples/upload_lifelogger_spreadsheet/main.py:141-154 | the events of all labels, and only those |
| Streaks.LabelEventsAppend | examples/upload_lifelogger_spreadsheet/main.py:141-154 | labels are visited in order: the events of two runs of labels are the first run's followed by the second's, and one label yields its dates' events |
| Streaks.CreateStreaks | examples/upload_lifelogger_spreadsheet/main.py:136-156 | a KeyError exactly when there is no "Streaks" category; otherwise the events of its labels |

`create_streaks` of `examples/lifelogger_spreadsheet.py` (lines 127-147)
is line for line the same as the upload script's, and the Streaks module
models both.

## Left out

- HTTP transport: the `requests` calls, the OAuth exchange and JSON encoding and decoding are I/O. The remote is a function from request to response, with status, lower-cased headers, text and parsed JSON.
- Session state: the client keeps no open/closed flag. `__enter__`/`__exit__` only call `close`, and use after close is up to the remote.
- Python object identity: `clean_data` mutates the caller's nested dicts, and `_request` mutates a shared default `headers` dict. The model works on values, so neither aliasing effect appears.
- Time zones: pytz and tzlocal are replaced by a fixed UTC offset in minutes, under 24 hours. Daylight saving, historical offsets with seconds and the host's default zone are not modelled.
- TimeFormat.FmtDateTime: years below 1000 are printed with four zero-padded digits. The platform's `%Y` may print fewer.
- TimeFormat.DtToTimestamp: years below 1000 are printed with four zero-padded digits, and its ensured length of 23 plus the zone text rests on that. The platform's `%Y` may print fewer digits.
- Google Sheets: gspread, oauth2client, `get_raw_table` and the bucket lookups of the script constructor are I/O. The sheet is a given `seq<seq<string>>`.
- Numbers: `float()` of an amount is not modelled. The amount is kept as the text the weight pattern matched, which `float()` always accepts.
- Regular expressions: the five patterns are explicit scanners in Patterns, not a regex engine.
- Strptime.ParseMonthDayYear: only ASCII digits are read. Python's `strptime` also accepts other Unicode decimal digits.
- Strptime.ParseYearMonthDay: only ASCII digits are read, as for `%m/%d/%Y`. Python's `strptime` also accepts other Unicode decimal digits.
- Strptime.ParseHourMinuteSecond: only ASCII digits are read from the raw time cell. Python's `strptime` also accepts other Unicode decimal digits.
- `create_daily_supps`: it is not modelled, because each of its events depends on `float()` of a whole cell.
- Logging, the `parse_errors` message, argparse, `input()` prompts and timing are not modelled.
- `_create_events` and its `debugging` branch: the upload is the client's `create_events`/`create_event`, already modelled.
- `examples/battery_csv.py`, `examples/dump_zenobase/main.py` and `pyzenobase/tests/tests.py` are not part of this model.
- ApiClient.ReadToken: it requires `access_token` and `client_id` to be JSON strings. Python would store a value of any type.
- ApiClient.Render: a non-string bucket id other than null, a boolean or an integer is rejected. Python would format it with `str()`.
- ApiClient.GetBucket, ApiClient.DeleteBucket, ApiClient.ListEvents, ApiClient.CreateEvent, LegacyApi.GetBucket, LegacyApi.DeleteBucket, LegacyApi.ListEvents, LegacyApi.CreateEvent: they render the id through ApiClient.Render, so they refuse the same ids it refuses.
- TimestampedSupps.CreateTimestampedSupps: it states the errors and the existence of every column pair, not the events. The events are stated row by row (TimestampedSupps.CellEvents), and the row counts per column (TimestampedSupps.DatesEvents).
- TimestampedSupps.DatesEvents: it states counts and row existence per column, not the events of each row.
- SimpleSupps.CreateSimpleSupps: the same, with the events stated row by row by SimpleSupps.SimpleCellEvents.
- SimpleSupps.SimpleDatesEvents: it states counts and row existence per column, not the events of each row.
- TimestampedSupps.ColumnsEvents: it states the errors and the existence of every column pair from the start column on, not the events or their tally. The events are stated row by row by TimestampedSupps.CellEvents.
- SimpleSupps.SimpleColumnsEvents: it states the errors and the existence of every column pair from the start column on, not the events or their tally. The events are stated row by row by SimpleSupps.SimpleCellEvents.
- Sheet.GetMain: its own contract states only the errors. The table's contents are stated by Sheet.GetMainEntry and Sheet.LastCategoryIsEmpty.
- Sheet.GetDates: its own contract states only errors and validity. The dates read are stated by Sheet.ScanIsParsedRun over Sheet.DateRun.

=== FILE: api_client.dfy ===
/** The API client of pyzenobase/zenobase_api.py, as the decisions it takes
    around each request: which grant it asks for, when it rejects a token
    response, which status codes fail, how it decodes a reply, which
    arguments it refuses before sending anything, the path each operation
    requests, and the first-match rule of `create_or_get_bucket`.

    A client is the pair the constructor stores. Every operation takes the
    remote service as an oracle and returns its outcome with the requests it
    issued. */
module ApiClient {
  import opened Results
  import opened Text
  import opened Values
  import opened Http
  import opened Buckets

  /** What the constructor keeps from the token response. */
  datatype Client = Client(accessToken: string, clientId: string)

  /** The form posted to /oauth/token: a password grant when a username is
      given (the password is sent whatever it is), client credentials
      otherwise. `VNull` stands for Python's None. */
  function TokenForm(username: Value, password: Value): (f: map<string, Value>)
    ensures "grant_type" in f
    ensures f["grant_type"] == VStr("password") <==> username != VNull
    ensures f["grant_type"] == VStr("client_credentials") <==> username == VNull
    ensures username != VNull ==>
              f.Keys == {"grant_type", "username", "password"} && f["username"] == username && f["password"] == password
    ensures username == VNull ==> f.Keys == {"grant_type"}
  {
    if username != VNull then
      map["grant_type" := VStr("password"), "username" := username, "password" := password]
    else
      map["grant_type" := VStr("client_credentials")]
  }

  /** The token request: a plain POST, without the bearer headers. */
  function TokenRequest(form: map<string, Value>): Request {
    Request(Post, Host + "/oauth/token", map[], FormBody(form))
  }

  /** Python's `key in container` for a string key: membership of a dict's
      keys, equality with a list element, substring of a string; any other
      type raises TypeError (None). */
  function PyContains(container: Value, key: string): (r: Option<bool>)
    ensures r.None? <==> !(container.VDict? || container.VList? || container.VStr?)
    ensures container.VDict? ==> r == Some(key in container.fields)
    ensures container.VList? ==> r == Some(exists i :: 0 <= i < |container.items| && container.items[i] == VStr(key))
    ensures container.VStr? ==> r == Some(exists i :: OccursAt(container.s, key, i))
  {
    match container
    case VDict(m) => Some(key in m)
    case VList(xs) => Some(VStr(key) in xs)
    case VStr(s) => Some(Contains(s, key))
    case _ => None
  }

  /** The token response has the shape the constructor reads. */
  predicate TokenShaped(data: Value) {
    && data.VDict? && "error" !in data.fields
    && "access_token" in data.fields && data.fields["access_token"].VStr?
    && "client_id" in data.fields && data.fields["client_id"].VStr?
  }

  /** Lines 18-22: `r.json()`, the "error" test, then the two lookups. The
      status code is never looked at. */
  function ReadToken(json: Option<Value>): (r: Result<Client, ApiError>)
    ensures r == Err(AuthRejected) <==> json.Some? && PyContains(json.value, "error") == Some(true)
    ensures r.Ok? <==> json.Some? && TokenShaped(json.value)
    ensures r.Ok? ==> json.value.fields["access_token"] == VStr(r.value.accessToken)
                      && json.value.fields["client_id"] == VStr(r.value.clientId)
    ensures json.None? ==> r == Err(InvalidJson)
  {
    match json
    case None => Err(InvalidJson)
    case Some(data) =>
      match PyContains(data, "error")
      case None => Err(MalformedResponse)
      case Some(true) => Err(AuthRejected)
      case Some(false) =>
        if TokenShaped(data) then
          Ok(Client(data.fields["access_token"].s, data.fields["client_id"].s))
        else Err(MalformedResponse)
  }

  /** `ZenobaseAPI(username, password)`: one token request, then the response
      decides. */
  function Open(remote: Remote, username: Value, password: Value): (r: Traced<Client>)
    ensures r.trace == [TokenRequest(TokenForm(username, password))]
    ensures r.result.Ok? <==> remote(r.trace[0]).json.Some? && TokenShaped(remote(r.trace[0]).json.value)
    ensures r.result == Err(AuthRejected) <==>
              remote(r.trace[0]).json.Some? && PyContains(remote(r.trace[0]).json.value, "error") == Some(true)
  {
    var req := TokenRequest(TokenForm(username, password));
    Traced(ReadToken(remote(req).json), [req])
  }

  /** The constructor never checks the status: two services that answer the
      token request with the same JSON give the same outcome. */
  lemma OpenIgnoresStatus(remote: Remote, other: Remote, username: Value, password: Value)
    requires forall req :: remote(req).json == other(req).json
    ensures Open(remote, username, password) == Open(other, username, password)
  {
  }

  /** `_request(method, endpoint, data)`: serialise the body (TypeError before
      any request if it holds a datetime), send one request with the bearer
      headers, fail outside [200, 300), then decode the reply. */
  function Call(c: Client, remote: Remote, verb: Method, path: string, body: Value): (r: Traced<Reply>)
    ensures !JsonSerializable(body) <==> r.trace == []
    ensures !JsonSerializable(body) ==> r.result == Err(NotSerializable)
    ensures JsonSerializable(body) ==>
              r.trace == [Request(verb, Host + path, AuthHeaders(c.accessToken), JsonBody(body))]
    ensures AllAuthorized(r.trace, c.accessToken)
    ensures JsonSerializable(body) ==>
              var status := remote(r.trace[0]).status;
              && (r.result == Err(BadStatus(status)) <==> !(200 <= status < 300))
              && (200 <= status < 300 ==> r.result == DecodeReply(remote(r.trace[0])))
  {
    if !JsonSerializable(body) then Traced(Err(NotSerializable), [])
    else
      var req := Request(verb, Host + path, AuthHeaders(c.accessToken), JsonBody(body));
      var resp := remote(req);
      if !(200 <= resp.status < 300) then Traced(Err(BadStatus(resp.status)), [req])
      else Traced(DecodeReply(resp), [req])
  }

  const MaxLimit := 100

  function ListBucketsPath(clientId: string, offset: int, limit: int): string {
    "/users/" + clientId + "/buckets/" + "?order=label&offset=" + IntToString(offset) + "&limit=" + IntToString(limit)
  }

  /** `list_buckets(offset, limit)`: refused before any request above 100. */
  function ListBuckets(c: Client, remote: Remote, offset: int, limit: int): (r: Traced<Reply>)
    ensures limit > MaxLimit <==> r.trace == []
    ensures limit > MaxLimit ==> r.result == Err(LimitTooLarge)
    ensures limit <= MaxLimit ==>
              && r.trace == [Request(Get, Host + ListBucketsPath(c.clientId, offset, limit), AuthHeaders(c.accessToken), JsonBody(VNull))]
              && StatusRuleHolds(remote, r)
    ensures AllAuthorized(r.trace, c.accessToken)
  {
    if limit > MaxLimit then Traced(Err(LimitTooLarge), [])
    else Call(c, remote, Get, ListBucketsPath(c.clientId, offset, limit), VNull)
  }

  /** The outcome of the one request `_request` sent: a status outside
      [200, 300) fails with that status, anything else is the decoded reply. */
  predicate StatusRuleHolds(remote: Remote, r: Traced<Reply>)
    requires |r.trace| == 1
  {
    var resp := remote(r.trace[0]);
    if 200 <= resp.status < 300 then r.result == DecodeReply(resp) else r.result == Err(BadStatus(resp.status))
  }

  /** `get_bucket(bucket_id)`: the id is rendered into the path by `format`,
      then one GET. */
  function GetBucket(c: Client, remote: Remote, bucketId: Value): (r: Traced<Reply>)
    ensures Render(bucketId).Err? ==> r == Traced(Err(Unrenderable), [])
    ensures Render(bucketId).Ok? ==>
              && r.trace == [Request(Get, Host + ("/buckets/" + Render(bucketId).value), AuthHeaders(c.accessToken), JsonBody(VNull))]
              && StatusRuleHolds(remote, r)
  {
    match Render(bucketId)
    case Err(e) => Traced(Err(e), [])
    case Ok(text) => Call(c, remote, Get, "/buckets/" + text, VNull)
  }

  /** The length rule of `create_bucket`; the character set its message
      names is not checked. */
  predicate LabelLengthOk(name: string) {
    1 <= |name| <= 20
  }

  /** The JSON body of `create_bucket`. */
  function BucketBody(name: string, description: string): (v: Value)
    ensures JsonSerializable(v)
  {
    var m := map["label" := VStr(name), "description" := VStr(description)];
    assert forall k :: k in m ==> m[k].VStr?;
    VDict(m)
  }

  /** `create_bucket(name, description)`: refused before any request unless
      the name has 1 to 20 characters; otherwise one POST to /buckets/. */
  function CreateBucket(c: Client, remote: Remote, name: string, description: string): (r: Traced<Reply>)
    ensures !LabelLengthOk(name) <==> r.trace == []
    ensures !LabelLengthOk(name) ==> r.result == Err(BadLabelLength)
    ensures LabelLengthOk(name) ==>
              && r.trace == [Request(Post, Host + "/buckets/", AuthHeaders(c.accessToken), JsonBody(BucketBody(name, description)))]
              && StatusRuleHolds(remote, r)
    ensures AllAuthorized(r.trace, c.accessToken)
  {
    if !LabelLengthOk(name) then Traced(Err(BadLabelLength), [])
    else Call(c, remote, Post, "/buckets/", BucketBody(name, description))
  }

  /** The characters named in the refusal message are not enforced: a name
      of the right length with other characters is sent. */
  lemma CreateBucketIgnoresCharset(c: Client, remote: Remote)
    ensures |CreateBucket(c, remote, "caf\U{00E9}/%!", "").trace| == 1
  {
  }

  /** The request `create_or_get_bucket` lists buckets with. */
  function ListingRequest(c: Client): Request {
    Request(Get, Host + ListBucketsPath(c.clientId, 0, MaxLimit), AuthHeaders(c.accessToken), JsonBody(VNull))
  }

  /** `create_or_get_bucket(name, description)`: list the first 100
      buckets; return the first whose name matches without creating
      anything; create one only when the listing was read and nothing matched. */
  function CreateOrGetBucket(c: Client, remote: Remote, name: string, description: string): (r: Traced<Reply>)
    ensures |r.trace| >= 1 && r.trace[0] == ListingRequest(c)
    ensures AllAuthorized(r.trace, c.accessToken)
    ensures var listed := ListBuckets(c, remote, 0, MaxLimit).result;
            && (listed.Err? ==> r == Traced(Err(listed.error), [ListingRequest(c)]))
            && (listed.Ok? && FindBucket(listed.value, name).Err? ==>
                  r == Traced(Err(FindBucket(listed.value, name).error), [ListingRequest(c)]))
            && (listed.Ok? && FindBucket(listed.value, name).Ok? && FindBucket(listed.value, name).value.Some? ==>
                  r == Traced(Ok(Parsed(FindBucket(listed.value, name).value.value)), [ListingRequest(c)]))
            && (listed.Ok? && FindBucket(listed.value, name) == Ok(None) ==>
                  r.trace == [ListingRequest(c)] + CreateBucket(c, remote, name, description).trace
                  && r.result == CreateBucket(c, remote, name, description).result)
    ensures |r.trace| <= 2
  {
    var listed := ListBuckets(c, remote, 0, MaxLimit);
    match listed.result
    case Err(e) => Traced(Err(e), listed.trace)
    case Ok(reply) =>
      match FindBucket(reply, name)
      case Err(e) => Traced(Err(e), listed.trace)
      case Ok(Some(bucket)) => Traced(Ok(Parsed(bucket)), listed.trace)
      case Ok(None) =>
        var created := CreateBucket(c, remote, name, description);
        Traced(created.result, listed.trace + created.trace)
  }

  /** When the listing holds a bucket with the name, that first such bucket
      is returned and no create is issued. */
  lemma CreateOrGetReturnsFirstMatch(c: Client, remote: Remote, name: string, description: string, i: nat)
    requires ListBuckets(c, remote, 0, MaxLimit).result.Ok?
    requires var listing := Listing(ListBuckets(c, remote, 0, MaxLimit).result.value);
             listing.Some? && FirstMatchAt(listing.value, name, i)
    ensures var listing := Listing(ListBuckets(c, remote, 0, MaxLimit).result.value).value;
            CreateOrGetBucket(c, remote, name, description) == Traced(Ok(Parsed(listing[i])), [ListingRequest(c)])
  {
  }

  /** When the listing is a list in which no bucket has the name, exactly
      one create follows it (for a name of valid length). */
  lemma CreateOrGetCreatesOnce(c: Client, remote: Remote, name: string, description: string)
    requires ListBuckets(c, remote, 0, MaxLimit).result.Ok?
    requires var listing := Listing(ListBuckets(c, remote, 0, MaxLimit).result.value);
             listing.Some? && PassedOver(listing.value, name, |listing.value|)
    requires LabelLengthOk(name)
    ensures var r := CreateOrGetBucket(c, remote, name, description);
            |r.trace| == 2 && r.trace[1].verb == Post && r.trace[1].url == Host + "/buckets/"
            && r.trace[1].payload == JsonBody(BucketBody(name, description))
  {
  }

  /** `delete_bucket(bucket_id)`: the reply is discarded, failures are not. */
  function DeleteBucket(c: Client, remote: Remote, bucketId: Value): (r: Traced<()>)
    ensures Render(bucketId).Err? ==> r == Traced(Err(Unrenderable), [])
    ensures Render(bucketId).Ok? ==>
              && r.trace == [Request(Delete, Host + ("/buckets/" + Render(bucketId).value), AuthHeaders(c.accessToken), JsonBody(VNull))]
              && var resp := remote(r.trace[0]);
                 && (r.result == Err(BadStatus(resp.status)) <==> !(200 <= resp.status < 300))
                 && (200 <= resp.status < 300 ==> (r.result.Ok? <==> DecodeReply(resp).Ok?))
  {
    match Render(bucketId)
    case Err(e) => Traced(Err(e), [])
    case Ok(text) =>
      var sent := Call(c, remote, Delete, "/buckets/" + text, VNull);
      match sent.result
      case Err(e) => Traced(Err(e), sent.trace)
      case Ok(_) => Traced(Ok(()), sent.trace)
  }

  /** `list_events(bucket_id)`. */
  function ListEvents(c: Client, remote: Remote, bucketId: Value): (r: Traced<Reply>)
    ensures Render(bucketId).Err? ==> r == Traced(Err(Unrenderable), [])
    ensures Render(bucketId).Ok? ==>
              && r.trace == [Request(Get, Host + ("/buckets/" + Render(bucketId).value + "/"), AuthHeaders(c.accessToken), JsonBody(VNull))]
              && StatusRuleHolds(remote, r)
  {
    match Render(bucketId)
    case Err(e) => Traced(Err(e), [])
    case Ok(text) => Call(c, remote, Get, "/buckets/" + text + "/", VNull)
  }

  /** `_bucket_id_from_bucket_or_id`: a string is the id; a dict gives its
      "@id" entry, whatever its type; a dict without one, and anything that
      is neither a string nor a dict, is refused. */
  function ResolveBucketId(ref: Value): (r: Result<Value, ApiError>)
    ensures ref.VStr? ==> r == Ok(ref)
    ensures ref.VDict? && "@id" in ref.fields ==> r == Ok(ref.fields["@id"])
    ensures ref.VDict? && "@id" !in ref.fields ==> r == Err(MissingBucketId)
    ensures !(ref.VStr? || ref.VDict?) ==> r == Err(InvalidArgument)
  {
    match ref
    case VStr(_) => Ok(ref)
    case VDict(m) => if "@id" in m then Ok(m["@id"]) else Err(MissingBucketId)
    case _ => Err(InvalidArgument)
  }

  /** A bucket dict as the service returns it resolves to the id it carries,
      and so does that id on its own. */
  lemma ResolveBucketOrId(bucket: map<string, Value>, id: string)
    requires "@id" in bucket && bucket["@id"] == VStr(id)
    ensures ResolveBucketId(VDict(bucket)) == ResolveBucketId(VStr(id)) == Ok(VStr(id))
  {
  }

  /** `"{}".format(v)` for the id types this model renders: Python's `str()`
      of a string, an int, a bool or None. */
  function Render(v: Value): (r: Result<string, ApiError>)
    ensures v.VStr? ==> r == Ok(v.s)
    ensures v.VInt? ==> r == Ok(IntToString(v.i))
    ensures r.Err? <==> !(v.VStr? || v.VInt? || v.VBool? || v.VNull?)
  {
    match v
    case VStr(s) => Ok(s)
    case VInt(i) => Ok(IntToString(i))
    case VBool(b) => Ok(if b then "True" else "False")
    case VNull => Ok("None")
    case _ => Err(Unrenderable)
  }

  /** `create_event(bucket_or_bucket_id, event)`: the event must be a dict,
      the bucket reference must resolve, then one POST of the event. */
  function CreateEvent(c: Client, remote: Remote, ref: Value, event: Value): (r: Traced<Reply>)
    ensures !event.VDict? ==> r == Traced(Err(InvalidArgument), [])
    ensures ResolveBucketId(ref).Err? ==> r.trace == [] && r.result.Err?
    ensures event.VDict? && ResolveBucketId(ref).Err? ==> r == Traced(ResolveBucketId(ref).PropagateFailure(), [])
    ensures event.VDict? && ResolveBucketId(ref).Ok? && Render(ResolveBucketId(ref).value).Err? ==>
              r == Traced(Err(Unrenderable), [])
    ensures event.VDict? && ResolveBucketId(ref).Ok? && Render(ResolveBucketId(ref).value).Ok? ==>
              r == Call(c, remote, Post, "/buckets/" + Render(ResolveBucketId(ref).value).value + "/", event)
    ensures |r.trace| <= 1 && AllAuthorized(r.trace, c.accessToken)
  {
    if !event.VDict? then Traced(Err(InvalidArgument), [])
    else
      match ResolveBucketId(ref)
      case Err(e) => Traced(Err(e), [])
      case Ok(id) =>
        match Render(id)
        case Err(e) => Traced(Err(e), [])
        case Ok(text) => Call(c, remote, Post, "/buckets/" + text + "/", event)
  }

  /** Every element of the list is a dict. */
  predicate AllDicts(items: seq<Value>) {
    forall i :: 0 <= i < |items| ==> items[i].VDict?
  }

  /** `create_events(bucket_or_bucket_id, events)`: a list is required, the
      reference is resolved, every element must be a dict, and the id is
      concatenated into the path, so it must be a string. Then one POST of
      `{"events": events}`. */
  function CreateEvents(c: Client, remote: Remote, ref: Value, events: Value): (r: Traced<Reply>)
    ensures !events.VList? ==> r == Traced(Err(InvalidArgument), [])
    ensures events.VList? && ResolveBucketId(ref).Err? ==> r == Traced(ResolveBucketId(ref).PropagateFailure(), [])
    ensures events.VList? && ResolveBucketId(ref).Ok? && !AllDicts(events.items) ==> r == Traced(Err(InvalidArgument), [])
    ensures events.VList? && ResolveBucketId(ref).Ok? && AllDicts(events.items) && !ResolveBucketId(ref).value.VStr? ==>
              r == Traced(Err(NonStringId), [])
    ensures events.VList? && ResolveBucketId(ref).Ok? && AllDicts(events.items) && ResolveBucketId(ref).value.VStr? ==>
              r == Call(c, remote, Post, "/buckets/" + ResolveBucketId(ref).value.s + "/", VDict(map["events" := events]))
    ensures |r.trace| <= 1 && AllAuthorized(r.trace, c.accessToken)
  {
    if !events.VList? then Traced(Err(InvalidArgument), [])
    else
      match ResolveBucketId(ref)
      case Err(e) => Traced(Err(e), [])
      case Ok(id) =>
        if !AllDicts(events.items) then Traced(Err(InvalidArgument), [])
        else if !id.VStr? then Traced(Err(NonStringId), [])
        else Call(c, remote, Post, "/buckets/" + id.s + "/", VDict(map["events" := events]))
  }

  /** The endpoints of one bucket agree on its URL: `delete_bucket` requests
      the URL `get_bucket` reads, `list_events` that URL with a trailing
      slash, and `create_event` posts to the URL `list_events` reads, whether
      it is given the id or the bucket dict carrying it. */
  lemma BucketEndpointsAgree(c: Client, remote: Remote, bucket: map<string, Value>, id: string, event: Value)
    requires "@id" in bucket && bucket["@id"] == VStr(id)
    requires event.VDict? && JsonSerializable(event)
    ensures var url := GetBucket(c, remote, VStr(id)).trace[0].url;
            && DeleteBucket(c, remote, VStr(id)).trace[0].url == url
            && ListEvents(c, remote, VStr(id)).trace[0].url == url + "/"
            && CreateEvent(c, remote, VStr(id), event).trace[0].url == url + "/"
            && CreateEvent(c, remote, VDict(bucket), event).trace == CreateEvent(c, remote, VStr(id), event).trace
  {
    assert Host + ("/buckets/" + id + "/") == Host + ("/buckets/" + id) + "/";
  }

  /** `close()`: delete the authorization of the token in use. */
  function Close(c: Client, remote: Remote): (r: Traced<Reply>)
    ensures r.trace == [Request(Delete, Host + ("/authorizations/" + c.accessToken), AuthHeaders(c.accessToken), JsonBody(VNull))]
    ensures StatusRuleHolds(remote, r)
  {
    Call(c, remote, Delete, "/authorizations/" + c.accessToken, VNull)
  }

  /** A client opened from a token response revokes that very token on
      close, and authorises the revocation with it. */
  lemma CloseRevokesOpenedToken(remote: Remote, username: Value, password: Value)
    requires Open(remote, username, password).result.Ok?
    ensures var session := Open(remote, username, password);
            var token := remote(session.trace[0]).json.value.fields["access_token"];
            var revoke := Close(session.result.value, remote).trace[0];
            && token.VStr?
            && revoke.verb == Delete
            && revoke.url == Host + "/authorizations/" + token.s
            && revoke.headers == AuthHeaders(token.s)
  {
  }
}

=== FILE: buckets.dfy ===
/** The lookup step that both clients' `create_or_get_bucket` share:
    `for bucket in data["buckets"]: if bucket["label"] == label: return bucket`,
    applied to the reply of the bucket listing. Python raises TypeError or
    KeyError on shapes it cannot index; here that is `MalformedResponse`. */
module Buckets {
  import opened Results
  import opened Values
  import opened Http

  /** `bucket["label"]` can be read: a dict with a "label" key. */
  predicate HasLabel(b: Value) {
    b.VDict? && "label" in b.fields
  }

  /** `bucket["label"] == label` holds: only a string equals a Python str. */
  predicate LabelIs(b: Value, wanted: string) {
    HasLabel(b) && b.fields["label"] == VStr(wanted)
  }

  /** The loop got past the first `n` buckets: each has a label and none matches. */
  predicate PassedOver(items: seq<Value>, wanted: string, n: int) {
    0 <= n <= |items| && forall j :: 0 <= j < n ==> HasLabel(items[j]) && !LabelIs(items[j], wanted)
  }

  /** The loop got past the first `n` buckets and then hit one without a label. */
  predicate StopsAtUnlabelled(items: seq<Value>, wanted: string, n: int) {
    PassedOver(items, wanted, n) && n < |items| && !HasLabel(items[n])
  }

  /** The loop from position `from` on: the index of the first matching
      bucket, None when the list runs out, or the failure of reading a
      bucket without a label before any match. */
  function ScanFrom(items: seq<Value>, wanted: string, from: nat): (r: Result<Option<nat>, ApiError>)
    requires PassedOver(items, wanted, from)
    ensures r.Ok? && r.value.Some? ==>
              from <= r.value.value < |items| && PassedOver(items, wanted, r.value.value)
              && LabelIs(items[r.value.value], wanted)
    ensures r.Ok? && r.value.None? <==> PassedOver(items, wanted, |items|)
    ensures r.Err? ==> r.error == MalformedResponse && exists n :: StopsAtUnlabelled(items, wanted, n)
    decreases |items| - from
  {
    if from == |items| then Ok(None)
    else if !HasLabel(items[from]) then
      assert StopsAtUnlabelled(items, wanted, from);
      Err(MalformedResponse)
    else if LabelIs(items[from], wanted) then Ok(Some(from))
    else ScanFrom(items, wanted, from + 1)
  }

  /** The whole loop over a listed sequence of buckets. */
  function Scan(items: seq<Value>, wanted: string): (r: Result<Option<nat>, ApiError>)
    ensures r.Ok? && r.value.Some? ==>
              r.value.value < |items| && PassedOver(items, wanted, r.value.value) && LabelIs(items[r.value.value], wanted)
    ensures r.Ok? && r.value.None? <==> PassedOver(items, wanted, |items|)
    ensures r.Err? ==> r.error == MalformedResponse && exists n :: StopsAtUnlabelled(items, wanted, n)
  {
    ScanFrom(items, wanted, 0)
  }

  /** The scan returns the FIRST match: no earlier bucket matches, and any
      bucket that matches sits at or after the returned one. */
  lemma ScanFindsFirst(items: seq<Value>, wanted: string, j: nat)
    requires Scan(items, wanted).Ok? && j < |items| && LabelIs(items[j], wanted)
    ensures Scan(items, wanted).value.Some? && Scan(items, wanted).value.value <= j
  {
  }

  /** A failure means some bucket before the first match had no label. */
  lemma ScanFailsOnlyOnUnlabelled(items: seq<Value>, wanted: string)
    requires forall j :: 0 <= j < |items| ==> HasLabel(items[j])
    ensures Scan(items, wanted).Ok?
  {
  }

  /** Bucket `i` is the first whose label matches. */
  predicate FirstMatchAt(items: seq<Value>, wanted: string, i: int) {
    PassedOver(items, wanted, i) && i < |items| && LabelIs(items[i], wanted)
  }

  /** The listed buckets, when the reply is a dict whose "buckets" is a list. */
  function Listing(reply: Reply): Option<seq<Value>> {
    if reply.Parsed? && reply.value.VDict? && "buckets" in reply.value.fields
       && reply.value.fields["buckets"].VList?
    then Some(reply.value.fields["buckets"].items)
    else None
  }

  /** `data["buckets"]` followed by the loop. A listing whose "buckets" is an
      empty dict or empty string is iterated zero times; a non-empty one
      yields keys or characters, which cannot be indexed by "label". */
  function FindBucket(reply: Reply, wanted: string): (r: Result<Option<Value>, ApiError>)
    ensures r.Err? ==> r.error == MalformedResponse
    ensures r.Ok? && r.value.Some? ==>
              Listing(reply).Some? && exists i :: FirstMatchAt(Listing(reply).value, wanted, i)
                                                  && r.value.value == Listing(reply).value[i]
    ensures forall i :: Listing(reply).Some? && FirstMatchAt(Listing(reply).value, wanted, i) ==>
              r == Ok(Some(Listing(reply).value[i]))
    ensures Listing(reply).Some? ==>
              (r == Ok(None) <==> PassedOver(Listing(reply).value, wanted, |Listing(reply).value|))
  {
    match reply
    case Raw(_) => Err(MalformedResponse)
    case Parsed(data) =>
      if !data.VDict? || "buckets" !in data.fields then Err(MalformedResponse)
      else
        match data.fields["buckets"]
        case VList(items) =>
          (match Scan(items, wanted)
           case Err(e) => Err(e)
           case Ok(None) => Ok(None)
           case Ok(Some(i)) =>
             assert FirstMatchAt(items, wanted, i);
             Ok(Some(items[i])))
        case VDict(m) => if |m| == 0 then Ok(None) else Err(MalformedResponse)
        case VStr(s) => if |s| == 0 then Ok(None) else Err(MalformedResponse)
        case _ => Err(MalformedResponse)
  }
}

=== FILE: calendar.dfy ===
/** The proleptic Gregorian calendar of Python's `datetime` module (years 1 to
    9999), and the minute arithmetic `astimezone` performs when it moves an
    aware date-time into another zone. Zones are fixed UTC offsets in minutes. */
module Calendar {
  import opened Results

  const MinYear := 1
  const MaxYear := 9999

  predicate IsLeap(y: int) {
    y % 4 == 0 && (y % 100 != 0 || y % 400 == 0)
  }

  function DaysInMonth(y: int, m: int): int
    requires 1 <= m <= 12
  {
    if m == 2 then (if IsLeap(y) then 29 else 28)
    else if m == 4 || m == 6 || m == 9 || m == 11 then 30
    else 31
  }

  function DaysInYear(y: int): int {
    if IsLeap(y) then 366 else 365
  }

  /** A `datetime.date`. */
  datatype Date = Date(year: int, month: int, day: int) {
    predicate Valid() {
      MinYear <= year <= MaxYear && 1 <= month <= 12 && 1 <= day <= DaysInMonth(year, month)
    }
  }

  const FirstDate := Date(MinYear, 1, 1)
  const LastDate := Date(MaxYear, 12, 31)

  /** A `datetime.time` without zone. */
  datatype Clock = Clock(hour: int, minute: int, second: int, microsecond: int) {
    predicate Valid() {
      0 <= hour < 24 && 0 <= minute < 60 && 0 <= second < 60 && 0 <= microsecond < 1000000
    }
  }

  const Midnight := Clock(0, 0, 0, 0)

  /** A UTC offset in minutes; Python bounds `utcoffset()` strictly within one day. */
  predicate ValidOffset(o: int) {
    -1440 < o < 1440
  }

  /** A `datetime.datetime`: naive when `offset` is None, aware otherwise. */
  datatype DateTime = DateTime(date: Date, clock: Clock, offset: Option<int>) {
    predicate Valid() {
      date.Valid() && clock.Valid() && (offset.Some? ==> ValidOffset(offset.value))
    }
  }

  /** `datetime.combine(d, t)` for a naive time. */
  function Combine(d: Date, t: Clock): (r: DateTime)
    ensures d.Valid() && t.Valid() ==> r.Valid()
    ensures r.offset.None?
  {
    DateTime(d, t, None)
  }

  function DaysBeforeYear(y: int): int
    requires y >= 1
  {
    var p := y - 1;
    365 * p + p / 4 - p / 100 + p / 400
  }

  const CumulativeDays: seq<int> := [0, 31, 59, 90, 120, 151, 181, 212, 243, 273, 304, 334]

  function DaysBeforeMonth(y: int, m: int): int
    requires 1 <= m <= 12
  {
    CumulativeDays[m - 1] + (if m > 2 && IsLeap(y) then 1 else 0)
  }

  /** `date.toordinal()`: 0001-01-01 is day 1. */
  function Ordinal(d: Date): int
    requires d.Valid()
  {
    DaysBeforeYear(d.year) + DaysBeforeMonth(d.year, d.month) + d.day
  }

  lemma {:induction false} YearStep(y: int)
    requires y >= 1
    ensures DaysBeforeYear(y + 1) == DaysBeforeYear(y) + DaysInYear(y)
  {
    var p := y - 1;
    assert y / 4 - p / 4 == (if y % 4 == 0 then 1 else 0);
    assert y / 100 - p / 100 == (if y % 100 == 0 then 1 else 0);
    assert y / 400 - p / 400 == (if y % 400 == 0 then 1 else 0);
  }

  lemma MonthStep(y: int, m: int)
    requires 1 <= m < 12
    ensures DaysBeforeMonth(y, m + 1) == DaysBeforeMonth(y, m) + DaysInMonth(y, m)
  {
  }

  /** The day after `d`, or None past 9999-12-31 (OverflowError in Python). */
  function NextDay(d: Date): (r: Option<Date>)
    requires d.Valid()
    ensures r.None? <==> d == LastDate
    ensures r.Some? ==> r.value.Valid() && Ordinal(r.value) == Ordinal(d) + 1
  {
    if d.day < DaysInMonth(d.year, d.month) then Some(Date(d.year, d.month, d.day + 1))
    else if d.month < 12 then
      MonthStep(d.year, d.month);
      Some(Date(d.year, d.month + 1, 1))
    else if d.year < MaxYear then
      YearStep(d.year);
      Some(Date(d.year + 1, 1, 1))
    else None
  }

  /** The day before `d`, or None before 0001-01-01. */
  function PrevDay(d: Date): (r: Option<Date>)
    requires d.Valid()
    ensures r.None? <==> d == FirstDate
    ensures r.Some? ==> r.value.Valid() && Ordinal(r.value) + 1 == Ordinal(d)
  {
    if d.day > 1 then Some(Date(d.year, d.month, d.day - 1))
    else if d.month > 1 then
      MonthStep(d.year, d.month - 1);
      Some(Date(d.year, d.month - 1, DaysInMonth(d.year, d.month - 1)))
    else if d.year > MinYear then
      YearStep(d.year - 1);
      Some(Date(d.year - 1, 12, 31))
    else None
  }

  /** Minutes since the start of the calendar, read off the wall clock. */
  function WallMinutes(d: Date, c: Clock): int
    requires d.Valid()
  {
    Ordinal(d) * 1440 + c.hour * 60 + c.minute
  }

  /** How many days (-1, 0 or 1) adding `delta` minutes to the clock moves the date. */
  function DayCarry(c: Clock, delta: int): int
  {
    (c.hour * 60 + c.minute + delta) / 1440
  }

  /** `datetime + timedelta(minutes=delta)` for |delta| under a day: seconds and
      microseconds are kept, the wall minute count moves by exactly `delta`, and
      the only failure is stepping off either end of the calendar. */
  function AddMinutes(d: Date, c: Clock, delta: int): (r: Option<(Date, Clock)>)
    requires d.Valid() && c.Valid() && ValidOffset(delta)
    ensures r.Some? ==> r.value.0.Valid() && r.value.1.Valid()
    ensures r.Some? ==> r.value.1.second == c.second && r.value.1.microsecond == c.microsecond
    ensures r.Some? ==> WallMinutes(r.value.0, r.value.1) == WallMinutes(d, c) + delta
    ensures r.None? <==> (DayCarry(c, delta) == 1 && d == LastDate)
                         || (DayCarry(c, delta) == -1 && d == FirstDate)
  {
    var total := c.hour * 60 + c.minute + delta;
    var carry := total / 1440;
    var rest := total % 1440;
    var clock := Clock(rest / 60, rest % 60, c.second, c.microsecond);
    assert -1 <= carry <= 1;
    if carry == 0 then Some((d, clock))
    else if carry == 1 then
      match NextDay(d)
      case None => None
      case Some(n) => Some((n, clock))
    else
      match PrevDay(d)
      case None => None
      case Some(p) => Some((p, clock))
  }

  /** Shifting by minutes never looks at the microseconds: they ride along. */
  lemma AddMinutesKeepsMicroseconds(d: Date, c: Clock, delta: int, micro: int)
    requires d.Valid() && c.Valid() && ValidOffset(delta) && 0 <= micro < 1000000
    ensures var r, r' := AddMinutes(d, c, delta), AddMinutes(d, c.(microsecond := micro), delta);
            && (r.None? <==> r'.None?)
            && (r.Some? ==> r'.value == (r.value.0, r.value.1.(microsecond := micro)))
  {
  }

  /** Minutes since the start of the calendar in UTC: the instant an aware value denotes. */
  function UtcMinutes(dt: DateTime): int
    requires dt.Valid() && dt.offset.Some?
  {
    WallMinutes(dt.date, dt.clock) - dt.offset.value
  }

  /** `dt.astimezone(zone)` for an aware `dt`: first to UTC, then to the
      target offset, each step failing at the ends of the calendar. The result
      denotes the same instant and is labelled with the target offset. */
  function ToZone(dt: DateTime, zone: int): (r: Option<DateTime>)
    requires dt.Valid() && dt.offset.Some? && ValidOffset(zone)
    ensures r.Some? ==> r.value.Valid() && r.value.offset == Some(zone)
    ensures r.Some? ==> UtcMinutes(r.value) == UtcMinutes(dt)
    ensures r.Some? ==> r.value.clock.second == dt.clock.second
    ensures r.None? ==> Ordinal(dt.date) <= Ordinal(FirstDate) + 1 || Ordinal(dt.date) >= Ordinal(LastDate) - 1
  {
    match AddMinutes(dt.date, dt.clock, -dt.offset.value)
    case None => None
    case Some(utc) =>
      match AddMinutes(utc.0, utc.1, zone)
      case None => None
      case Some(local) => Some(DateTime(local.0, local.1, Some(zone)))
  }
}

=== FILE: event.dfy ===
/** The event record of pyzenobase/zenobase_event.py: construction checks
    every key against the 27 recognised field names, then `clean_data`
    rewrites the `timestamp`, `volume.unit` and `weight.unit` fields.

    A record is a map from field name to value. Python raises on the first
    problem; here the problem is returned as an `EventError`. The formatter's
    zone (the host's local zone in Python) is the parameter `zone`. */
module Event {
  import opened Results
  import opened Text
  import opened Calendar
  import opened Values
  import opened TimeFormat

  /** `_VALID_FIELDS`. */
  const ValidFields: set<string> :=
    {"bits", "concentration", "count", "currency", "distance", "distance/volume", "duration",
     "energy", "frequency", "height", "humidity", "location", "moon", "note", "pace",
     "percentage", "pressure", "rating", "resource", "sound", "source", "tag", "temperature",
     "timestamp", "velocity", "volume", "weight"}

  /** The unit spellings `clean_data` turns into "ug". The second is spelt as
      in the source: U+00C2 U+00B5 'g', the UTF-8 bytes of "µg" read as Latin-1. */
  const MicrogramAliases: seq<string> := ["mcg", "\U{00C2}\U{00B5}g"]

  const Microgram := "ug"

  type Event = map<string, Value>

  datatype EventError =
    | UnknownField                  // the constructor's `assert field in _VALID_FIELDS`
    | TimestampType                 // the TypeError of `_check_timestamp`
    | TimestampOverflow             // an OverflowError from `fmt_datetime`
    | MalformedUnit(field: string)  // reading `self[field]["unit"]` raised

  /** Every element of a list is a string or a datetime (the `all(...)` of
      `_check_timestamp`); vacuous for anything that is not a list. */
  predicate ElementsAreStringsOrDateTimes(v: Value) {
    v.VList? ==> forall i :: 0 <= i < |v.items| ==> v.items[i].VStr? || v.items[i].VDateTime?
  }

  /** `_check_timestamp` does not raise. Written as the source's condition;
      the `ensures` is what it amounts to: the elements of a list are never
      inspected, because the second conjunct only matters for non-lists. */
  predicate TimestampAccepted(v: Value)
    ensures TimestampAccepted(v) <==> v.VStr? || v.VDateTime? || v.VList?
  {
    var typeOk := v.VStr? || v.VDateTime? || v.VList?;
    !(!typeOk && (!v.VList? || ElementsAreStringsOrDateTimes(v)))
  }

  /** The element can go through `datetime_to_string` without an OverflowError. */
  predicate ItemFormattable(v: Value, zone: int)
    requires WellFormed(v) && ValidOffset(zone)
  {
    match v
    case VDateTime(dt) => FmtDateTime(dt, zone).Some?
    case _ => true
  }

  /** `datetime_to_string` (lines 31-32): a datetime is formatted, anything else is kept. */
  function ItemFormatted(v: Value, zone: int): Value
    requires WellFormed(v) && ValidOffset(zone) && ItemFormattable(v, zone)
  {
    match v
    case VDateTime(dt) => VStr(FmtDateTime(dt, zone).value)
    case _ => v
  }

  /** `list(map(datetime_to_string, items))`: same length and order, datetimes
      formatted, every other element kept; the first formatting failure aborts. */
  function FormatItems(items: seq<Value>, zone: int): (r: Result<seq<Value>, EventError>)
    requires ValidOffset(zone)
    requires forall i :: 0 <= i < |items| ==> WellFormed(items[i])
    ensures r.Ok? <==> forall i :: 0 <= i < |items| ==> ItemFormattable(items[i], zone)
    ensures r.Err? ==> r.error == TimestampOverflow
    ensures r.Ok? ==> |r.value| == |items|
    ensures r.Ok? ==> forall i :: 0 <= i < |items| ==> r.value[i] == ItemFormatted(items[i], zone)
  {
    if |items| == 0 then Ok([])
    else
      var head :- if ItemFormattable(items[0], zone) then Ok(ItemFormatted(items[0], zone)) else Err(TimestampOverflow);
      var tail :- FormatItems(items[1..], zone);
      Ok([head] + tail)
  }

  /** The timestamp is accepted and every datetime in it can be formatted. */
  predicate TimestampCleanable(v: Value, zone: int)
    requires WellFormed(v) && ValidOffset(zone)
  {
    match v
    case VStr(_) => true
    case VDateTime(dt) => FmtDateTime(dt, zone).Some?
    case VList(items) => forall i :: 0 <= i < |items| ==> ItemFormattable(items[i], zone)
    case _ => false
  }

  /** How `clean_data` rewrites one datetime-or-other value: a datetime is
      replaced by its formatted text, anything else is kept. */
  predicate ItemRewritten(before: Value, after: Value, zone: int)
    requires WellFormed(before) && ValidOffset(zone)
  {
    if before.VDateTime? then after.VStr? && FmtDateTime(before.dt, zone) == Some(after.s)
    else after == before
  }

  /** How `clean_data` rewrites a timestamp, stated field by field: a string
      is kept, a datetime is replaced by its formatted text, and a list keeps
      its length and order with each element rewritten as above. */
  predicate TimestampRewritten(before: Value, after: Value, zone: int)
    requires WellFormed(before) && ValidOffset(zone)
  {
    match before
    case VStr(_) => after == before
    case VDateTime(_) => ItemRewritten(before, after, zone)
    case VList(items) =>
      && after.VList? && |after.items| == |items|
      && forall i :: 0 <= i < |items| ==> ItemRewritten(items[i], after.items[i], zone)
    case _ => false
  }

  /** Lines 30-35 of `clean_data`, after the check has passed: a string is
      kept, a datetime is formatted, a list is formatted element by element.
      The result holds no top-level datetime any more. */
  function FormatTimestamp(v: Value, zone: int): (r: Result<Value, EventError>)
    requires TimestampAccepted(v) && WellFormed(v) && ValidOffset(zone)
    ensures r.Ok? <==> TimestampCleanable(v, zone)
    ensures r.Err? ==> r.error == TimestampOverflow
    ensures r.Ok? ==> TimestampRewritten(v, r.value, zone)
    ensures r.Ok? ==> WellFormed(r.value)
    ensures r.Ok? ==> r.value.VStr? || (r.value.VList? && forall i :: 0 <= i < |r.value.items| ==> !r.value.items[i].VDateTime?)
  {
    match v
    case VList(items) =>
      var formatted :- FormatItems(items, zone);
      forall i | 0 <= i < |items|
        ensures WellFormed(formatted[i]) && !formatted[i].VDateTime?
        ensures ItemRewritten(items[i], formatted[i], zone)
      {
        assert WellFormed(items[i]);
      }
      Ok(VList(formatted))
    case VDateTime(dt) =>
      (match FmtDateTime(dt, zone)
       case None => Err(TimestampOverflow)
       case Some(s) => Ok(VStr(s)))
    case _ => Ok(v)
  }

  /** The shape `self["volume"]["unit"].replace(...)` needs: a dict with a string unit. */
  predicate VolumeShaped(v: Value) {
    v.VDict? && "unit" in v.fields && v.fields["unit"].VStr?
  }

  /** The shape `self["weight"]["unit"] in [...]` needs: a dict with a unit of any type. */
  predicate WeightShaped(v: Value) {
    v.VDict? && "unit" in v.fields
  }

  /** Line 39: every lowercase `l` of the volume unit becomes `L`. */
  function NormalizeVolume(v: Value): (r: Result<Value, EventError>)
    ensures r.Ok? <==> VolumeShaped(v)
    ensures r.Err? ==> r.error == MalformedUnit("volume")
    ensures r.Ok? ==> r.value.VDict? && r.value.fields.Keys == v.fields.Keys
    ensures r.Ok? ==> forall k :: k in v.fields && k != "unit" ==> r.value.fields[k] == v.fields[k]
    ensures r.Ok? ==> r.value.fields["unit"].VStr?
                      && 'l' !in r.value.fields["unit"].s
                      && |r.value.fields["unit"].s| == |v.fields["unit"].s|
                      && forall i :: 0 <= i < |v.fields["unit"].s| && v.fields["unit"].s[i] != 'l' ==>
                           r.value.fields["unit"].s[i] == v.fields["unit"].s[i]
    ensures r.Ok? && WellFormed(v) ==> WellFormed(r.value)
  {
    if VolumeShaped(v) then
      var unit := ReplaceChar(v.fields["unit"].s, 'l', 'L');
      ReplaceCharRemoves(v.fields["unit"].s, 'l', 'L');
      Ok(VDict(v.fields["unit" := VStr(unit)]))
    else Err(MalformedUnit("volume"))
  }

  /** Lines 42-45: a microgram alias becomes "ug"; any other unit is kept. */
  function NormalizeWeight(v: Value): (r: Result<Value, EventError>)
    ensures r.Ok? <==> WeightShaped(v)
    ensures r.Err? ==> r.error == MalformedUnit("weight")
    ensures r.Ok? ==> r.value.VDict? && r.value.fields.Keys == v.fields.Keys
    ensures r.Ok? ==> forall k :: k in v.fields && k != "unit" ==> r.value.fields[k] == v.fields[k]
    ensures r.Ok? ==> (r.value.fields["unit"] == VStr(Microgram)
                       <==> v.fields["unit"] == VStr(Microgram)
                            || exists a :: a in MicrogramAliases && v.fields["unit"] == VStr(a))
    ensures r.Ok? && r.value.fields["unit"] != v.fields["unit"] ==>
              exists a :: a in MicrogramAliases && v.fields["unit"] == VStr(a)
    ensures r.Ok? && WellFormed(v) ==> WellFormed(r.value)
  {
    if !WeightShaped(v) then Err(MalformedUnit("weight"))
    else if v.fields["unit"] == VStr(MicrogramAliases[0]) || v.fields["unit"] == VStr(MicrogramAliases[1]) then
      Ok(VDict(v.fields["unit" := VStr(Microgram)]))
    else Ok(v)
  }

  /** Lines 29-35: check, then format, the timestamp; other fields are kept. */
  function CleanTimestamp(e: Event, zone: int): (r: Result<Event, EventError>)
    requires ValidOffset(zone)
    requires "timestamp" in e ==> WellFormed(e["timestamp"])
    ensures "timestamp" !in e ==> r == Ok(e)
    ensures r.Ok? <==> ("timestamp" in e ==> TimestampCleanable(e["timestamp"], zone))
    ensures "timestamp" in e && !TimestampAccepted(e["timestamp"]) ==> r == Err(TimestampType)
    ensures r.Err? ==> r.error == TimestampType || r.error == TimestampOverflow
    ensures r.Ok? ==> r.value.Keys == e.Keys && forall k :: k in e && k != "timestamp" ==> r.value[k] == e[k]
    ensures r.Ok? && "timestamp" in e ==>
              TimestampAccepted(e["timestamp"]) && r.value["timestamp"] == FormatTimestamp(e["timestamp"], zone).value
    ensures r.Ok? && (forall k :: k in e ==> WellFormed(e[k])) ==> forall k :: k in r.value ==> WellFormed(r.value[k])
  {
    if "timestamp" !in e then Ok(e)
    else if !TimestampAccepted(e["timestamp"]) then Err(TimestampType)
    else
      var t :- FormatTimestamp(e["timestamp"], zone);
      Ok(e["timestamp" := t])
  }

  /** Lines 38-39: rewrite the volume unit; other fields are kept. */
  function CleanVolume(e: Event): (r: Result<Event, EventError>)
    ensures "volume" !in e ==> r == Ok(e)
    ensures r.Ok? <==> ("volume" in e ==> VolumeShaped(e["volume"]))
    ensures r.Err? ==> r.error == MalformedUnit("volume")
    ensures r.Ok? ==> r.value.Keys == e.Keys && forall k :: k in e && k != "volume" ==> r.value[k] == e[k]
    ensures r.Ok? && "volume" in e ==> r.value["volume"] == NormalizeVolume(e["volume"]).value
    ensures r.Ok? && (forall k :: k in e ==> WellFormed(e[k])) ==> forall k :: k in r.value ==> WellFormed(r.value[k])
  {
    if "volume" !in e then Ok(e)
    else
      var v :- NormalizeVolume(e["volume"]);
      Ok(e["volume" := v])
  }

  /** Lines 41-45: rewrite the weight unit; other fields are kept. */
  function CleanWeight(e: Event): (r: Result<Event, EventError>)
    ensures "weight" !in e ==> r == Ok(e)
    ensures r.Ok? <==> ("weight" in e ==> WeightShaped(e["weight"]))
    ensures r.Err? ==> r.error == MalformedUnit("weight")
    ensures r.Ok? ==> r.value.Keys == e.Keys && forall k :: k in e && k != "weight" ==> r.value[k] == e[k]
    ensures r.Ok? && "weight" in e ==> r.value["weight"] == NormalizeWeight(e["weight"]).value
    ensures r.Ok? && (forall k :: k in e ==> WellFormed(e[k])) ==> forall k :: k in r.value ==> WellFormed(r.value[k])
  {
    if "weight" !in e then Ok(e)
    else
      var w :- NormalizeWeight(e["weight"]);
      Ok(e["weight" := w])
  }

  /** `clean_data`: timestamp first, then volume, then weight. Each of the
      three fields ends up as its own step made it. */
  function CleanData(e: Event, zone: int): (r: Result<Event, EventError>)
    requires ValidOffset(zone)
    requires forall k :: k in e ==> WellFormed(e[k])
    ensures r.Ok? <==> ("timestamp" in e ==> TimestampCleanable(e["timestamp"], zone))
                       && ("volume" in e ==> VolumeShaped(e["volume"]))
                       && ("weight" in e ==> WeightShaped(e["weight"]))
    ensures r.Err? ==> r.error != UnknownField
    ensures "timestamp" in e && !TimestampAccepted(e["timestamp"]) ==> r == Err(TimestampType)
    ensures r.Ok? ==> r.value.Keys == e.Keys
    ensures r.Ok? ==> forall k :: k in e && k != "timestamp" && k != "volume" && k != "weight" ==> r.value[k] == e[k]
    ensures r.Ok? && "timestamp" in e ==>
              TimestampAccepted(e["timestamp"]) && r.value["timestamp"] == FormatTimestamp(e["timestamp"], zone).value
    ensures r.Ok? && "volume" in e ==> r.value["volume"] == NormalizeVolume(e["volume"]).value
    ensures r.Ok? && "weight" in e ==> r.value["weight"] == NormalizeWeight(e["weight"]).value
    ensures r.Ok? ==> forall k :: k in r.value ==> WellFormed(r.value[k])
  {
    var withTime :- CleanTimestamp(e, zone);
    var withVolume :- CleanVolume(withTime);
    CleanWeight(withVolume)
  }

  /** `ZenobaseEvent(data)`: fails exactly when some key is not a recognised
      field; otherwise the result of `clean_data`, which keeps the key set
      and every field other than the three it rewrites. */
  function MakeEvent(data: map<string, Value>, zone: int): (r: Result<Event, EventError>)
    requires ValidOffset(zone)
    requires forall k :: k in data ==> WellFormed(data[k])
    ensures r == Err(UnknownField) <==> exists k :: k in data && k !in ValidFields
    ensures r.Ok? <==> data.Keys <= ValidFields
                       && ("timestamp" in data ==> TimestampCleanable(data["timestamp"], zone))
                       && ("volume" in data ==> VolumeShaped(data["volume"]))
                       && ("weight" in data ==> WeightShaped(data["weight"]))
    ensures data.Keys <= ValidFields && "timestamp" in data ==>
              (r == Err(TimestampType) <==> !(data["timestamp"].VStr? || data["timestamp"].VDateTime? || data["timestamp"].VList?))
    ensures r.Ok? ==> r.value.Keys == data.Keys
    ensures r.Ok? ==> forall k :: k in data && k != "timestamp" && k != "volume" && k != "weight" ==> r.value[k] == data[k]
    ensures r.Ok? ==> forall k :: k in r.value ==> WellFormed(r.value[k])
  {
    if !(data.Keys <= ValidFields) then Err(UnknownField)
    else CleanData(data, zone)
  }

  /** A string timestamp is kept, a single datetime becomes its formatted
      string, and a list is mapped element by element (same length and order,
      datetimes formatted, every other element unchanged). */
  lemma MakeEventTimestamp(data: map<string, Value>, zone: int)
    requires ValidOffset(zone)
    requires forall k :: k in data ==> WellFormed(data[k])
    requires MakeEvent(data, zone).Ok? && "timestamp" in data
    ensures TimestampRewritten(data["timestamp"], MakeEvent(data, zone).value["timestamp"], zone)
  {
    assert MakeEvent(data, zone) == CleanData(data, zone);
  }

  /** After cleaning, the volume unit holds no lowercase `l`; every other
      character is where it was. */
  lemma MakeEventVolumeUnit(data: map<string, Value>, zone: int)
    requires ValidOffset(zone)
    requires forall k :: k in data ==> WellFormed(data[k])
    requires MakeEvent(data, zone).Ok? && "volume" in data
    ensures var before, after := data["volume"], MakeEvent(data, zone).value["volume"];
            && after.VDict? && after.fields.Keys == before.fields.Keys
            && after.fields["unit"] == VStr(ReplaceChar(before.fields["unit"].s, 'l', 'L'))
            && 'l' !in after.fields["unit"].s
            && forall k :: k in before.fields && k != "unit" ==> after.fields[k] == before.fields[k]
  {
    ReplaceCharRemoves(data["volume"].fields["unit"].s, 'l', 'L');
  }

  /** After cleaning, the weight unit is "ug" exactly when it was "ug" or one of
      the two aliases; a unit that is not an alias is kept as it was. */
  lemma MakeEventWeightUnit(data: map<string, Value>, zone: int)
    requires ValidOffset(zone)
    requires forall k :: k in data ==> WellFormed(data[k])
    requires MakeEvent(data, zone).Ok? && "weight" in data
    ensures var before, after := data["weight"], MakeEvent(data, zone).value["weight"];
            && after.VDict? && after.fields.Keys == before.fields.Keys
            && (after.fields["unit"] == VStr(Microgram)
                <==> before.fields["unit"] in {VStr(Microgram), VStr("mcg"), VStr("\U{00C2}\U{00B5}g")})
            && (before.fields["unit"] !in {VStr("mcg"), VStr("\U{00C2}\U{00B5}g")} ==> after == before)
  {
    var u := data["weight"].fields["unit"];
    assert (exists a :: a in MicrogramAliases && u == VStr(a)) <==> u in {VStr("mcg"), VStr("\U{00C2}\U{00B5}g")} by {
      if u in {VStr("mcg"), VStr("\U{00C2}\U{00B5}g")} {
        assert u == VStr(MicrogramAliases[0]) || u == VStr(MicrogramAliases[1]);
      }
    }
  }

  /** Formatting an already formatted timestamp changes nothing. */
  lemma FormatTimestampIdempotent(v: Value, zone: int)
    requires TimestampAccepted(v) && WellFormed(v) && ValidOffset(zone)
    requires FormatTimestamp(v, zone).Ok?
    ensures var t := FormatTimestamp(v, zone).value;
            TimestampAccepted(t) && FormatTimestamp(t, zone) == Ok(t)
  {
    var t := FormatTimestamp(v, zone).value;
    if t.VList? {
      forall i | 0 <= i < |t.items|
        ensures WellFormed(t.items[i]) && ItemFormattable(t.items[i], zone) && ItemFormatted(t.items[i], zone) == t.items[i]
      {
        assert !t.items[i].VDateTime?;
      }
      assert FormatItems(t.items, zone).value == t.items;
    }
  }

  lemma NormalizeVolumeIdempotent(v: Value)
    requires NormalizeVolume(v).Ok?
    ensures NormalizeVolume(NormalizeVolume(v).value) == NormalizeVolume(v)
  {
    var w := NormalizeVolume(v).value;
    ReplaceCharIdempotent(v.fields["unit"].s, 'l', 'L');
    assert w.fields["unit" := VStr(w.fields["unit"].s)] == w.fields;
  }

  lemma NormalizeWeightIdempotent(v: Value)
    requires NormalizeWeight(v).Ok?
    ensures NormalizeWeight(NormalizeWeight(v).value) == NormalizeWeight(v)
  {
  }

  lemma UpdateSame(m: map<string, Value>, k: string)
    requires k in m
    ensures m[k := m[k]] == m
  {
  }

  /** Cleaning is idempotent: constructing a record from a constructed record
      succeeds and changes nothing. */
  lemma MakeEventIdempotent(data: map<string, Value>, zone: int)
    requires ValidOffset(zone)
    requires forall k :: k in data ==> WellFormed(data[k])
    requires MakeEvent(data, zone).Ok?
    ensures MakeEvent(MakeEvent(data, zone).value, zone) == Ok(MakeEvent(data, zone).value)
  {
    var e := MakeEvent(data, zone).value;
    var t := CleanTimestamp(e, zone);
    if "timestamp" in e {
      FormatTimestampIdempotent(data["timestamp"], zone);
      UpdateSame(e, "timestamp");
    }
    assert t == Ok(e);
    var v := CleanVolume(e);
    if "volume" in e {
      NormalizeVolumeIdempotent(data["volume"]);
      UpdateSame(e, "volume");
    }
    assert v == Ok(e);
    var w := CleanWeight(e);
    if "weight" in e {
      NormalizeWeightIdempotent(data["weight"]);
      UpdateSame(e, "weight");
    }
    assert w == Ok(e);
  }

  /** A timestamp with no datetime in it: a string, or a list holding none. */
  predicate DateTimeFree(v: Value) {
    v.VStr? || (v.VList? && forall i :: 0 <= i < |v.items| ==> !v.items[i].VDateTime?)
  }

  /** A datetime-free timestamp goes through cleaning unchanged. */
  lemma CleanTimestampKeepsText(e: Event, zone: int)
    requires ValidOffset(zone)
    requires forall k :: k in e ==> WellFormed(e[k])
    requires "timestamp" in e ==> DateTimeFree(e["timestamp"])
    ensures CleanTimestamp(e, zone) == Ok(e)
  {
    if "timestamp" in e {
      var t := e["timestamp"];
      assert WellFormed(t);
      if t.VList? {
        forall i | 0 <= i < |t.items|
          ensures WellFormed(t.items[i]) && ItemFormattable(t.items[i], zone) && ItemFormatted(t.items[i], zone) == t.items[i]
        {
          assert WellFormed(t.items[i]);
        }
        assert FormatItems(t.items, zone).value == t.items;
      }
      UpdateSame(e, "timestamp");
    }
  }

  /** Recognised fields, a datetime-free timestamp and a volume unit:
      construction rewrites the volume unit and nothing else. */
  lemma MakeEventVolumeOnly(data: map<string, Value>, zone: int)
    requires ValidOffset(zone)
    requires forall k :: k in data ==> WellFormed(data[k])
    requires data.Keys <= ValidFields
    requires "timestamp" in data ==> DateTimeFree(data["timestamp"])
    requires "volume" in data && VolumeShaped(data["volume"]) && "weight" !in data
    ensures MakeEvent(data, zone) == Ok(data["volume" := NormalizeVolume(data["volume"]).value])
  {
    CleanTimestampKeepsText(data, zone);
    var v := CleanVolume(data);
    assert v == Ok(data["volume" := NormalizeVolume(data["volume"]).value]);
    assert CleanWeight(v.value) == v;
  }

  /** Recognised fields, a datetime-free timestamp and a weight unit:
      construction rewrites the weight unit and nothing else. */
  lemma MakeEventWeightOnly(data: map<string, Value>, zone: int)
    requires ValidOffset(zone)
    requires forall k :: k in data ==> WellFormed(data[k])
    requires data.Keys <= ValidFields
    requires "timestamp" in data ==> DateTimeFree(data["timestamp"])
    requires "weight" in data && WeightShaped(data["weight"]) && "volume" !in data
    ensures MakeEvent(data, zone) == Ok(data["weight" := NormalizeWeight(data["weight"]).value])
  {
    CleanTimestampKeepsText(data, zone);
    assert CleanVolume(data) == Ok(data);
  }

  /** Recognised fields, a datetime-free timestamp and no unit: construction
      is the identity. */
  lemma MakeEventUnitless(data: map<string, Value>, zone: int)
    requires ValidOffset(zone)
    requires forall k :: k in data ==> WellFormed(data[k])
    requires data.Keys <= ValidFields
    requires "timestamp" in data ==> DateTimeFree(data["timestamp"])
    requires "volume" !in data && "weight" !in data
    ensures MakeEvent(data, zone) == Ok(data)
  {
    CleanTimestampKeepsText(data, zone);
  }

  /** As written, the alias list holds the mis-encoded "Âµg", so a weight in
      the real micro sign spelling "µg" is left as it is. */
  lemma MicroSignNotRewritten(zone: int)
    requires ValidOffset(zone)
    ensures var unit := VDict(map["unit" := VStr("\U{00B5}g")]);
            MakeEvent(map["weight" := unit], zone) == Ok(map["weight" := unit])
  {
    var unit := VDict(map["unit" := VStr("\U{00B5}g")]);
    var d := map["weight" := unit];
    assert "\U{00B5}g"[0] != MicrogramAliases[1][0];
    assert NormalizeWeight(unit) == Ok(unit);
    assert d["weight" := unit] == d;
    KnownFields();
    assert CleanData(d, zone) == Ok(d);
  }

  /** The field names the scripts build records from are all recognised. */
  lemma KnownFields()
    ensures "timestamp" in ValidFields && "tag" in ValidFields && "count" in ValidFields
    ensures "volume" in ValidFields && "weight" in ValidFields && "percentage" in ValidFields
  {
  }

  /** The elements of a list timestamp are never checked: an empty list and a
      list of integers both pass, and the integers are kept. */
  lemma ListElementsUnchecked(zone: int)
    requires ValidOffset(zone)
    ensures MakeEvent(map["timestamp" := VList([])], zone) == Ok(map["timestamp" := VList([])])
    ensures MakeEvent(map["timestamp" := VList([VInt(1), VInt(2)])], zone)
            == Ok(map["timestamp" := VList([VInt(1), VInt(2)])])
  {
    EmptyListKept(zone);
    IntListKept(zone);
  }

  lemma EmptyListKept(zone: int)
    requires ValidOffset(zone)
    ensures MakeEvent(map["timestamp" := VList([])], zone) == Ok(map["timestamp" := VList([])])
  {
    var d0 := map["timestamp" := VList([])];
    KnownFields();
    assert FormatItems([], zone) == Ok([]);
    assert d0["timestamp" := VList([])] == d0;
    assert CleanData(d0, zone) == Ok(d0);
  }

  lemma IntListKept(zone: int)
    requires ValidOffset(zone)
    ensures MakeEvent(map["timestamp" := VList([VInt(1), VInt(2)])], zone)
            == Ok(map["timestamp" := VList([VInt(1), VInt(2)])])
  {
    var items := [VInt(1), VInt(2)];
    assert ItemFormattable(items[0], zone) && ItemFormattable(items[1], zone);
    var f := FormatItems(items, zone);
    assert f.value[0] == items[0] && f.value[1] == items[1];
    assert f.value == items;
    var d := map["timestamp" := VList(items)];
    KnownFields();
    assert d["timestamp" := VList(items)] == d;
    assert CleanData(d, zone) == Ok(d);
  }
}

=== FILE: http.dfy ===
/** What the API clients send and receive, with the remote service as an
    oracle from request to response. Only what the clients look at is kept:
    the status code, the headers, the body text and what `r.json()` yields.

    A client operation returns its outcome together with the requests it
    issued, in order, so that "fails before any request" and "issues no
    create" are statements about the trace. */
module Http {
  import opened Results
  import opened Text
  import opened Values

  const Host := "https://api.zenobase.com"

  datatype Method = Get | Post | Delete

  datatype Payload =
    | JsonBody(body: Value)                // `data=json.dumps(body)`
    | FormBody(form: map<string, Value>)   // `data=payload`, sent form-encoded

  datatype Request = Request(verb: Method, url: string, headers: map<string, string>, payload: Payload)

  /** The parts of a `requests` response the clients read. `headers` is keyed
      by lower-case name, as the case-insensitive lookup of `requests` sees it;
      `json` is what `r.json()` returns, or None when that raises. */
  datatype Response = Response(status: int, headers: map<string, string>, text: string, json: Option<Value>)

  /** The remote service: what it answers to each request. */
  type Remote = Request -> Response

  /** What `_request` returns: the parsed JSON body, or the raw text. */
  datatype Reply = Parsed(value: Value) | Raw(text: string)

  /** The exceptions the clients raise, by cause. */
  datatype ApiError =
    | AuthRejected        // "Invalid Zenobase credentials"
    | MalformedResponse   // a TypeError or KeyError while reading a response
    | InvalidJson         // `r.json()` raised
    | BadStatus(status: int)
    | LimitTooLarge       // "Zenobase can't handle limits over 100"
    | BadLabelLength      // "Bucket name must be 1-20 chars ..."
    | NotSerializable     // `json.dumps` raised TypeError
    | InvalidArgument     // an `assert isinstance(...)` failed
    | MissingBucketId     // "@id field was not in the bucket dict ..."
    | NonStringId         // "/buckets/" + bucket_id raised TypeError
    | UnsupportedMethod   // "UNSUPPORTED METHOD"
    | Unrenderable        // a bucket id `str()` is not modelled for

  /** An operation's outcome and the requests it issued, oldest first. */
  datatype Traced<+T> = Traced(result: Result<T, ApiError>, trace: seq<Request>)

  /** The headers `_request` sets on every call. */
  function AuthHeaders(token: string): (h: map<string, string>)
    ensures Authorized(h, token)
    ensures h.Keys == {"Authorization", "Content-Type"}
  {
    map["Authorization" := "Bearer " + token, "Content-Type" := "application/json"]
  }

  /** The request carries the bearer token and declares a JSON body. */
  predicate Authorized(h: map<string, string>, token: string) {
    && "Authorization" in h && h["Authorization"] == "Bearer " + token
    && "Content-Type" in h && h["Content-Type"] == "application/json"
  }

  /** Every request of a trace is authorised with `token`. */
  predicate AllAuthorized(trace: seq<Request>, token: string) {
    forall i :: 0 <= i < |trace| ==> Authorized(trace[i].headers, token)
  }

  /** The response says its body is JSON: a content-type header that
      contains "application/json" anywhere. */
  predicate DeclaresJson(headers: map<string, string>) {
    "content-type" in headers && Contains(headers["content-type"], "application/json")
  }

  /** The tail of `_request`: JSON when the content type says so (failing if
      the body does not parse), the raw text otherwise. */
  function DecodeReply(resp: Response): (r: Result<Reply, ApiError>)
    ensures r.Err? <==> DeclaresJson(resp.headers) && resp.json.None?
    ensures r.Err? ==> r.error == InvalidJson
    ensures r.Ok? && r.value.Parsed? <==> DeclaresJson(resp.headers) && resp.json.Some?
    ensures r.Ok? && r.value.Parsed? ==> Some(r.value.value) == resp.json
    ensures r.Ok? && r.value.Raw? ==> r.value.text == resp.text
  {
    if DeclaresJson(resp.headers) then
      match resp.json
      case None => Err(InvalidJson)
      case Some(v) => Ok(Parsed(v))
    else Ok(Raw(resp.text))
  }

  /** A content type with parameters still selects JSON; one that only
      mentions JSON in another spelling does not. */
  lemma DecodeReplyExamples(text: string, v: Value)
    ensures var h := map["content-type" := "application/json; charset=utf-8"];
            DecodeReply(Response(200, h, text, Some(v))) == Ok(Parsed(v))
    ensures var h := map["content-type" := "text/json"];
            DecodeReply(Response(200, h, text, Some(v))) == Ok(Raw(text))
  {
    var ct := "application/json; charset=utf-8";
    assert OccursAt(ct, "application/json", 0);
  }
}

=== FILE: legacy_api.dfy ===
/** The older API client of pyzenobase/main.py. It differs from the current
    one in four decisions: it always asks for a password grant, it names the
    HTTP method by a string and refuses any other string, it fails only on a
    status above 300 (so 300 itself and anything below 200 pass), and it
    lists buckets without paging. The token handling, reply decoding, label
    check and first-match rule are the same. */
module LegacyApi {
  import opened Results
  import opened Text
  import opened Values
  import opened Http
  import opened Buckets
  import ApiClient

  type Client = ApiClient.Client

  /** The form the older constructor posts: always a password grant. */
  function LegacyTokenForm(username: Value, password: Value): (f: map<string, Value>)
    ensures f.Keys == {"grant_type", "username", "password"}
    ensures f["grant_type"] == VStr("password") && f["username"] == username && f["password"] == password
  {
    map["grant_type" := VStr("password"), "username" := username, "password" := password]
  }

  /** `ZenobaseAPI(username, password)` of the older module. */
  function Open(remote: Remote, username: Value, password: Value): (r: Traced<Client>)
    ensures r.trace == [ApiClient.TokenRequest(LegacyTokenForm(username, password))]
    ensures r.result.Ok? <==> remote(r.trace[0]).json.Some? && ApiClient.TokenShaped(remote(r.trace[0]).json.value)
    ensures r.result == Err(AuthRejected) <==>
              remote(r.trace[0]).json.Some? && ApiClient.PyContains(remote(r.trace[0]).json.value, "error") == Some(true)
  {
    var req := ApiClient.TokenRequest(LegacyTokenForm(username, password));
    Traced(ApiClient.ReadToken(remote(req).json), [req])
  }

  /** With a username both constructors send the same token request. */
  lemma OpenAgreesWithPasswordGrant(remote: Remote, username: Value, password: Value)
    requires username != VNull
    ensures Open(remote, username, password) == ApiClient.Open(remote, username, password)
  {
    assert LegacyTokenForm(username, password) == ApiClient.TokenForm(username, password);
  }

  /** The method names `_request` dispatches on. */
  function MethodNamed(name: string): (r: Option<Method>)
    ensures r == Some(Get) <==> name == "GET"
    ensures r == Some(Post) <==> name == "POST"
    ensures r == Some(Delete) <==> name == "DELETE"
    ensures r.None? <==> name !in {"GET", "POST", "DELETE"}
  {
    if name == "GET" then Some(Get)
    else if name == "POST" then Some(Post)
    else if name == "DELETE" then Some(Delete)
    else None
  }

  /** The older status rule: only a status above 300 fails. */
  predicate StatusFails(status: int) {
    300 < status
  }

  /** `_request(method, endpoint, data)` of the older module: the body is
      serialised before the method is looked at, an unknown method is refused
      before any request, and only a status above 300 fails. */
  function Call(c: Client, remote: Remote, methodName: string, path: string, body: Value): (r: Traced<Reply>)
    ensures !JsonSerializable(body) ==> r == Traced(Err(NotSerializable), [])
    ensures JsonSerializable(body) && MethodNamed(methodName).None? ==> r == Traced(Err(UnsupportedMethod), [])
    ensures |r.trace| == 1 <==> JsonSerializable(body) && MethodNamed(methodName).Some?
    ensures |r.trace| == 1 ==>
              r.trace[0] == Request(MethodNamed(methodName).value, Host + path, AuthHeaders(c.accessToken), JsonBody(body))
    ensures |r.trace| <= 1 && AllAuthorized(r.trace, c.accessToken)
    ensures |r.trace| == 1 ==>
              var status := remote(r.trace[0]).status;
              && (r.result == Err(BadStatus(status)) <==> StatusFails(status))
              && (!StatusFails(status) ==> r.result == DecodeReply(remote(r.trace[0])))
  {
    if !JsonSerializable(body) then Traced(Err(NotSerializable), [])
    else
      match MethodNamed(methodName)
      case None => Traced(Err(UnsupportedMethod), [])
      case Some(verb) =>
        var req := Request(verb, Host + path, AuthHeaders(c.accessToken), JsonBody(body));
        var resp := remote(req);
        if StatusFails(resp.status) then Traced(Err(BadStatus(resp.status)), [req])
        else Traced(DecodeReply(resp), [req])
  }

  /** Where the two clients part: a status of 300, or one below 200, fails
      the current client and passes the older one; inside [200, 300) they
      agree on the outcome. */
  lemma StatusRulesDiffer(c: Client, remote: Remote, path: string)
    ensures var req := Request(Get, Host + path, AuthHeaders(c.accessToken), JsonBody(VNull));
            var s := remote(req).status;
            var legacy, current := Call(c, remote, "GET", path, VNull), ApiClient.Call(c, remote, Get, path, VNull);
            && legacy.trace == current.trace == [req]
            && (200 <= s < 300 ==> legacy == current)
            && (s == 300 || s < 200 ==> current.result == Err(BadStatus(s)) && legacy.result == DecodeReply(remote(req)))
            && (s > 300 ==> legacy.result == current.result == Err(BadStatus(s)))
  {
  }

  /** `list_buckets()`: one GET, no paging parameters. */
  function ListBuckets(c: Client, remote: Remote): (r: Traced<Reply>)
    ensures r.trace == [Request(Get, Host + ("/users/" + c.clientId + "/buckets/"), AuthHeaders(c.accessToken), JsonBody(VNull))]
    ensures StatusRuleHolds(remote, r)
  {
    Call(c, remote, "GET", "/users/" + c.clientId + "/buckets/", VNull)
  }

  /** The outcome of the one request the older `_request` sent: only a
      status above 300 fails, anything else is the decoded reply. */
  predicate StatusRuleHolds(remote: Remote, r: Traced<Reply>)
    requires |r.trace| == 1
  {
    var resp := remote(r.trace[0]);
    if StatusFails(resp.status) then r.result == Err(BadStatus(resp.status)) else r.result == DecodeReply(resp)
  }

  /** `get_bucket(bucket_id)`: the id rendered into the path, then one GET. */
  function GetBucket(c: Client, remote: Remote, bucketId: Value): (r: Traced<Reply>)
    ensures ApiClient.Render(bucketId).Err? ==> r == Traced(Err(Unrenderable), [])
    ensures ApiClient.Render(bucketId).Ok? ==>
              && r.trace == [Request(Get, Host + ("/buckets/" + ApiClient.Render(bucketId).value), AuthHeaders(c.accessToken), JsonBody(VNull))]
              && StatusRuleHolds(remote, r)
  {
    match ApiClient.Render(bucketId)
    case Err(e) => Traced(Err(e), [])
    case Ok(text) => Call(c, remote, "GET", "/buckets/" + text, VNull)
  }

  /** `create_bucket(label, description)`: the same length rule as the
      current client, then one POST. */
  function CreateBucket(c: Client, remote: Remote, name: string, description: string): (r: Traced<Reply>)
    ensures !ApiClient.LabelLengthOk(name) <==> r.trace == []
    ensures !ApiClient.LabelLengthOk(name) ==> r.result == Err(BadLabelLength)
    ensures ApiClient.LabelLengthOk(name) ==>
              && r.trace == [Request(Post, Host + "/buckets/", AuthHeaders(c.accessToken), JsonBody(ApiClient.BucketBody(name, description)))]
              && StatusRuleHolds(remote, r)
  {
    if !ApiClient.LabelLengthOk(name) then Traced(Err(BadLabelLength), [])
    else Call(c, remote, "POST", "/buckets/", ApiClient.BucketBody(name, description))
  }

  /** `create_or_get_bucket(label, description)`: the same first-match rule
      over the unpaged listing. */
  function CreateOrGetBucket(c: Client, remote: Remote, name: string, description: string): (r: Traced<Reply>)
    ensures |r.trace| >= 1 && r.trace[0] == ListBuckets(c, remote).trace[0]
    ensures AllAuthorized(r.trace, c.accessToken)
    ensures var listed := ListBuckets(c, remote).result;
            && (listed.Err? ==> r == Traced(Err(listed.error), ListBuckets(c, remote).trace))
            && (listed.Ok? && FindBucket(listed.value, name).Err? ==>
                  r == Traced(Err(FindBucket(listed.value, name).error), ListBuckets(c, remote).trace))
            && (listed.Ok? && FindBucket(listed.value, name).Ok? && FindBucket(listed.value, name).value.Some? ==>
                  r == Traced(Ok(Parsed(FindBucket(listed.value, name).value.value)), ListBuckets(c, remote).trace))
            && (listed.Ok? && FindBucket(listed.value, name) == Ok(None) ==>
                  r.trace == ListBuckets(c, remote).trace + CreateBucket(c, remote, name, description).trace
                  && r.result == CreateBucket(c, remote, name, description).result)
    ensures |r.trace| <= 2
  {
    var listed := ListBuckets(c, remote);
    match listed.result
    case Err(e) => Traced(Err(e), listed.trace)
    case Ok(reply) =>
      match FindBucket(reply, name)
      case Err(e) => Traced(Err(e), listed.trace)
      case Ok(Some(bucket)) => Traced(Ok(Parsed(bucket)), listed.trace)
      case Ok(None) =>
        var created := CreateBucket(c, remote, name, description);
        Traced(created.result, listed.trace + created.trace)
  }

  /** `delete_bucket(bucket_id)`: the reply is discarded, failures are not. */
  function DeleteBucket(c: Client, remote: Remote, bucketId: Value): (r: Traced<()>)
    ensures ApiClient.Render(bucketId).Err? ==> r == Traced(Err(Unrenderable), [])
    ensures ApiClient.Render(bucketId).Ok? ==>
              && r.trace == [Request(Delete, Host + ("/buckets/" + ApiClient.Render(bucketId).value), AuthHeaders(c.accessToken), JsonBody(VNull))]
              && var resp := remote(r.trace[0]);
                 && (r.result == Err(BadStatus(resp.status)) <==> StatusFails(resp.status))
                 && (!StatusFails(resp.status) ==> (r.result.Ok? <==> DecodeReply(resp).Ok?))
  {
    match ApiClient.Render(bucketId)
    case Err(e) => Traced(Err(e), [])
    case Ok(text) =>
      var sent := Call(c, remote, "DELETE", "/buckets/" + text, VNull);
      match sent.result
      case Err(e) => Traced(Err(e), sent.trace)
      case Ok(_) => Traced(Ok(()), sent.trace)
  }

  /** `list_events(bucket_id)`. */
  function ListEvents(c: Client, remote: Remote, bucketId: Value): (r: Traced<Reply>)
    ensures ApiClient.Render(bucketId).Err? ==> r == Traced(Err(Unrenderable), [])
    ensures ApiClient.Render(bucketId).Ok? ==>
              && r.trace == [Request(Get, Host + ("/buckets/" + ApiClient.Render(bucketId).value + "/"), AuthHeaders(c.accessToken), JsonBody(VNull))]
              && StatusRuleHolds(remote, r)
  {
    match ApiClient.Render(bucketId)
    case Err(e) => Traced(Err(e), [])
    case Ok(text) => Call(c, remote, "GET", "/buckets/" + text + "/", VNull)
  }

  /** `create_event(bucket_id, event)`: the event must be a dict, the id is
      rendered into the path, then one POST of the event, which must
      serialise. */
  function CreateEvent(c: Client, remote: Remote, bucketId: Value, event: Value): (r: Traced<Reply>)
    ensures !event.VDict? ==> r == Traced(Err(InvalidArgument), [])
    ensures event.VDict? && ApiClient.Render(bucketId).Err? ==> r == Traced(Err(Unrenderable), [])
    ensures event.VDict? && ApiClient.Render(bucketId).Ok? && !JsonSerializable(event) ==> r == Traced(Err(NotSerializable), [])
    ensures event.VDict? && ApiClient.Render(bucketId).Ok? && JsonSerializable(event) ==>
              && r.trace == [Request(Post, Host + ("/buckets/" + ApiClient.Render(bucketId).value + "/"), AuthHeaders(c.accessToken), JsonBody(event))]
              && StatusRuleHolds(remote, r)
  {
    if !event.VDict? then Traced(Err(InvalidArgument), [])
    else
      match ApiClient.Render(bucketId)
      case Err(e) => Traced(Err(e), [])
      case Ok(text) => Call(c, remote, "POST", "/buckets/" + text + "/", event)
  }

  /** The two clients refuse the same bucket names and send the same create
      request for the others. */
  lemma CreateBucketAgrees(c: Client, remote: Remote, name: string, description: string)
    ensures CreateBucket(c, remote, name, description).trace == ApiClient.CreateBucket(c, remote, name, description).trace
    ensures !ApiClient.LabelLengthOk(name) ==>
              CreateBucket(c, remote, name, description).result == ApiClient.CreateBucket(c, remote, name, description).result == Err(BadLabelLength)
  {
  }

  /** The listing requests of the two clients differ only in the paging
      query the current client appends. */
  lemma ListingsDiffer(c: Client, remote: Remote, offset: int, limit: int)
    requires limit <= ApiClient.MaxLimit
    ensures var older, current := ListBuckets(c, remote).trace[0], ApiClient.ListBuckets(c, remote, offset, limit).trace[0];
            && current.verb == older.verb && current.headers == older.headers && current.payload == older.payload
            && current.url == older.url + "?order=label&offset=" + IntToString(offset) + "&limit=" + IntToString(limit)
  {
    var older, current := ListBuckets(c, remote).trace[0], ApiClient.ListBuckets(c, remote, offset, limit).trace[0];
    assert older.url == Host + ("/users/" + c.clientId + "/buckets/");
    assert current.url == Host + ApiClient.ListBucketsPath(c.clientId, offset, limit);
    Regroup(Host, "/users/" + c.clientId + "/buckets/", "?order=label&offset=", IntToString(offset), "&limit=", IntToString(limit));
  }

  /** Regrouping a concatenation. */
  lemma Regroup<T>(h: seq<T>, x: seq<T>, q: seq<T>, a: seq<T>, m: seq<T>, b: seq<T>)
    ensures h + (x + q + a + m + b) == h + x + q + a + m + b
  {
  }

  /** For an id the older client renders, both clients issue the same
      request for a bucket and its events; they part only on the status
      rule. */
  lemma EndpointsAgree(c: Client, remote: Remote, bucketId: Value)
    requires ApiClient.Render(bucketId).Ok?
    ensures GetBucket(c, remote, bucketId).trace == ApiClient.GetBucket(c, remote, bucketId).trace
    ensures DeleteBucket(c, remote, bucketId).trace == ApiClient.DeleteBucket(c, remote, bucketId).trace
    ensures ListEvents(c, remote, bucketId).trace == ApiClient.ListEvents(c, remote, bucketId).trace
  {
  }
}

=== FILE: legacy_event.dfy ===
/** The older event record of pyzenobase/main.py: construction checks each
    key against a 24-name list and copies the data verbatim, with no cleaning. */
module LegacyEvent {
  import opened Results
  import opened Text
  import opened Values
  import opened Calendar
  import opened Event

  /** The older `_VALID_FIELDS`. */
  const LegacyFields: set<string> :=
    {"bits", "concentration", "count", "distance", "duration", "energy", "frequency", "height",
     "humidity", "location", "note", "moon", "percentage", "pressure", "rating", "resource",
     "sound", "source", "tag", "temperature", "timestamp", "velocity", "volume", "weight"}

  /** `ZenobaseEvent(data)` of the older module: fails exactly when a key is
      not in the list; otherwise the record holds exactly the input. */
  function MakeLegacyEvent(data: map<string, Value>): (r: Result<map<string, Value>, EventError>)
    ensures r.Ok? <==> forall k :: k in data ==> k in LegacyFields
    ensures r.Err? ==> r.error == UnknownField
    ensures r.Ok? ==> r.value == data
  {
    if data.Keys <= LegacyFields then Ok(data) else Err(UnknownField)
  }

  /** The older list is the newer one without three names. */
  lemma LegacyFieldsAreFewer()
    ensures LegacyFields <= ValidFields
    ensures ValidFields - LegacyFields == {"currency", "pace", "distance/volume"}
  {
  }

  /** Whatever keys the older record accepts, the newer one accepts too. */
  lemma LegacyKeysAcceptedByEvent(data: map<string, Value>, zone: int)
    requires ValidOffset(zone)
    requires forall k :: k in data ==> WellFormed(data[k])
    requires MakeLegacyEvent(data).Ok?
    ensures MakeEvent(data, zone) != Err(UnknownField)
  {
    LegacyFieldsAreFewer();
  }

  /** A key only the newer record knows is refused by the older one. */
  lemma CurrencyOnlyInEvent(zone: int)
    requires ValidOffset(zone)
    ensures MakeLegacyEvent(map["currency" := VStr("EUR")]) == Err(UnknownField)
    ensures MakeEvent(map["currency" := VStr("EUR")], zone) == Ok(map["currency" := VStr("EUR")])
  {
    LegacyFieldsAreFewer();
    var d := map["currency" := VStr("EUR")];
    assert d.Keys <= ValidFields;
  }

  /** Nothing is rewritten: a volume unit in litres keeps its lowercase `l`,
      which the newer record would turn into `L`. */
  lemma LegacyKeepsUnits(zone: int)
    requires ValidOffset(zone)
    ensures var d := map["volume" := VDict(map["unit" := VStr("ml")])];
            && MakeLegacyEvent(d) == Ok(d)
            && MakeEvent(d, zone) == Ok(map["volume" := VDict(map["unit" := VStr("mL")])])
  {
    var unit := VDict(map["unit" := VStr("ml")]);
    var d := map["volume" := unit];
    assert d.Keys <= LegacyFields;
    assert d.Keys <= ValidFields;
    assert ReplaceChar("ml", 'l', 'L') == "mL";
    var unit' := VDict(map["unit" := VStr("mL")]);
    assert unit.fields["unit" := VStr("mL")] == unit'.fields;
    assert NormalizeVolume(unit) == Ok(unit');
    assert d["volume" := unit'] == map["volume" := unit'];
    assert CleanTimestamp(d, zone) == Ok(d);
    assert CleanVolume(d) == Ok(map["volume" := unit']);
    assert CleanData(d, zone) == Ok(map["volume" := unit']);
  }
}

=== FILE: ordered_dict.dfy ===
/** Python's `dict` with its insertion order: a sequence of entries with
    distinct keys. Assigning to a present key replaces its value where it
    stands; assigning to a new key appends it. The order is what a later
    `for key in d` visits. */
module OrderedDict {
  import opened Results

  type Dict<K, V> = seq<(K, V)>

  predicate UniqueKeys<K(==), V>(d: Dict<K, V>) {
    forall i, j :: 0 <= i < j < |d| ==> d[i].0 != d[j].0
  }

  /** The keys in iteration order. */
  function Keys<K, V>(d: Dict<K, V>): (r: seq<K>)
    ensures |r| == |d| && forall i :: 0 <= i < |d| ==> r[i] == d[i].0
  {
    if |d| == 0 then [] else [d[0].0] + Keys(d[1..])
  }

  /** `d.get(k)`. */
  function Get<K(==), V>(d: Dict<K, V>, k: K): (r: Option<V>)
    ensures r.None? <==> forall i :: 0 <= i < |d| ==> d[i].0 != k
    ensures r.Some? ==> exists i :: 0 <= i < |d| && d[i] == (k, r.value)
  {
    if |d| == 0 then None
    else if d[0].0 == k then Some(d[0].1)
    else
      var r := Get(d[1..], k);
      assert forall i :: 1 <= i < |d| ==> d[i] == d[1..][i - 1];
      r
  }

  /** With distinct keys, an entry's value is what Get finds for its key. */
  lemma {:induction false} GetEntry<K, V>(d: Dict<K, V>, i: nat)
    requires UniqueKeys(d) && i < |d|
    ensures Get(d, d[i].0) == Some(d[i].1)
  {
    if i > 0 {
      GetEntry(d[1..], i - 1);
    }
  }

  /** `d[k] = v`. */
  function Put<K(==), V>(d: Dict<K, V>, k: K, v: V): (r: Dict<K, V>)
    ensures Get(d, k).Some? ==> Keys(r) == Keys(d)
    ensures Get(d, k).None? ==> r == d + [(k, v)]
    ensures forall i :: 0 <= i < |d| && d[i].0 != k ==> r[i] == d[i]
  {
    if |d| == 0 then [(k, v)]
    else if d[0].0 == k then [(k, v)] + d[1..]
    else
      var rest := Put(d[1..], k, v);
      assert forall i :: 1 <= i < |d| ==> d[i] == d[1..][i - 1];
      [d[0]] + rest
  }

  /** After `d[k] = v`, looking up `k` finds `v`. */
  lemma {:induction false} PutFinds<K, V>(d: Dict<K, V>, k: K, v: V)
    ensures Get(Put(d, k, v), k) == Some(v)
  {
    if |d| > 0 && d[0].0 != k {
      PutFinds(d[1..], k, v);
      assert Put(d, k, v)[1..] == Put(d[1..], k, v);
    }
  }

  /** After `d[k] = v`, every other key finds what it found before. */
  lemma {:induction false} PutKeepsOthers<K, V>(d: Dict<K, V>, k: K, v: V, other: K)
    requires other != k
    ensures Get(Put(d, k, v), other) == Get(d, other)
  {
    if |d| > 0 && d[0].0 != k {
      PutKeepsOthers(d[1..], k, v, other);
      assert Put(d, k, v)[1..] == Put(d[1..], k, v);
    } else if |d| > 0 {
      assert Put(d, k, v)[1..] == d[1..];
    }
  }

  /** `d[k] = v` keeps the keys distinct. */
  lemma PutKeepsUnique<K, V>(d: Dict<K, V>, k: K, v: V)
    requires UniqueKeys(d)
    ensures UniqueKeys(Put(d, k, v))
  {
    var r := Put(d, k, v);
    if Get(d, k).Some? {
      assert forall i :: 0 <= i < |r| ==> r[i].0 == Keys(r)[i] == Keys(d)[i] == d[i].0;
    }
  }

  /** Assigning a key twice leaves the later value; the order is that of
      the first assignment. */
  lemma {:induction false} PutPut<K(!new), V>(d: Dict<K, V>, k: K, v: V, w: V)
    ensures Put(Put(d, k, v), k, w) == Put(d, k, w)
  {
    if |d| > 0 {
      if d[0].0 != k {
        PutPut(d[1..], k, v, w);
        assert Put(d, k, v)[1..] == Put(d[1..], k, v);
      }
    }
  }
}

=== FILE: patterns.dfy ===
/** The regular expressions of the spreadsheet scripts, as explicit scanners
    with the matching rules of Python's `re`: `findall` reports matches from
    left to right, the first match starts at the leftmost position where the
    pattern matches, and an alternation picks the first alternative, in the
    order written, that matches there.

    - `r_time` = `[0-9]{1,2}:[0-9]{2}` is `FindTimes`;
    - `r_weight` = `^[0-9]+\.?[0-9]*` is `LeadingAmount`;
    - `r_unit` and `r_roa` are alternations of literals, `FirstAlternative`;
    - `r_alc_perc` = `[0-9]+\.?[0-9]*%` is `FirstPercent`. */
module Patterns {
  import opened Results
  import opened Text

  // ---------------------------------------------------------------- literals

  /** The first alternative, in the order given, that occurs at `pos`. */
  function AltAt(s: string, alts: seq<string>, pos: int): (r: Option<string>)
    ensures r.Some? ==> r.value in alts && OccursAt(s, r.value, pos)
    ensures r.None? <==> forall k :: 0 <= k < |alts| ==> !OccursAt(s, alts[k], pos)
  {
    if |alts| == 0 then None
    else if OccursAt(s, alts[0], pos) then Some(alts[0])
    else
      var rest := AltAt(s, alts[1..], pos);
      assert forall k :: 1 <= k < |alts| ==> alts[k] == alts[1..][k - 1];
      rest
  }

  /** `re.search` of an alternation from `from` on: the leftmost position
      where some alternative occurs, with the alternative chosen there. */
  function FirstAltFrom(s: string, alts: seq<string>, from: nat): (r: Option<(nat, string)>)
    ensures r.Some? ==> from <= r.value.0 <= |s| && AltAt(s, alts, r.value.0) == Some(r.value.1)
    ensures r.Some? ==> forall q :: from <= q < r.value.0 ==> AltAt(s, alts, q).None?
    ensures r.None? <==> forall q :: from <= q <= |s| ==> AltAt(s, alts, q).None?
    decreases |s| - from
  {
    if from > |s| then None
    else
      match AltAt(s, alts, from)
      case Some(a) => Some((from, a))
      case None => FirstAltFrom(s, alts, from + 1)
  }

  /** `pattern.findall(s)[0]` for an alternation of literals, or None when
      there is no match (Python's IndexError). */
  function FirstAlternative(s: string, alts: seq<string>): (r: Option<string>)
    ensures r.Some? ==> r.value in alts && exists pos :: OccursAt(s, r.value, pos)
    ensures r.None? <==> forall q, k :: 0 <= q <= |s| && 0 <= k < |alts| ==> !OccursAt(s, alts[k], q)
  {
    match FirstAltFrom(s, alts, 0)
    case None =>
      forall q, k | 0 <= q <= |s| && 0 <= k < |alts| ensures !OccursAt(s, alts[k], q) {
        assert AltAt(s, alts, q).None?;
      }
      None
    case Some((pos, a)) =>
      assert OccursAt(s, a, pos);
      Some(a)
  }

  /** No alternative starts another one, so at most one occurs at any
      position and the order of the alternation cannot matter. */
  predicate PrefixFree(alts: seq<string>) {
    forall i, j :: 0 <= i < |alts| && 0 <= j < |alts| && IsPrefix(alts[i], alts[j]) ==> i == j
  }

  /** In a prefix-free alternation, an alternative that occurs is the one chosen. */
  lemma AltAtPrefixFree(s: string, alts: seq<string>, pos: int, k: int)
    requires PrefixFree(alts) && 0 <= k < |alts| && OccursAt(s, alts[k], pos)
    ensures AltAt(s, alts, pos) == Some(alts[k])
  {
    var r := AltAt(s, alts, pos).value;
    var m :| 0 <= m < |alts| && alts[m] == r;
    OccurTogether(s, alts[m], alts[k], pos);
  }

  /** Two texts occurring at the same position agree on their common
      length: one is a prefix of the other. */
  lemma OccurTogether(s: string, a: string, b: string, pos: int)
    requires OccursAt(s, a, pos) && OccursAt(s, b, pos)
    ensures IsPrefix(a, b) || IsPrefix(b, a)
  {
    if |a| <= |b| {
      assert b[..|a|] == s[pos..pos + |a|];
    } else {
      assert a[..|b|] == s[pos..pos + |b|];
    }
  }

  const Units: seq<string> := ["mcg", "ug", "mg", "g", "ml", "cl", "dl", "l"]
  const Routes: seq<string> := ["oral", "insuff", "subl", "intranasal", "subcut", "buccal"]

  /** In a prefix-free alternation, an alternative that occurs at `n`, with
      no alternative occurring earlier, is the first one found. */
  lemma FirstAlternativeAt(s: string, alts: seq<string>, n: nat, k: int)
    requires PrefixFree(alts) && 0 <= k < |alts| && OccursAt(s, alts[k], n)
    requires forall q :: 0 <= q < n ==> AltAt(s, alts, q).None?
    ensures FirstAlternative(s, alts) == Some(alts[k])
  {
    AltAtPrefixFree(s, alts, n, k);
    var f := FirstAltFrom(s, alts, 0);
    assert f.Some? && f.value.0 == n;
  }

  lemma UnitsPrefixFree()
    ensures PrefixFree(Units)
  {
    forall i, j | 0 <= i < |Units| && 0 <= j < |Units| && IsPrefix(Units[i], Units[j]) ensures i == j {
      assert Units[i][0] == Units[j][0];
      assert |Units[i]| >= 2 ==> Units[i][1] == Units[j][1];
    }
  }

  lemma RoutesPrefixFree()
    ensures PrefixFree(Routes)
  {
    forall i, j | 0 <= i < |Routes| && 0 <= j < |Routes| && IsPrefix(Routes[i], Routes[j]) ensures i == j {
      assert Routes[i][0] == Routes[j][0] && Routes[i][2] == Routes[j][2] && Routes[i][3] == Routes[j][3];
    }
  }

  /** `r_unit.findall(s)[0]`. */
  function FirstUnit(s: string): (r: Option<string>)
    ensures r.Some? ==> r.value in Units
  {
    FirstAlternative(s, Units)
  }

  /** Every unit ends in `g` or `l`, so any match shows one of them. */
  lemma UnitShowsGOrL(s: string, u: string, pos: int)
    requires u in Units && OccursAt(s, u, pos)
    ensures 'g' in s || 'l' in s
  {
    assert s[pos + |u| - 1] == u[|u| - 1];
  }

  /** A unit is found exactly when the text holds a `g` or an `l`, since
      both are alternatives of their own. */
  lemma {:induction false} FirstUnitFound(s: string)
    ensures FirstUnit(s).Some? <==> 'g' in s || 'l' in s
  {
    if 'g' in s {
      var i :| 0 <= i < |s| && s[i] == 'g';
      assert OccursAt(s, Units[3], i);
    } else if 'l' in s {
      var i :| 0 <= i < |s| && s[i] == 'l';
      assert OccursAt(s, Units[7], i);
    }
    if FirstUnit(s).Some? {
      var u := FirstUnit(s).value;
      var pos :| OccursAt(s, u, pos);
      UnitShowsGOrL(s, u, pos);
    }
  }

  /** `r_roa.findall(token)[0]`, with "oral" when nothing matches. */
  function RouteOf(token: string): (r: string)
    ensures r in Routes
    ensures FirstAlternative(token, Routes).None? ==> r == "oral"
    ensures FirstAlternative(token, Routes).Some? ==> r == FirstAlternative(token, Routes).value
  {
    match FirstAlternative(token, Routes)
    case None => "oral"
    case Some(route) => route
  }

  // ---------------------------------------------------------------- digits

  /** The end of the run of digits that starts at `i`. */
  function DigitRunEnd(s: string, i: nat): (e: nat)
    requires i <= |s|
    ensures i <= e <= |s|
    ensures forall k :: i <= k < e ==> IsDigit(s[k])
    ensures e < |s| ==> !IsDigit(s[e])
    decreases |s| - i
  {
    if i < |s| && IsDigit(s[i]) then DigitRunEnd(s, i + 1) else i
  }

  /** Where `[0-9]+\.?[0-9]*` starting at `i` ends, taken greedily; None when
      `s[i]` is not a digit. Nothing follows these parts in either pattern
      that uses them, except a `%` that no part can match, so the greedy
      choice is the one the regex engine makes. */
  function NumberEnd(s: string, i: nat): (r: Option<nat>)
    requires i <= |s|
    ensures r.Some? <==> i < |s| && IsDigit(s[i])
    ensures r.Some? ==> i < r.value <= |s|
    ensures r.Some? ==> r.value == |s| || (!IsDigit(s[r.value]) && s[r.value] != '.')
                        || (s[r.value] == '.' && exists k :: i < k < r.value && s[k] == '.')
  {
    if i < |s| && IsDigit(s[i]) then
      var e1 := DigitRunEnd(s, i);
      if e1 < |s| && s[e1] == '.' then
        var e2 := DigitRunEnd(s, e1 + 1);
        Some(e2)
      else Some(e1)
    else None
  }

  /** The text a number match covers: digits, at most one '.', digits,
      starting with a digit. */
  predicate NumberShaped(t: string) {
    && |t| >= 1 && IsDigit(t[0])
    && forall k :: 0 <= k < |t| ==> IsDigit(t[k]) || (t[k] == '.' && forall m :: 0 <= m < k ==> t[m] != '.')
  }

  lemma NumberEndShape(s: string, i: nat)
    requires i <= |s| && NumberEnd(s, i).Some?
    ensures NumberShaped(s[i..NumberEnd(s, i).value])
  {
    var e1 := DigitRunEnd(s, i);
    var t := s[i..NumberEnd(s, i).value];
    forall k | 0 <= k < |t|
      ensures IsDigit(t[k]) || (t[k] == '.' && forall m :: 0 <= m < k ==> t[m] != '.')
    {
      assert t[k] == s[i + k];
      if !IsDigit(t[k]) {
        assert i + k == e1;
        forall m | 0 <= m < k ensures t[m] != '.' {
          assert t[m] == s[i + m];
        }
      }
    }
  }

  /** `r_weight.findall(s)[0]`: the number at the very start of `s`. */
  function LeadingAmount(s: string): (r: Option<string>)
    ensures r.Some? <==> |s| >= 1 && IsDigit(s[0])
    ensures r.Some? ==> IsPrefix(r.value, s) && NumberShaped(r.value)
  {
    match NumberEnd(s, 0)
    case None => None
    case Some(e) =>
      NumberEndShape(s, 0);
      Some(s[..e])
  }

  /** `s[i..e]` is a `[0-9]+\.?[0-9]*%` match: a number, then the `%`. */
  predicate PercentMatch(s: string, i: nat, e: nat) {
    i < e <= |s| && s[e - 1] == '%' && NumberShaped(s[i..e - 1])
  }

  /** The `[0-9]+\.?[0-9]*%` match starting at `i`, as the index just past
      the `%`. A number cannot hold a `%`, so at most one end gives a match,
      and the match is found exactly when one exists. */
  function PercentAt(s: string, i: nat): (r: Option<nat>)
    requires i <= |s|
    ensures r.Some? ==> PercentMatch(s, i, r.value)
    ensures r.None? ==> forall e: nat :: !PercentMatch(s, i, e)
  {
    forall e: nat | PercentMatch(s, i, e) ensures NumberEnd(s, i) == Some(e - 1) {
      NumberEndAt(s, i, e - 1);
    }
    match NumberEnd(s, i)
    case None => None
    case Some(e) =>
      if e < |s| && s[e] == '%' then
        NumberEndShape(s, i);
        Some(e + 1)
      else None
  }

  /** A number cannot hold a `%`, so a match at `i` has only one end, and
      it is the one found. */
  lemma PercentMatchFound(s: string, i: nat, e: nat)
    requires i <= |s| && PercentMatch(s, i, e)
    ensures PercentAt(s, i) == Some(e)
  {
    NumberEndAt(s, i, e - 1);
  }

  /** The run of digits from `i` ends at the first non-digit. */
  lemma DigitRunEndAt(s: string, i: nat, e: nat)
    requires i <= e <= |s|
    requires forall k :: i <= k < e ==> IsDigit(s[k])
    requires e == |s| || !IsDigit(s[e])
    ensures DigitRunEnd(s, i) == e
  {
  }

  /** A number followed by `%` is exactly where the greedy number match
      from its start ends. */
  lemma NumberEndAt(s: string, i: nat, m: nat)
    requires i < m < |s| && NumberShaped(s[i..m]) && s[m] == '%'
    ensures NumberEnd(s, i) == Some(m)
  {
    var t := s[i..m];
    assert forall k :: 0 <= k < |t| ==> t[k] == s[i + k];
    if k :| 0 <= k < |t| && t[k] == '.' {
      forall j | i <= j < i + k ensures IsDigit(s[j]) {
        assert t[j - i] == s[j];
      }
      DigitRunEndAt(s, i, i + k);
      forall j | i + k + 1 <= j < m ensures IsDigit(s[j]) {
        assert t[j - i] == s[j] && t[k] == '.';
      }
      DigitRunEndAt(s, i + k + 1, m);
    } else {
      DigitRunEndAt(s, i, m);
    }
  }

  /** The leftmost match of `r_alc_perc` from `from` on, as its bounds. */
  function PercentFrom(s: string, from: nat): (r: Option<(nat, nat)>)
    requires from <= |s|
    ensures r.Some? ==> from <= r.value.0 < r.value.1 <= |s| && PercentAt(s, r.value.0) == Some(r.value.1)
    ensures r.Some? ==> forall q :: from <= q < r.value.0 ==> PercentAt(s, q).None?
    ensures r.None? ==> forall q :: from <= q <= |s| ==> PercentAt(s, q).None?
    decreases |s| - from
  {
    match PercentAt(s, from)
    case Some(e) => Some((from, e))
    case None => if from == |s| then None else PercentFrom(s, from + 1)
  }

  /** `r_alc_perc.findall(s)[0].replace("%", "")`: the number in front of
      the leftmost match's `%`, or None when there is no match. */
  function FirstPercent(s: string): (r: Option<string>)
    ensures r.Some? ==> NumberShaped(r.value) && '%' !in r.value
    ensures r.Some? ==> exists i :: OccursAt(s, r.value + "%", i)
    ensures r.Some? ==> exists b: nat :: LeftmostPercent(s, b) && r.value == s[b..PercentAt(s, b).value - 1]
    ensures r.None? <==> forall q :: 0 <= q <= |s| ==> PercentAt(s, q).None?
  {
    match PercentFrom(s, 0)
    case None => None
    case Some((b, e)) =>
      var t := s[b..e - 1];
      assert forall k :: 0 <= k < |t| ==> t[k] != '%';
      assert s[b..e] == t + "%";
      assert OccursAt(s, t + "%", b);
      assert LeftmostPercent(s, b);
      Some(t)
  }

  /** A percentage matches at `b` and at no earlier position. */
  predicate LeftmostPercent(s: string, b: nat) {
    b <= |s| && PercentAt(s, b).Some? && forall q :: 0 <= q < b ==> PercentAt(s, q).None?
  }

  lemma PercentExamples()
    ensures FirstPercent("50% rest") == Some("50")
    ensures FirstPercent("%") == None
  {
    var b := "50% rest";
    assert PercentAt(b, 0) == Some(3);
    assert PercentFrom(b, 0) == Some((0, 3));
    assert b[0..2] == "50";
    assert PercentAt("%", 0).None? && PercentAt("%", 1).None?;
    assert PercentFrom("%", 1).None?;
    assert PercentFrom("%", 0).None?;
  }

  // ---------------------------------------------------------------- times

  /** The text of a `[0-9]{1,2}:[0-9]{2}` match. */
  predicate TimeShaped(t: string) {
    || (|t| == 4 && IsDigit(t[0]) && t[1] == ':' && IsDigit(t[2]) && IsDigit(t[3]))
    || (|t| == 5 && IsDigit(t[0]) && IsDigit(t[1]) && t[2] == ':' && IsDigit(t[3]) && IsDigit(t[4]))
  }

  /** The length of the `r_time` match at `i`: two hour digits are tried
      first, then one. */
  function TimeAt(s: string, i: nat): (r: Option<nat>)
    ensures r.Some? ==> i + r.value <= |s| && TimeShaped(s[i..i + r.value])
    ensures r.None? <==> !(i + 4 <= |s| && TimeShaped(s[i..i + 4])) && !(i + 5 <= |s| && TimeShaped(s[i..i + 5]))
    ensures i + 5 <= |s| && TimeShaped(s[i..i + 5]) ==> r == Some(5)
  {
    if i + 5 <= |s| && IsDigit(s[i]) && IsDigit(s[i + 1]) && s[i + 2] == ':' && IsDigit(s[i + 3]) && IsDigit(s[i + 4])
    then Some(5)
    else if i + 4 <= |s| && IsDigit(s[i]) && s[i + 1] == ':' && IsDigit(s[i + 2]) && IsDigit(s[i + 3])
    then Some(4)
    else None
  }

  /** `r_time.findall(s[from..])`: non-overlapping matches, left to right. */
  function FindTimesFrom(s: string, from: nat): (r: seq<string>)
    ensures forall k :: 0 <= k < |r| ==> TimeShaped(r[k])
    ensures r == [] <==> forall i :: from <= i < |s| ==> TimeAt(s, i).None?
    decreases |s| - from
  {
    if from >= |s| then []
    else
      match TimeAt(s, from)
      case Some(n) => [s[from..from + n]] + FindTimesFrom(s, from + n)
      case None => FindTimesFrom(s, from + 1)
  }

  function FindTimes(s: string): (r: seq<string>)
    ensures forall k :: 0 <= k < |r| ==> TimeShaped(r[k])
    ensures r == [] <==> forall i :: 0 <= i < |s| ==> TimeAt(s, i).None?
  {
    FindTimesFrom(s, 0)
  }

  /** One step of `findall`: the search skips the positions without a match,
      reports the match at the first position with one, and resumes after it. */
  lemma {:induction false} FindTimesStep(s: string, from: nat, j: nat, n: nat)
    requires from <= j < |s| && TimeAt(s, j) == Some(n)
    requires forall i :: from <= i < j ==> TimeAt(s, i).None?
    ensures FindTimesFrom(s, from) == [s[j..j + n]] + FindTimesFrom(s, j + n)
    decreases j - from
  {
    if from < j {
      FindTimesStep(s, from + 1, j, n);
    }
  }

  /** No time-shaped text means no match: the search finds nothing at any
      position. */
  lemma {:induction false} FindTimesNone(s: string, from: nat)
    requires forall i :: from <= i < |s| ==> TimeAt(s, i).None?
    ensures FindTimesFrom(s, from) == []
    decreases |s| - from
  {
    if from < |s| {
      FindTimesNone(s, from + 1);
    }
  }

  lemma TimeExamples()
    ensures FindTimes("~8:30") == ["8:30"]
    ensures FindTimes("123:45") == ["23:45"]
  {
    var a := "~8:30";
    assert TimeAt(a, 0).None?;
    assert TimeAt(a, 1) == Some(4);
    assert FindTimesFrom(a, 5) == [];
    assert FindTimesFrom(a, 1) == [a[1..5]];
    assert FindTimesFrom(a, 0) == FindTimesFrom(a, 1);
    assert a[1..5] == "8:30";
    var c := "123:45";
    assert TimeAt(c, 0).None?;
    assert TimeAt(c, 1) == Some(5);
    assert FindTimesFrom(c, 6) == [];
    assert FindTimesFrom(c, 1) == [c[1..6]];
    assert FindTimesFrom(c, 0) == FindTimesFrom(c, 1);
    assert c[1..6] == "23:45";
  }
}

=== FILE: results.dfy ===
/** Failure-carrying wrappers used throughout the model in place of Python's
    exceptions: an operation either produces its value or names the error it
    would have raised. */
module Results {

  datatype Option<+T> = None | Some(value: T)

  datatype Result<+T, +E> = Ok(value: T) | Err(error: E) {

    predicate IsFailure() {
      Err?
    }

    function PropagateFailure<U>(): Result<U, E>
      requires Err?
    {
      Err(error)
    }

    function Extract(): T
      requires Ok?
    {
      value
    }
  }
}

=== FILE: sheet.dfy ===
/** Reading the "M" worksheet of the lifelogger spreadsheet, as `get_dates`
    and `get_main` of both spreadsheet scripts do. The sheet is the list of
    rows `get_all_values()` returns: row 0 holds the category names, row 1
    the labels, and column 0 the dates.

    Python failures are errors here: an IndexError when a row or cell is
    missing, a ValueError when a date-shaped cell does not parse, a
    KeyError when a category is looked up that the table lacks. */
module Sheet {
  import opened Results
  import opened Text
  import opened Calendar
  import opened Strptime
  import opened OrderedDict

  type Table = seq<seq<string>>

  datatype SheetError =
    | IndexOutOfRange        // IndexError
    | BadDate(text: string)  // ValueError from strptime
    | MissingKey(key: string) // KeyError

  // ---------------------------------------------------------------- dates

  /** A date `strptime` produced: always a real calendar date. */
  type SheetDate = d: Date | d.Valid() witness Date(2000, 1, 1)

  /** `[raw_table[i][0] for i in range(len(raw_table))]`, evaluated in full
      before the loop starts: one row without cells fails the whole read. */
  function FirstColumn(raw: Table): (r: Result<seq<string>, SheetError>)
    ensures r.Ok? <==> forall i :: 0 <= i < |raw| ==> |raw[i]| >= 1
    ensures r.Err? ==> r.error == IndexOutOfRange
    ensures r.Ok? ==> |r.value| == |raw| && forall i :: 0 <= i < |raw| ==> r.value[i] == raw[i][0]
  {
    if |raw| == 0 then Ok([])
    else if |raw[0]| == 0 then Err(IndexOutOfRange)
    else
      match FirstColumn(raw[1..])
      case Err(e) => Err(e)
      case Ok(rest) => Ok([raw[0][0]] + rest)
  }

  /** `len(dstr.split("/")) == 3`. */
  predicate SlashShaped(c: string) {
    |Split(c, '/')| == 3
  }

  /** `len(dstr.split("-")) == 3`. */
  predicate DashShaped(c: string) {
    |Split(c, '-')| == 3
  }

  /** The loop treats the cell as a date: it is non-empty and has exactly
      two slashes or exactly two dashes. */
  predicate DateShaped(c: string) {
    c != "" && (SlashShaped(c) || DashShaped(c))
  }

  /** The shape test is a count of separators. */
  lemma DateShapedCounts(c: string)
    ensures DateShaped(c) <==> Count(c, '/') == 2 || Count(c, '-') == 2
  {
  }

  /** The date of a date-shaped cell: slashes take "%m/%d/%Y" even when
      the cell also has two dashes; otherwise "%Y-%m-%d". */
  function ParseDateCell(c: string): (r: Result<SheetDate, SheetError>)
    requires DateShaped(c)
    ensures r.Ok? ==> r.value.Valid()
    ensures r.Err? ==> r.error == BadDate(c)
    ensures SlashShaped(c) ==> r == (if ParseMonthDayYear(c).Some? then Ok(ParseMonthDayYear(c).value) else Err(BadDate(c)))
    ensures !SlashShaped(c) ==> r == (if ParseYearMonthDay(c).Some? then Ok(ParseYearMonthDay(c).value) else Err(BadDate(c)))
  {
    var parsed := if SlashShaped(c) then ParseMonthDayYear(c) else ParseYearMonthDay(c);
    match parsed
    case Some(d) => Ok(d)
    case None => Err(BadDate(c))
  }

  /** The loop of `get_dates` over the rest of the column; `found` is
      `found_first`. An empty cell ends the scan once a date has been seen;
      a non-date cell is skipped either way. */
  function ScanDates(cells: seq<string>, found: bool): (r: Result<seq<SheetDate>, SheetError>)
    ensures r.Ok? ==> forall k :: 0 <= k < |r.value| ==> r.value[k].Valid()
    ensures r.Err? ==> r.error.BadDate?
  {
    if |cells| == 0 then Ok([])
    else if cells[0] != "" then
      if DateShaped(cells[0]) then
        match ParseDateCell(cells[0])
        case Err(e) => Err(e)
        case Ok(d) =>
          match ScanDates(cells[1..], true)
          case Err(e) => Err(e)
          case Ok(rest) => Ok([d] + rest)
      else ScanDates(cells[1..], found)
    else if found then Ok([])
    else ScanDates(cells[1..], found)
  }

  /** `get_dates(raw_table)`. */
  function GetDates(raw: Table): (r: Result<seq<SheetDate>, SheetError>)
    ensures (exists i :: 0 <= i < |raw| && |raw[i]| == 0) ==> r == Err(IndexOutOfRange)
    ensures r.Ok? ==> forall k :: 0 <= k < |r.value| ==> r.value[k].Valid()
    ensures r.Err? ==> r.error == IndexOutOfRange || r.error.BadDate?
  {
    var column :- FirstColumn(raw);
    ScanDates(column, false)
  }

  // A reference reading of the same loop: cut out the run of the column
  // that holds the dates, then parse the date-shaped cells of that run.

  /** The cells up to, not including, the first empty one. */
  function UntilEmpty(cells: seq<string>): (r: seq<string>)
    ensures |r| <= |cells| && r == cells[..|r|]
    ensures forall k :: 0 <= k < |r| ==> r[k] != ""
    ensures |r| < |cells| ==> cells[|r|] == ""
  {
    if |cells| == 0 || cells[0] == "" then []
    else
      var rest := UntilEmpty(cells[1..]);
      assert [cells[0]] + rest == cells[..|rest| + 1];
      [cells[0]] + rest
  }

  /** Cell `s` is the first date-shaped cell of the column. */
  predicate FirstDateAt(cells: seq<string>, s: int) {
    0 <= s < |cells| && DateShaped(cells[s]) && forall k :: 0 <= k < s ==> !DateShaped(cells[k])
  }

  /** The run of the column that holds the dates: from the first
      date-shaped cell up to the first empty cell after it. */
  function DateRun(cells: seq<string>): (r: seq<string>)
    ensures (forall k :: 0 <= k < |cells| ==> !DateShaped(cells[k])) ==> r == []
    ensures forall s :: FirstDateAt(cells, s) ==> r == [cells[s]] + UntilEmpty(cells[s + 1..])
  {
    if |cells| == 0 then []
    else if DateShaped(cells[0]) then [cells[0]] + UntilEmpty(cells[1..])
    else
      var r := DateRun(cells[1..]);
      assert forall s :: FirstDateAt(cells, s) ==> FirstDateAt(cells[1..], s - 1) && cells[s + 1..] == cells[1..][s..];
      r
  }

  /** The dates of the date-shaped cells, in order; the first cell that
      does not parse is the failure. */
  function ParseShaped(cells: seq<string>): (r: Result<seq<SheetDate>, SheetError>)
  {
    if |cells| == 0 then Ok([])
    else if DateShaped(cells[0]) then
      match ParseDateCell(cells[0])
      case Err(e) => Err(e)
      case Ok(d) =>
        match ParseShaped(cells[1..])
        case Err(e) => Err(e)
        case Ok(rest) => Ok([d] + rest)
    else ParseShaped(cells[1..])
  }

  /** Once a date has been seen, the scan parses the cells up to the first
      empty one. */
  lemma {:induction false} ScanAfterFirst(cells: seq<string>)
    ensures ScanDates(cells, true) == ParseShaped(UntilEmpty(cells))
  {
    if |cells| > 0 && cells[0] != "" {
      ScanAfterFirst(cells[1..]);
      assert UntilEmpty(cells)[1..] == UntilEmpty(cells[1..]);
    }
  }

  /** `get_dates` is the parse of the date run: empty and non-date cells
      before the first date are skipped, the dates come in row order, and
      the first empty cell after the first date ends the list. */
  lemma {:induction false} ScanIsParsedRun(cells: seq<string>)
    ensures ScanDates(cells, false) == ParseShaped(DateRun(cells))
  {
    if |cells| > 0 {
      if DateShaped(cells[0]) {
        ScanAfterFirst(cells[1..]);
        assert ([cells[0]] + UntilEmpty(cells[1..]))[1..] == UntilEmpty(cells[1..]);
      } else {
        ScanIsParsedRun(cells[1..]);
      }
    }
  }

  /** Without any date-shaped cell there are no dates and no failure. */
  lemma NoDatesWithoutDateCells(raw: Table)
    requires forall i :: 0 <= i < |raw| ==> |raw[i]| >= 1 && !DateShaped(raw[i][0])
    ensures GetDates(raw) == Ok([])
  {
    ScanIsParsedRun(FirstColumn(raw).value);
  }

  // ---------------------------------------------------------------- table

  /** What `next_cat_col` returns from column `j` on. */
  function NextFrom(categories: seq<string>, i: nat, j: nat): (r: nat)
    requires i < j
    ensures r == i || (j <= r < |categories| && categories[r] != "")
    ensures r == i <==> forall k :: j <= k < |categories| ==> categories[k] == ""
    ensures forall k :: j <= k < |categories| && (r == i || k < r) ==> categories[k] == ""
    decreases |categories| - j
  {
    if j >= |categories| then i
    else if categories[j] != "" then j
    else NextFrom(categories, i, j + 1)
  }

  /** `next_cat_col(i)`: the next column after `i` that names a category,
      or `i` itself when none follows. */
  function NextCategoryColumn(categories: seq<string>, i: nat): (r: nat)
    ensures r == i <==> forall k :: i < k < |categories| ==> categories[k] == ""
    ensures r != i ==> i < r < |categories| && categories[r] != ""
    ensures forall k :: i < k < |categories| && (r == i || k < r) ==> categories[k] == ""
  {
    NextFrom(categories, i, i + 1)
  }

  /** Where the label slice of the category at column `i` ends:
      `labels[i:end_col]` stops at the next category or at the end of the
      label row, whichever comes first. */
  function LabelsEnd(categories: seq<string>, labels: seq<string>, i: nat): (e: nat)
    ensures e <= |labels|
    ensures e <= NextCategoryColumn(categories, i)
  {
    var next := NextCategoryColumn(categories, i);
    if next < |labels| then next else |labels|
  }

  /** `xs.index(x, start)`: the first position at or after `start` holding
      `x`, or None (Python's ValueError). */
  function IndexFrom(xs: seq<string>, x: string, start: nat): (r: Option<nat>)
    ensures r.Some? ==> start <= r.value < |xs| && xs[r.value] == x
    ensures r.Some? ==> forall k :: start <= k < r.value ==> xs[k] != x
    ensures r.None? <==> forall k :: start <= k < |xs| ==> xs[k] != x
    decreases |xs| - start
  {
    if start >= |xs| then None
    else if xs[start] == x then Some(start)
    else IndexFrom(xs, x, start + 1)
  }

  /** The column `get_label_cells` reads: the first occurrence of the label
      at or after the first column of the category. */
  function LabelColumn(categories: seq<string>, labels: seq<string>, cat: string, name: string): (r: Option<nat>)
    ensures r.Some? ==> r.value < |labels| && labels[r.value] == name
  {
    match IndexFrom(categories, cat, 0)
    case None => None
    case Some(ci) => IndexFrom(labels, name, ci)
  }

  /** The lookups of `get_label_cells` cannot fail for a label taken from
      the slice of a category: the label sits at or after the category's
      first column, and the column found is no later than where it sits. */
  lemma LabelColumnFound(categories: seq<string>, labels: seq<string>, i: nat, k: nat)
    requires i < |categories| && i <= k < |labels|
    ensures LabelColumn(categories, labels, categories[i], labels[k]).Some?
    ensures LabelColumn(categories, labels, categories[i], labels[k]).value <= k
  {
    var ci := IndexFrom(categories, categories[i], 0);
    assert ci.Some? && ci.value <= i;
    var found := IndexFrom(labels, labels[k], ci.value);
    assert found.Some?;
  }

  /** A cell that `get_label_cells` keeps: non-empty and not "#VALUE!". */
  predicate Kept(cell: string) {
    cell != "" && cell != "#VALUE!"
  }

  /** The row of date `j`, which is row `j + 2`, reaches column `col`. */
  predicate CellExists(raw: Table, col: nat, j: nat) {
    j + 2 < |raw| && col < |raw[j + 2]|
  }

  /** `raw_table[j+2][col]`. */
  function Cell(raw: Table, col: nat, j: nat): string
    requires CellExists(raw, col, j)
  {
    raw[j + 2][col]
  }

  /** The rows of the first `n` dates all reach column `col`. */
  predicate RowsReach(raw: Table, col: nat, n: nat) {
    forall j: nat :: j < n ==> CellExists(raw, col, j)
  }

  /** The loop of `get_label_cells` over the first `n` dates: date `j` is
      paired with row `j + 2`, whatever row the dates were found in. */
  function CellsUpTo(raw: Table, dates: seq<SheetDate>, col: nat, n: nat): (r: Result<Dict<SheetDate, string>, SheetError>)
    requires n <= |dates|
    ensures r.Ok? <==> RowsReach(raw, col, n)
    ensures r.Err? ==> r.error == IndexOutOfRange
  {
    if n == 0 then Ok([])
    else
      match CellsUpTo(raw, dates, col, n - 1)
      case Err(e) => Err(e)
      case Ok(prev) =>
        if CellExists(raw, col, n - 1) then
          var cell := Cell(raw, col, n - 1);
          if Kept(cell) then Ok(Put(prev, dates[n - 1], cell)) else Ok(prev)
        else Err(IndexOutOfRange)
  }

  /** Date `j` is the last of the first `n` dates equal to it whose cell is kept. */
  predicate LastKeptFor(raw: Table, dates: seq<SheetDate>, col: nat, n: nat, j: nat)
    requires n <= |dates| && RowsReach(raw, col, n) && j < n
  {
    Kept(Cell(raw, col, j)) && forall j' :: j < j' < n && dates[j'] == dates[j] ==> !Kept(Cell(raw, col, j'))
  }

  /** The cell dict never holds a date twice. */
  lemma {:induction false} CellsUnique(raw: Table, dates: seq<SheetDate>, col: nat, n: nat)
    requires n <= |dates| && RowsReach(raw, col, n)
    ensures UniqueKeys(CellsUpTo(raw, dates, col, n).value)
  {
    if n > 0 {
      CellsUnique(raw, dates, col, n - 1);
      var prev := CellsUpTo(raw, dates, col, n - 1).value;
      if Kept(Cell(raw, col, n - 1)) {
        PutKeepsUnique(prev, dates[n - 1], Cell(raw, col, n - 1));
      }
    }
  }

  /** A date none of whose cells is kept is not in the dict. */
  lemma {:induction false} CellsAbsent(raw: Table, dates: seq<SheetDate>, col: nat, n: nat, d: SheetDate)
    requires n <= |dates| && RowsReach(raw, col, n)
    requires forall j :: 0 <= j < n && dates[j] == d ==> !Kept(Cell(raw, col, j))
    ensures Get(CellsUpTo(raw, dates, col, n).value, d) == None
  {
    if n > 0 {
      CellsAbsent(raw, dates, col, n - 1, d);
      var prev := CellsUpTo(raw, dates, col, n - 1).value;
      if Kept(Cell(raw, col, n - 1)) {
        PutKeepsOthers(prev, dates[n - 1], Cell(raw, col, n - 1), d);
      }
    }
  }

  /** A date maps to the kept cell of its LAST row: a later duplicate
      date overwrites an earlier one. */
  lemma {:induction false} CellsLastWins(raw: Table, dates: seq<SheetDate>, col: nat, n: nat, j: nat)
    requires n <= |dates| && RowsReach(raw, col, n) && j < n
    requires LastKeptFor(raw, dates, col, n, j)
    ensures Get(CellsUpTo(raw, dates, col, n).value, dates[j]) == Some(Cell(raw, col, j))
  {
    var prev := CellsUpTo(raw, dates, col, n - 1).value;
    var cell := Cell(raw, col, n - 1);
    if j == n - 1 {
      PutFinds(prev, dates[j], cell);
    } else {
      assert LastKeptFor(raw, dates, col, n - 1, j);
      CellsLastWins(raw, dates, col, n - 1, j);
      if Kept(cell) {
        assert dates[n - 1] != dates[j];
        PutKeepsOthers(prev, dates[n - 1], cell, dates[j]);
      }
    }
  }

  /** `get_label_cells(category, label)`. */
  function LabelCells(raw: Table, categories: seq<string>, labels: seq<string>, dates: seq<SheetDate>, i: nat, k: nat)
    : (r: Result<Dict<SheetDate, string>, SheetError>)
    requires i < |categories| && i <= k < |labels|
    ensures r.Err? ==> r.error == IndexOutOfRange
  {
    LabelColumnFound(categories, labels, i, k);
    CellsUpTo(raw, dates, LabelColumn(categories, labels, categories[i], labels[k]).value, |dates|)
  }

  type LabelTable = Dict<string, Dict<SheetDate, string>>
  type MainTable = Dict<string, LabelTable>

  /** `for i, label in get_category_labels(i): table[cat][label] = ...`,
      from label column `k` on. */
  function FillLabels(raw: Table, categories: seq<string>, labels: seq<string>, dates: seq<SheetDate>,
                      i: nat, k: nat, end: nat, acc: LabelTable): (r: Result<LabelTable, SheetError>)
    requires i < |categories| && i <= k && end <= |labels|
    ensures r.Err? ==> r.error == IndexOutOfRange
    decreases end - k
  {
    if k >= end then Ok(acc)
    else
      match LabelCells(raw, categories, labels, dates, i, k)
      case Err(e) => Err(e)
      case Ok(cells) => FillLabels(raw, categories, labels, dates, i, k + 1, end, Put(acc, labels[k], cells))
  }

  /** The label table of the category at column `i`, as built afresh by
      `table[cat] = {}` and the label loop. */
  function CategoryTable(raw: Table, categories: seq<string>, labels: seq<string>, dates: seq<SheetDate>, i: nat)
    : (r: Result<LabelTable, SheetError>)
    requires i < |categories|
    ensures r.Err? ==> r.error == IndexOutOfRange
  {
    FillLabels(raw, categories, labels, dates, i, i, LabelsEnd(categories, labels, i), [])
  }

  /** The loop of `get_main` over the categories from column `i` on. */
  function FillCategories(raw: Table, categories: seq<string>, labels: seq<string>, dates: seq<SheetDate>,
                          i: nat, table: MainTable): (r: Result<MainTable, SheetError>)
    ensures r.Err? ==> r.error == IndexOutOfRange
    decreases |categories| - i
  {
    if i >= |categories| then Ok(table)
    else if categories[i] == "" then FillCategories(raw, categories, labels, dates, i + 1, table)
    else
      match CategoryTable(raw, categories, labels, dates, i)
      case Err(e) => Err(e)
      case Ok(entry) => FillCategories(raw, categories, labels, dates, i + 1, Put(table, categories[i], entry))
  }

  /** `get_main()` over the rows of the "M" worksheet. */
  function GetMain(raw: Table): (r: Result<MainTable, SheetError>)
    ensures |raw| < 2 ==> r == Err(IndexOutOfRange)
    ensures r.Err? ==> r.error == IndexOutOfRange || r.error.BadDate?
    ensures r.Ok? ==> GetDates(raw).Ok?
  {
    if |raw| < 2 then Err(IndexOutOfRange)
    else
      var dates :- GetDates(raw);
      FillCategories(raw, raw[0], raw[1], dates, 0, [])
  }

  /** Labels outside the slice are left as they were. */
  lemma {:induction false} FillLabelsOthers(raw: Table, categories: seq<string>, labels: seq<string>, dates: seq<SheetDate>,
                                            i: nat, k: nat, end: nat, acc: LabelTable, name: string)
    requires i < |categories| && i <= k && end <= |labels|
    requires forall k' :: k <= k' < end ==> labels[k'] != name
    requires FillLabels(raw, categories, labels, dates, i, k, end, acc).Ok?
    ensures Get(FillLabels(raw, categories, labels, dates, i, k, end, acc).value, name) == Get(acc, name)
    decreases end - k
  {
    if k < end {
      var cells := LabelCells(raw, categories, labels, dates, i, k).value;
      FillLabelsOthers(raw, categories, labels, dates, i, k + 1, end, Put(acc, labels[k], cells), name);
      PutKeepsOthers(acc, labels[k], cells, name);
    }
  }

  /** One step of the label loop, when its lookup succeeds. */
  lemma FillLabelsStep(raw: Table, categories: seq<string>, labels: seq<string>, dates: seq<SheetDate>,
                       i: nat, k: nat, end: nat, acc: LabelTable)
    requires i < |categories| && i <= k < end <= |labels|
    requires FillLabels(raw, categories, labels, dates, i, k, end, acc).Ok?
    ensures LabelCells(raw, categories, labels, dates, i, k).Ok?
    ensures FillLabels(raw, categories, labels, dates, i, k, end, acc)
            == FillLabels(raw, categories, labels, dates, i, k + 1, end,
                          Put(acc, labels[k], LabelCells(raw, categories, labels, dates, i, k).value))
  {
  }

  /** Equal labels are looked up in the same column. */
  lemma SameLabelSameCells(raw: Table, categories: seq<string>, labels: seq<string>, dates: seq<SheetDate>,
                           i: nat, k: nat, k': nat)
    requires i < |categories| && i <= k < |labels| && i <= k' < |labels| && labels[k] == labels[k']
    ensures LabelCells(raw, categories, labels, dates, i, k) == LabelCells(raw, categories, labels, dates, i, k')
  {
  }

  /** Every label of the slice maps to its cells. A label repeated in the
      slice is assigned twice, with the same cells both times, since the
      column is looked up by the label's text. */
  lemma {:induction false} FillLabelsHas(raw: Table, categories: seq<string>, labels: seq<string>, dates: seq<SheetDate>,
                                         i: nat, k: nat, end: nat, acc: LabelTable, k': nat)
    requires i < |categories| && i <= k <= k' < end <= |labels|
    requires FillLabels(raw, categories, labels, dates, i, k, end, acc).Ok?
    ensures LabelCells(raw, categories, labels, dates, i, k').Ok?
    ensures Get(FillLabels(raw, categories, labels, dates, i, k, end, acc).value, labels[k'])
            == Some(LabelCells(raw, categories, labels, dates, i, k').value)
    decreases end - k
  {
    FillLabelsStep(raw, categories, labels, dates, i, k, end, acc);
    var cells := LabelCells(raw, categories, labels, dates, i, k).value;
    var acc' := Put(acc, labels[k], cells);
    if k' > k {
      FillLabelsHas(raw, categories, labels, dates, i, k + 1, end, acc', k');
    } else if exists later :: k < later < end && labels[later] == labels[k] {
      var later :| k < later < end && labels[later] == labels[k];
      FillLabelsHas(raw, categories, labels, dates, i, k + 1, end, acc', later);
      SameLabelSameCells(raw, categories, labels, dates, i, k, later);
    } else {
      FillLabelsLastOccurrence(raw, categories, labels, dates, i, k, end, acc);
    }
  }

  /** The last occurrence of a label in the slice: later steps leave it. */
  lemma FillLabelsLastOccurrence(raw: Table, categories: seq<string>, labels: seq<string>, dates: seq<SheetDate>,
                                 i: nat, k: nat, end: nat, acc: LabelTable)
    requires i < |categories| && i <= k < end <= |labels|
    requires forall later :: k < later < end ==> labels[later] != labels[k]
    requires FillLabels(raw, categories, labels, dates, i, k, end, acc).Ok?
    ensures LabelCells(raw, categories, labels, dates, i, k).Ok?
    ensures Get(FillLabels(raw, categories, labels, dates, i, k, end, acc).value, labels[k])
            == Some(LabelCells(raw, categories, labels, dates, i, k).value)
  {
    FillLabelsStep(raw, categories, labels, dates, i, k, end, acc);
    var cells := LabelCells(raw, categories, labels, dates, i, k).value;
    var acc' := Put(acc, labels[k], cells);
    FillLabelsOthers(raw, categories, labels, dates, i, k + 1, end, acc', labels[k]);
    PutFinds(acc, labels[k], cells);
  }

  /** Categories that do not occur from column `i` on are left as they were. */
  lemma {:induction false} FillCategoriesOthers(raw: Table, categories: seq<string>, labels: seq<string>, dates: seq<SheetDate>,
                                                i: nat, table: MainTable, name: string)
    requires forall i' :: i <= i' < |categories| ==> categories[i'] != name
    requires FillCategories(raw, categories, labels, dates, i, table).Ok?
    ensures Get(FillCategories(raw, categories, labels, dates, i, table).value, name) == Get(table, name)
    decreases |categories| - i
  {
    if i < |categories| {
      if categories[i] == "" {
        FillCategoriesOthers(raw, categories, labels, dates, i + 1, table, name);
      } else {
        var entry := CategoryTable(raw, categories, labels, dates, i).value;
        FillCategoriesOthers(raw, categories, labels, dates, i + 1, Put(table, categories[i], entry), name);
        PutKeepsOthers(table, categories[i], entry, name);
      }
    }
  }

  /** A category maps to the label table built at its LAST column: a
      repeated category name is reset by `table[cat] = {}`. */
  lemma {:induction false} FillCategoriesHas(raw: Table, categories: seq<string>, labels: seq<string>, dates: seq<SheetDate>,
                                             i0: nat, table: MainTable, i: nat)
    requires i0 <= i < |categories| && categories[i] != ""
    requires forall i' :: i < i' < |categories| ==> categories[i'] != categories[i]
    requires FillCategories(raw, categories, labels, dates, i0, table).Ok?
    ensures CategoryTable(raw, categories, labels, dates, i).Ok?
    ensures Get(FillCategories(raw, categories, labels, dates, i0, table).value, categories[i])
            == Some(CategoryTable(raw, categories, labels, dates, i).value)
    decreases |categories| - i0
  {
    if i0 < i {
      if categories[i0] == "" {
        FillCategoriesHas(raw, categories, labels, dates, i0 + 1, table, i);
      } else {
        var entry := CategoryTable(raw, categories, labels, dates, i0).value;
        FillCategoriesHas(raw, categories, labels, dates, i0 + 1, Put(table, categories[i0], entry), i);
      }
    } else {
      var entry := CategoryTable(raw, categories, labels, dates, i).value;
      FillCategoriesOthers(raw, categories, labels, dates, i + 1, Put(table, categories[i], entry), categories[i]);
      PutFinds(table, categories[i], entry);
    }
  }

  /** The entry `get_main` returns for the category at column `i` (its last
      occurrence): exactly the labels of `labels[i:end_col]`, each mapped to
      its `get_label_cells`. */
  lemma GetMainEntry(raw: Table, i: nat, k: nat, name: string)
    requires GetMain(raw).Ok? && |raw| >= 2
    requires i < |raw[0]| && raw[0][i] != ""
    requires forall i' :: i < i' < |raw[0]| ==> raw[0][i'] != raw[0][i]
    ensures var dates := GetDates(raw).value;
            var entry := Get(GetMain(raw).value, raw[0][i]);
            && entry.Some?
            && (i <= k < LabelsEnd(raw[0], raw[1], i) ==>
                  LabelCells(raw, raw[0], raw[1], dates, i, k).Ok?
                  && Get(entry.value, raw[1][k]) == Some(LabelCells(raw, raw[0], raw[1], dates, i, k).value))
            && ((forall k' :: i <= k' < LabelsEnd(raw[0], raw[1], i) ==> raw[1][k'] != name) ==>
                  Get(entry.value, name) == None)
  {
    var dates := GetDates(raw).value;
    var end := LabelsEnd(raw[0], raw[1], i);
    FillCategoriesHas(raw, raw[0], raw[1], dates, 0, [], i);
    if i <= k < end {
      FillLabelsHas(raw, raw[0], raw[1], dates, i, i, end, [], k);
    }
    if forall k' :: i <= k' < end ==> raw[1][k'] != name {
      FillLabelsOthers(raw, raw[0], raw[1], dates, i, i, end, [], name);
    }
  }

  /** The rightmost category has no label columns after it, so `get_main`
      maps it to an empty dict. */
  lemma LastCategoryIsEmpty(raw: Table)
    requires GetMain(raw).Ok? && |raw| >= 2 && |raw[0]| >= 1 && raw[0][|raw[0]| - 1] != ""
    ensures Get(GetMain(raw).value, raw[0][|raw[0]| - 1]) == Some([])
  {
    var i := |raw[0]| - 1;
    FillCategoriesHas(raw, raw[0], raw[1], GetDates(raw).value, 0, [], i);
  }
}

=== FILE: simple_supps.dfy ===
/** `create_timestamped_supps` of the older spreadsheet script. The sheet has
    the same column pairs as the upload script, but a time cell holds one
    `H:M:S` time and a dose has no `~` or `?` marker. A time cell that does
    not parse counts one parse error and skips its row; every piece of a row
    with a time becomes one event or counts one parse error. Only a readable
    piece without a second word, or a row shorter than its column pair,
    raises: `IndexOutOfRange`. The upload of the events is the client's
    `create_events` and is not repeated here. */
module SimpleSupps {
  import opened Results
  import opened Text
  import opened Calendar
  import opened Values
  import opened TimeFormat
  import opened Event
  import opened Patterns
  import opened Strptime
  import opened Sheet
  import opened Supplements
  import opened TimestampedSupps

  // ---------------------------------------------------------------- units

  /** The spellings this script maps to "ug" itself: "mcg" and the micro
      sign followed by `g`. */
  const MicrogramSpellings: seq<string> := ["mcg", "\U{00B5}g"]

  /** Lines 241-242: the unit after the microgram rewrite. */
  function MappedUnit(u: string): (r: string)
    ensures u in MicrogramSpellings ==> r == Microgram
    ensures u !in MicrogramSpellings ==> r == u
  {
    if u in MicrogramSpellings then Microgram else u
  }

  /** Lines 249-250: the kind is always a non-empty string, so every `l`
      becomes `L`, whatever the kind. */
  function SentUnit(u: string): (r: string)
    ensures 'l' !in r && |r| == |MappedUnit(u)|
  {
    ReplaceCharRemoves(MappedUnit(u), 'l', 'L');
    ReplaceChar(MappedUnit(u), 'l', 'L')
  }

  /** The micro sign spelling is not one of the units the unit pattern
      finds, so that half of the rewrite never applies. */
  lemma MicroSignNotAUnit()
    ensures "\U{00B5}g" !in Units
  {
    forall k | 0 <= k < |Units| ensures Units[k] != "\U{00B5}g" {
      assert Units[k][0] != "\U{00B5}g"[0];
    }
  }

  /** A text without the character is left as it is. */
  lemma ReplaceAbsent(s: string, a: char, b: char)
    requires a !in s
    ensures ReplaceChar(s, a, b) == s
  {
  }

  /** The two scripts agree on every recognised unit: the unit this script
      rewrites before construction, after construction has cleaned it
      again, is the unit the upload script gets from construction alone.
      The kind is the same whether it is read before or after the rewrite. */
  lemma SentUnitAgrees(u: string)
    requires u in Units
    ensures KindOf(MappedUnit(u)) == KindOf(u)
    ensures CleanedUnit(KindOf(u), SentUnit(u)) == ZenobaseUnit(u)
  {
    MicroSignNotAUnit();
    FoundUnitCleaned(u);
    if u in MicrogramSpellings {
      assert u == "mcg";
      assert 'l' !in u && 'l' !in Microgram;
      ReplaceAbsent(Microgram, 'l', 'L');
    } else if 'l' in u {
      ReplaceCharIdempotent(u, 'l', 'L');
    } else {
      ReplaceAbsent(u, 'l', 'L');
    }
  }

  // ---------------------------------------------------------------- events

  /** Lines 252-260: the event of one dose, stamped with one time: the
      record construction returns (`SimpleEventConstructed`), then the
      percentage set on it. */
  function SimpleEvent(stamp: string, dose: Dose, roa: string, zone: int): (e: Event)
    requires ValidOffset(zone) && dose.unit in Units
    ensures e.Keys == {"timestamp", "tag", KindOf(dose.unit)} + (if dose.percent.Some? then {"percentage"} else {})
    ensures e["timestamp"] == VStr(stamp)
    ensures e["tag"] == StrList([dose.substance, roa, "timestamped"])
    ensures e[KindOf(dose.unit)] == VDict(map["@value" := VNum(dose.amount), "unit" := VStr(ZenobaseUnit(dose.unit))])
    ensures dose.percent.Some? ==> e["percentage"] == VStr(dose.percent.value)
  {
    var kind, tags := KindOf(MappedUnit(dose.unit)), [dose.substance, roa, "timestamped"];
    SentUnitAgrees(dose.unit);
    DoseDataShape(VStr(stamp), tags, dose.amount, kind, ZenobaseUnit(dose.unit), dose.percent);
    WithPercent(DoseData(VStr(stamp), tags, dose.amount, kind, CleanedUnit(kind, SentUnit(dose.unit))), dose.percent)
  }

  /** `SimpleEvent` is `ZenobaseEvent` of the dict the script builds, with
      the unit it rewrote itself and the percentage set afterwards. */
  lemma SimpleEventConstructed(stamp: string, dose: Dose, roa: string, zone: int)
    requires ValidOffset(zone) && dose.unit in Units
    ensures var data := DoseData(VStr(stamp), [dose.substance, roa, "timestamped"], dose.amount,
                                 KindOf(MappedUnit(dose.unit)), SentUnit(dose.unit));
            && MakeEvent(data, zone).Ok?
            && WithPercent(MakeEvent(data, zone).value, dose.percent) == SimpleEvent(stamp, dose, roa, zone)
  {
    SentUnitAgrees(dose.unit);
    DoseDataBuilds(VStr(stamp), [dose.substance, roa, "timestamped"], dose.amount,
                   KindOf(MappedUnit(dose.unit)), SentUnit(dose.unit), zone);
  }

  /** This script's event of a dose is the upload script's event of the same
      dose with no marker tags. */
  lemma SimpleEventIsUnmarked(stamp: string, dose: Dose, roa: string, zone: int)
    requires ValidOffset(zone) && dose.unit in Units
    ensures SimpleEvent(stamp, dose, roa, zone) == SuppEvent(VStr(stamp), dose, roa, [], zone)
  {
    var tags: seq<string> := [dose.substance, roa, "timestamped"];
    assert tags + [] == tags;
    SentUnitAgrees(dose.unit);
    FoundUnitCleaned(dose.unit);
    var a := SimpleEvent(stamp, dose, roa, zone);
    var b := SuppEvent(VStr(stamp), dose, roa, [], zone);
    assert a.Keys == b.Keys;
    assert forall k :: k in a ==> a[k] == b[k];
  }

  /** Reading this piece raises: it reads but has no second word. An empty
      piece does not raise here, it fails the amount pattern. */
  predicate SimpleCrashes(piece: string) {
    ReadDose(piece).NoSubstance?
  }

  /** Lines 216-261 for one piece, once read. */
  function SimpleReadingEvents(reading: DoseReading, stamp: string, roa: string, zone: int): (r: Result<Tally, SheetError>)
    requires ValidOffset(zone) && UnitKnown(reading)
    ensures r.Err? <==> reading.NoSubstance?
    ensures r.Err? ==> r.error == IndexOutOfRange
    ensures r.Ok? ==> |r.value.events| + r.value.errors == 1
    ensures r.Ok? ==> (r.value.errors == 1 <==> reading.Unreadable?)
    ensures r.Ok? && r.value.errors == 0 ==> r.value.events == [SimpleEvent(stamp, reading.dose, roa, zone)]
  {
    match reading
    case Unreadable => Ok(Tally([], 1))
    case NoSubstance => Err(IndexOutOfRange)
    case Found(dose) => Ok(Tally([SimpleEvent(stamp, dose, roa, zone)], 0))
  }

  /** The loop over the pieces of a cell, once read. It stops at the first
      piece that raises; otherwise every piece gives one event or one error. */
  function SimpleReadingsEvents(readings: seq<DoseReading>, stamp: string, roa: string, zone: int)
    : (r: Result<Tally, SheetError>)
    requires ValidOffset(zone) && forall k :: 0 <= k < |readings| ==> UnitKnown(readings[k])
    ensures r.Err? <==> exists k :: 0 <= k < |readings| && readings[k].NoSubstance?
    ensures r.Err? ==> r.error == IndexOutOfRange
    ensures r.Ok? ==> |r.value.events| + r.value.errors == |readings|
  {
    if |readings| == 0 then Ok(Tally([], 0))
    else
      assert forall k :: 1 <= k < |readings| ==> readings[k] == readings[1..][k - 1];
      var here :- SimpleReadingEvents(readings[0], stamp, roa, zone);
      var rest :- SimpleReadingsEvents(readings[1..], stamp, roa, zone);
      Ok(Tally(here.events + rest.events, here.errors + rest.errors))
  }

  /** The events of the pieces that read as doses, in order. */
  function SimpleFoundEvents(readings: seq<DoseReading>, stamp: string, roa: string, zone: int): seq<Event>
    requires ValidOffset(zone) && forall k :: 0 <= k < |readings| ==> UnitKnown(readings[k])
  {
    if |readings| == 0 then []
    else
      assert forall k :: 1 <= k < |readings| ==> readings[k] == readings[1..][k - 1];
      assert UnitKnown(readings[0]);
      var here := if readings[0].Found? then [SimpleEvent(stamp, readings[0].dose, roa, zone)] else [];
      here + SimpleFoundEvents(readings[1..], stamp, roa, zone)
  }

  /** When no piece raises, the loop yields exactly the events of the pieces
      that read as doses, in the pieces' order. */
  lemma {:induction false} SimpleReadingsContent(readings: seq<DoseReading>, stamp: string, roa: string, zone: int)
    requires ValidOffset(zone) && forall k :: 0 <= k < |readings| ==> UnitKnown(readings[k])
    ensures SimpleReadingsEvents(readings, stamp, roa, zone).Ok? ==>
              SimpleReadingsEvents(readings, stamp, roa, zone).value.events == SimpleFoundEvents(readings, stamp, roa, zone)
  {
    if |readings| > 0 {
      var rest := readings[1..];
      assert forall k :: 1 <= k < |readings| ==> readings[k] == rest[k - 1];
      SimpleReadingsContent(rest, stamp, roa, zone);
    }
  }

  // ---------------------------------------------------------------- cells

  /** What a row contributes: nothing when the time cell is empty, one
      error when it holds no `H:M:S` time, otherwise one per piece. */
  function SimpleDemand(timeCell: string, dataCell: string): nat {
    if timeCell == "" then 0
    else if ParseHourMinuteSecond(timeCell).None? then 1
    else |Pieces(dataCell)|
  }

  /** The stamp of a row: its date at the time of its time cell. */
  function SimpleStamp(d: SheetDate, t: Clock, zone: int): string
    requires ValidOffset(zone) && t.Valid()
  {
    FmtNaive(Combine(d, t), zone)
  }

  /** Lines 194-261 for the two cells of one date. */
  function SimpleCellEvents(timeCell: string, dataCell: string, d: SheetDate, zone: int): (r: Result<Tally, SheetError>)
    requires ValidOffset(zone)
    ensures timeCell == "" ==> r == Ok(Tally([], 0))
    ensures timeCell != "" && ParseHourMinuteSecond(timeCell).None? ==> r == Ok(Tally([], 1))
    ensures r.Err? <==> ParseHourMinuteSecond(timeCell).Some?
                        && exists k :: 0 <= k < |Pieces(dataCell)| && SimpleCrashes(Pieces(dataCell)[k])
    ensures r.Err? ==> r.error == IndexOutOfRange
    ensures r.Ok? ==> |r.value.events| + r.value.errors == SimpleDemand(timeCell, dataCell)
    ensures ParseHourMinuteSecond(timeCell).Some? ==>
              r == SimpleReadingsEvents(ReadDoses(Pieces(dataCell)),
                                        SimpleStamp(d, ParseHourMinuteSecond(timeCell).value, zone), CellRoute(dataCell), zone)
  {
    if timeCell == "" then Ok(Tally([], 0))
    else
      match ParseHourMinuteSecond(timeCell)
      case None => Ok(Tally([], 1))
      case Some(t) =>
        SimpleRaise(Pieces(dataCell));
        SimpleReadingsEvents(ReadDoses(Pieces(dataCell)), SimpleStamp(d, t, zone), CellRoute(dataCell), zone)
  }

  /** Some read piece has no substance exactly when some piece crashes. */
  lemma SimpleRaise(pieces: seq<string>)
    ensures (exists k :: 0 <= k < |ReadDoses(pieces)| && ReadDoses(pieces)[k].NoSubstance?)
            <==> exists k :: 0 <= k < |pieces| && SimpleCrashes(pieces[k])
  {
    var rs := ReadDoses(pieces);
    if exists k :: 0 <= k < |pieces| && SimpleCrashes(pieces[k]) {
      var k :| 0 <= k < |pieces| && SimpleCrashes(pieces[k]);
      assert rs[k].NoSubstance?;
    }
  }

  /** A time written `HH:MM:SS` stamps its row's events at that time of the
      row's date, in the zone. */
  lemma SimpleStampRoundTrip(d: SheetDate, c: Clock, zone: int)
    requires ValidOffset(zone) && c.Valid() && c.microsecond == 0
    ensures ParseHourMinuteSecond(ClockText(c)) == Some(c)
    ensures ParseStamp(SimpleStamp(d, c, zone)) == Some(Printed(d, c, zone))
  {
    ClockRoundTrip(c);
    FmtNaiveMeaning(Combine(d, c), zone);
  }

  // ---------------------------------------------------------------- table

  /** The contributions of dates `j` onwards in the column pair at `i`. */
  function SimpleColumnDemand(raw: Table, dates: seq<SheetDate>, i: nat, j: nat): nat
    requires j <= |dates| && forall k :: j <= k < |dates| ==> PairExists(raw, i, k)
    decreases |dates| - j
  {
    if j == |dates| then 0
    else SimpleDemand(TimeCell(raw, i, j), DataCell(raw, i, j)) + SimpleColumnDemand(raw, dates, i, j + 1)
  }

  /** `for j, d in enumerate(dates)` from `j` on, for the column pair at
      `i`. Both cells are read before the time cell is looked at. */
  function SimpleDatesEvents(raw: Table, dates: seq<SheetDate>, i: nat, j: nat, zone: int): (r: Result<Tally, SheetError>)
    requires ValidOffset(zone) && j <= |dates|
    ensures r.Err? ==> r.error == IndexOutOfRange
    ensures r.Ok? ==> forall k :: j <= k < |dates| ==> PairExists(raw, i, k)
    ensures r.Ok? ==> |r.value.events| + r.value.errors == SimpleColumnDemand(raw, dates, i, j)
    decreases |dates| - j
  {
    if j == |dates| then Ok(Tally([], 0))
    else if !PairExists(raw, i, j) then Err(IndexOutOfRange)
    else
      var here :- SimpleCellEvents(TimeCell(raw, i, j), DataCell(raw, i, j), dates[j], zone);
      var rest :- SimpleDatesEvents(raw, dates, i, j + 1, zone);
      Ok(Tally(here.events + rest.events, here.errors + rest.errors))
  }

  /** `for i in range(1, len(raw_table[0]), 2)` from `i` on. */
  function SimpleColumnsEvents(raw: Table, dates: seq<SheetDate>, i: nat, zone: int): (r: Result<Tally, SheetError>)
    requires ValidOffset(zone) && |raw| >= 1
    ensures r.Err? ==> r.error == IndexOutOfRange
    ensures r.Ok? ==> PairsFrom(raw, dates, i)
    decreases |raw[0]| - i
  {
    if i >= |raw[0]| then Ok(Tally([], 0))
    else
      var here :- SimpleDatesEvents(raw, dates, i, 0, zone);
      var rest :- SimpleColumnsEvents(raw, dates, i + 2, zone);
      PairsStep(raw, dates, i);
      Ok(Tally(here.events + rest.events, here.errors + rest.errors))
  }

  /** `create_timestamped_supps` of the older script up to the upload. */
  function CreateSimpleSupps(raw: Table, zone: int): (r: Result<Tally, SheetError>)
    requires ValidOffset(zone)
    ensures GetDates(raw).Err? ==> r == Err(GetDates(raw).error)
    ensures GetDates(raw).Ok? && |raw| == 0 ==> r == Err(IndexOutOfRange)
    ensures r.Err? ==> r.error == IndexOutOfRange || r.error.BadDate?
    ensures r.Ok? ==> |raw| >= 1 && PairsFrom(raw, GetDates(raw).value, 1)
  {
    var dates :- GetDates(raw);
    if |raw| == 0 then Err(IndexOutOfRange)
    else SimpleColumnsEvents(raw, dates, 1, zone)
  }
}

=== FILE: streaks.dfy ===
/** `create_streaks` of both spreadsheet scripts: every "TRUE" or "FALSE"
    cell under the "Streaks" category becomes an event with count +1 or -1,
    stamped at midnight of its date. Other cell texts are skipped with a
    warning. The upload to the bucket is the client's `create_events` and is
    not repeated here. */
module Streaks {
  import opened Results
  import opened Calendar
  import opened Values
  import opened TimeFormat
  import opened Event
  import opened OrderedDict
  import opened Sheet

  /** `{"TRUE": 1, "FALSE": -1}[val]`, None for the KeyError. */
  function StreakState(val: string): (r: Option<int>)
    ensures r == Some(1) <==> val == "TRUE"
    ensures r == Some(-1) <==> val == "FALSE"
    ensures r.None? <==> val != "TRUE" && val != "FALSE"
  {
    if val == "TRUE" then Some(1)
    else if val == "FALSE" then Some(-1)
    else None
  }

  /** The dict handed to `ZenobaseEvent`. */
  function StreakData(name: string, d: SheetDate, val: string, state: int, zone: int): map<string, Value>
    requires ValidOffset(zone)
  {
    map["timestamp" := VStr(FmtNaive(Combine(d, Midnight), zone)),
        "count" := VInt(state),
        "tag" := VList([VStr(name), VStr(val)])]
  }

  /** `ZenobaseEvent({"timestamp": ts, "count": state, "tag": [label, val]})`
      for a cell with a state. Construction cannot fail and changes nothing:
      the fields are recognised, the timestamp is already a string, and there
      is no unit to rewrite (`StreakEventConstructed`), so the event is the
      dict itself. */
  function StreakEvent(name: string, d: SheetDate, val: string, zone: int): (e: Event)
    requires ValidOffset(zone) && StreakState(val).Some?
    ensures e.Keys == {"timestamp", "count", "tag"}
    ensures e["count"] == VInt(1) <==> val == "TRUE"
    ensures e["count"] == VInt(-1) <==> val == "FALSE"
    ensures e["tag"] == VList([VStr(name), VStr(val)])
    ensures e["timestamp"].VStr? && ParseStamp(e["timestamp"].s) == Some(Printed(d, Midnight, zone))
  {
    StreakDataShape(name, d, val, StreakState(val).value, zone);
    StreakData(name, d, val, StreakState(val).value, zone)
  }

  /** `StreakEvent` is what `ZenobaseEvent` returns for the dict the script
      builds. */
  lemma StreakEventConstructed(name: string, d: SheetDate, val: string, zone: int)
    requires ValidOffset(zone) && StreakState(val).Some?
    ensures MakeEvent(StreakData(name, d, val, StreakState(val).value, zone), zone) == Ok(StreakEvent(name, d, val, zone))
  {
    StreakDataBuilds(name, d, val, StreakState(val).value, zone);
  }

  /** The streak dict has the three fields, and its timestamp reads back as
      midnight of its date. */
  lemma StreakDataShape(name: string, d: SheetDate, val: string, state: int, zone: int)
    requires ValidOffset(zone)
    ensures var data := StreakData(name, d, val, state, zone);
            && data.Keys == {"timestamp", "count", "tag"}
            && data["timestamp"].VStr? && ParseStamp(data["timestamp"].s) == Some(Printed(d, Midnight, zone))
  {
    FmtNaiveMeaning(Combine(d, Midnight), zone);
  }

  /** The streak dict is a clean record: construction keeps it as it is. */
  lemma StreakDataBuilds(name: string, d: SheetDate, val: string, state: int, zone: int)
    requires ValidOffset(zone)
    ensures var data := StreakData(name, d, val, state, zone); MakeEvent(data, zone) == Ok(data)
  {
    var data := StreakData(name, d, val, state, zone);
    assert data.Keys == {"timestamp", "count", "tag"};
    KnownFields();
    assert forall k :: k in data ==> WellFormed(data[k]);
    MakeEventUnitless(data, zone);
  }

  /** The cells of a label that hold TRUE or FALSE, in the dict's order. */
  function StatedCells(cells: Dict<SheetDate, string>): (r: Dict<SheetDate, string>)
    ensures |r| <= |cells|
    ensures forall c :: c in r <==> c in cells && StreakState(c.1).Some?
  {
    if |cells| == 0 then []
    else
      var rest := StatedCells(cells[1..]);
      assert forall c :: c in cells <==> c == cells[0] || c in cells[1..];
      (if StreakState(cells[0].1).Some? then [cells[0]] else []) + rest
  }

  /** `for d in table["Streaks"][label]`: the event of each TRUE/FALSE cell,
      in the dict's order. */
  function DateEvents(name: string, cells: Dict<SheetDate, string>, zone: int): (r: seq<Event>)
    requires ValidOffset(zone)
    ensures |r| == |StatedCells(cells)|
    ensures forall k :: 0 <= k < |r| ==> r[k] == StreakEvent(name, StatedCells(cells)[k].0, StatedCells(cells)[k].1, zone)
  {
    var stated := StatedCells(cells);
    seq(|stated|, k requires 0 <= k < |stated| => StreakEvent(name, stated[k].0, stated[k].1, zone))
  }

  /** Every TRUE/FALSE cell of a label has its event. */
  lemma DateEventsComplete(name: string, cells: Dict<SheetDate, string>, zone: int)
    requires ValidOffset(zone)
    ensures forall i :: 0 <= i < |cells| && StreakState(cells[i].1).Some? ==>
              StreakEvent(name, cells[i].0, cells[i].1, zone) in DateEvents(name, cells, zone)
  {
    var r, stated := DateEvents(name, cells, zone), StatedCells(cells);
    forall i | 0 <= i < |cells| && StreakState(cells[i].1).Some?
      ensures StreakEvent(name, cells[i].0, cells[i].1, zone) in r
    {
      assert cells[i] in stated;
      var k :| 0 <= k < |stated| && stated[k] == cells[i];
      assert r[k] == StreakEvent(name, cells[i].0, cells[i].1, zone);
    }
  }

  /** Every event of a label is the event of one of its TRUE/FALSE cells. */
  lemma DateEventsSound(name: string, cells: Dict<SheetDate, string>, zone: int)
    requires ValidOffset(zone)
    ensures forall e :: e in DateEvents(name, cells, zone) ==>
              exists i :: 0 <= i < |cells| && StreakState(cells[i].1).Some?
                          && e == StreakEvent(name, cells[i].0, cells[i].1, zone)
  {
    var r, stated := DateEvents(name, cells, zone), StatedCells(cells);
    forall e | e in r
      ensures exists i :: 0 <= i < |cells| && StreakState(cells[i].1).Some?
                          && e == StreakEvent(name, cells[i].0, cells[i].1, zone)
    {
      var k :| 0 <= k < |r| && r[k] == e;
      var c := stated[k];
      assert c in stated;
      assert c in cells && StreakState(c.1).Some?;
      var i :| 0 <= i < |cells| && cells[i] == c;
      assert e == StreakEvent(name, c.0, c.1, zone);
    }
  }

  /** A single cell is kept exactly when it holds TRUE or FALSE. */
  lemma StatedCellsOne(c: (SheetDate, string))
    ensures StreakState(c.1).Some? ==> StatedCells([c]) == [c]
    ensures StreakState(c.1).None? ==> StatedCells([c]) == []
  {
    assert [c][1..] == [];
  }

  /** Keeping the stated cells preserves the dict's order: those of two runs
      of cells are the first run's, then the second's. With `StatedCellsOne`
      this fixes the result cell by cell. */
  lemma {:induction false} StatedCellsAppend(a: Dict<SheetDate, string>, b: Dict<SheetDate, string>)
    ensures StatedCells(a + b) == StatedCells(a) + StatedCells(b)
  {
    if |a| == 0 {
      assert a + b == b;
    } else {
      assert (a + b)[0] == a[0];
      assert (a + b)[1..] == a[1..] + b;
      StatedCellsAppend(a[1..], b);
    }
  }

  /** The events of two runs of cells are the first run's events, then the
      second's: the loop over the dict emits them in its order. */
  lemma DateEventsAppend(name: string, a: Dict<SheetDate, string>, b: Dict<SheetDate, string>, zone: int)
    requires ValidOffset(zone)
    ensures DateEvents(name, a + b, zone) == DateEvents(name, a, zone) + DateEvents(name, b, zone)
  {
    StatedCellsAppend(a, b);
  }

  /** A lone TRUE or FALSE cell yields exactly its event; any other cell
      yields none. */
  lemma DateEventsOne(name: string, c: (SheetDate, string), zone: int)
    requires ValidOffset(zone)
    ensures StreakState(c.1).Some? ==> DateEvents(name, [c], zone) == [StreakEvent(name, c.0, c.1, zone)]
    ensures StreakState(c.1).None? ==> DateEvents(name, [c], zone) == []
  {
    StatedCellsOne(c);
  }

  /** `for label in table["Streaks"]`, each label's events in turn. */
  function LabelEvents(labels: LabelTable, zone: int): (r: seq<Event>)
    requires ValidOffset(zone)
    ensures forall e :: e in r ==> exists i :: 0 <= i < |labels| && e in DateEvents(labels[i].0, labels[i].1, zone)
    ensures forall i :: 0 <= i < |labels| ==> forall e :: e in DateEvents(labels[i].0, labels[i].1, zone) ==> e in r
  {
    if |labels| == 0 then []
    else
      var rest := LabelEvents(labels[1..], zone);
      LabelEventsCons(labels, rest, zone);
      DateEvents(labels[0].0, labels[0].1, zone) + rest
  }

  /** The step of `LabelEvents`: the first label's events before those of
      the others keep every label's events, and only those. */
  lemma LabelEventsCons(labels: LabelTable, rest: seq<Event>, zone: int)
    requires ValidOffset(zone) && |labels| > 0
    requires forall e :: e in rest ==> exists i :: 0 <= i < |labels[1..]| && e in DateEvents(labels[1..][i].0, labels[1..][i].1, zone)
    requires forall i :: 0 <= i < |labels[1..]| ==> forall e :: e in DateEvents(labels[1..][i].0, labels[1..][i].1, zone) ==> e in rest
    ensures var r := DateEvents(labels[0].0, labels[0].1, zone) + rest;
            && (forall e :: e in r ==> exists i :: 0 <= i < |labels| && e in DateEvents(labels[i].0, labels[i].1, zone))
            && (forall i :: 0 <= i < |labels| ==> forall e :: e in DateEvents(labels[i].0, labels[i].1, zone) ==> e in r)
  {
    var f := (l: (string, Dict<SheetDate, string>)) => if ValidOffset(zone) then DateEvents(l.0, l.1, zone) else [];
    assert forall i :: 0 <= i < |labels| ==> f(labels[i]) == DateEvents(labels[i].0, labels[i].1, zone);
    assert forall i :: 0 <= i < |labels[1..]| ==> f(labels[1..][i]) == DateEvents(labels[1..][i].0, labels[1..][i].1, zone);
    ConsMembers(f, labels, rest);
  }

  /** Membership in the first item's sequence followed by `rest`, when
      `rest` holds exactly the members of the other items' sequences. */
  lemma ConsMembers<L, E>(f: L -> seq<E>, items: seq<L>, rest: seq<E>)
    requires |items| > 0
    requires forall e :: e in rest ==> exists i :: 0 <= i < |items[1..]| && e in f(items[1..][i])
    requires forall i :: 0 <= i < |items[1..]| ==> forall e :: e in f(items[1..][i]) ==> e in rest
    ensures forall e :: e in f(items[0]) + rest ==> exists i :: 0 <= i < |items| && e in f(items[i])
    ensures forall i :: 0 <= i < |items| ==> forall e :: e in f(items[i]) ==> e in f(items[0]) + rest
  {
    forall e | e in f(items[0]) + rest
      ensures exists i :: 0 <= i < |items| && e in f(items[i])
    {
      if e !in f(items[0]) {
        var j :| 0 <= j < |items[1..]| && e in f(items[1..][j]);
        assert items[1..][j] == items[j + 1];
      }
    }
    forall i | 0 < i < |items|
      ensures forall e :: e in f(items[i]) ==> e in f(items[0]) + rest
    {
      assert items[i] == items[1..][i - 1];
    }
  }

  /** The labels are visited in order: the events of two runs of labels are
      the first run's, then the second's, and a lone label yields its own
      cells' events. */
  lemma {:induction false} LabelEventsAppend(a: LabelTable, b: LabelTable, zone: int)
    requires ValidOffset(zone)
    ensures LabelEvents(a + b, zone) == LabelEvents(a, zone) + LabelEvents(b, zone)
    ensures |a| == 1 ==> LabelEvents(a, zone) == DateEvents(a[0].0, a[0].1, zone)
  {
    if |a| == 0 {
      assert a + b == b;
    } else {
      assert (a + b)[0] == a[0];
      assert (a + b)[1..] == a[1..] + b;
      LabelEventsAppend(a[1..], b, zone);
      if |a| == 1 {
        assert a[1..] == [];
      }
    }
  }

  /** The events of `create_streaks`, given the table `get_main` built; a
      table without a "Streaks" category is a KeyError. */
  function CreateStreaks(table: MainTable, zone: int): (r: Result<seq<Event>, SheetError>)
    requires ValidOffset(zone)
    ensures r.Err? <==> Get(table, "Streaks").None?
    ensures r.Err? ==> r.error == MissingKey("Streaks")
    ensures r.Ok? ==> r.value == LabelEvents(Get(table, "Streaks").value, zone)
  {
    match Get(table, "Streaks")
    case None => Err(MissingKey("Streaks"))
    case Some(labels) => Ok(LabelEvents(labels, zone))
  }

  /** A label whose cells hold only TRUE and FALSE yields one event per
      date; any other text yields none. */
  lemma {:induction false} DateEventsCount(name: string, cells: Dict<SheetDate, string>, zone: int)
    requires ValidOffset(zone)
    ensures (forall i :: 0 <= i < |cells| ==> StreakState(cells[i].1).Some?) ==> |DateEvents(name, cells, zone)| == |cells|
    ensures (forall i :: 0 <= i < |cells| ==> StreakState(cells[i].1).None?) ==> DateEvents(name, cells, zone) == []
  {
    StatedCount(cells);
  }

  lemma {:induction false} StatedCount(cells: Dict<SheetDate, string>)
    ensures (forall i :: 0 <= i < |cells| ==> StreakState(cells[i].1).Some?) ==> StatedCells(cells) == cells
    ensures (forall i :: 0 <= i < |cells| ==> StreakState(cells[i].1).None?) ==> StatedCells(cells) == []
  {
    if |cells| > 0 {
      StatedCount(cells[1..]);
      assert forall i :: 1 <= i < |cells| ==> cells[i] == cells[1..][i - 1];
      assert cells == [cells[0]] + cells[1..];
    }
  }
}

=== FILE: strptime.dfy ===
/** `datetime.strptime` for the four formats the spreadsheet scripts use:
    "%m/%d/%Y" and "%Y-%m-%d" for dates, "%H:%M" and "%H:%M:%S" for times.

    The standard library turns each directive into a regular expression and
    requires the whole text to match: `%m` is `1[0-2]|0[1-9]|[1-9]`, `%d` is
    `3[01]|[12]\d|0[1-9]|[1-9]| [1-9]`, `%Y` is four digits, `%H` is
    `2[0-3]|[01]\d|\d`, `%M` is `[0-5]\d|\d` and `%S` is `6[01]|[0-5]\d|\d`.
    Since no directive can match a separator, each separated piece must lie
    exactly in its directive's language. The numbers are then handed to the
    `datetime` constructor, which rejects impossible dates and seconds 60
    and 61. Any failure is Python's ValueError, here None. */
module Strptime {
  import opened Results
  import opened Text
  import opened Calendar

  // ---------------------------------------------------------------- fields

  predicate MonthText(p: string) {
    || (|p| == 2 && p[0] == '1' && '0' <= p[1] <= '2')
    || (|p| == 2 && p[0] == '0' && '1' <= p[1] <= '9')
    || (|p| == 1 && '1' <= p[0] <= '9')
  }

  predicate DayText(p: string) {
    || (|p| == 2 && p[0] == '3' && '0' <= p[1] <= '1')
    || (|p| == 2 && '1' <= p[0] <= '2' && IsDigit(p[1]))
    || (|p| == 2 && p[0] == '0' && '1' <= p[1] <= '9')
    || (|p| == 1 && '1' <= p[0] <= '9')
    || (|p| == 2 && p[0] == ' ' && '1' <= p[1] <= '9')
  }

  predicate YearText(p: string) {
    |p| == 4 && AllDigits(p)
  }

  predicate HourText(p: string) {
    || (|p| == 2 && p[0] == '2' && '0' <= p[1] <= '3')
    || (|p| == 2 && '0' <= p[0] <= '1' && IsDigit(p[1]))
    || (|p| == 1 && IsDigit(p[0]))
  }

  predicate MinuteText(p: string) {
    || (|p| == 2 && '0' <= p[0] <= '5' && IsDigit(p[1]))
    || (|p| == 1 && IsDigit(p[0]))
  }

  predicate SecondText(p: string) {
    (|p| == 2 && p[0] == '6' && '0' <= p[1] <= '1') || MinuteText(p)
  }

  /** `int()` of a matched day, which may carry a leading space. */
  function DayValue(p: string): nat
    requires DayText(p)
  {
    if p[0] == ' ' then DigitValue(p[1]) else DigitsValue(p)
  }

  lemma TwoDigits(p: string)
    requires |p| == 2 && AllDigits(p)
    ensures DigitsValue(p) == 10 * DigitValue(p[0]) + DigitValue(p[1])
  {
    var head := p[..1];
    assert head[..0] == [] && head[0] == p[0];
    assert DigitsValue(head) == DigitValue(p[0]);
  }

  lemma OneDigit(p: string)
    requires |p| == 1 && AllDigits(p)
    ensures DigitsValue(p) == DigitValue(p[0])
  {
    assert p[..0] == [];
  }

  /** The numbers the field languages admit. */
  lemma FieldRanges(p: string)
    ensures MonthText(p) ==> 1 <= DigitsValue(p) <= 12
    ensures DayText(p) ==> 1 <= DayValue(p) <= 31
    ensures HourText(p) ==> DigitsValue(p) < 24
    ensures MinuteText(p) ==> DigitsValue(p) < 60
    ensures SecondText(p) ==> DigitsValue(p) < 62
  {
    if |p| == 2 && AllDigits(p) { TwoDigits(p); }
    if |p| == 1 && AllDigits(p) { OneDigit(p); }
  }

  // ---------------------------------------------------------------- dates

  /** `datetime.strptime(s, "%m/%d/%Y")`, as its date. */
  function ParseMonthDayYear(s: string): (r: Option<Date>)
    ensures r.Some? ==> r.value.Valid()
    ensures r.Some? ==> Count(s, '/') == 2
    ensures r.Some? ==> var parts := Split(s, '/');
              MonthText(parts[0]) && DayText(parts[1]) && YearText(parts[2])
    ensures var parts := Split(s, '/');
            |parts| == 3 && MonthText(parts[0]) && DayText(parts[1]) && YearText(parts[2]) ==>
              var d := Date(DigitsValue(parts[2]), DigitsValue(parts[0]), DayValue(parts[1]));
              (d.Valid() ==> r == Some(d)) && (!d.Valid() ==> r.None?)
  {
    var parts := Split(s, '/');
    if |parts| == 3 && MonthText(parts[0]) && DayText(parts[1]) && YearText(parts[2]) then
      var d := Date(DigitsValue(parts[2]), DigitsValue(parts[0]), DayValue(parts[1]));
      if d.Valid() then Some(d) else None
    else None
  }

  /** `datetime.strptime(s, "%Y-%m-%d")`, as its date. */
  function ParseYearMonthDay(s: string): (r: Option<Date>)
    ensures r.Some? ==> r.value.Valid()
    ensures r.Some? ==> Count(s, '-') == 2
    ensures r.Some? ==> var parts := Split(s, '-');
              YearText(parts[0]) && MonthText(parts[1]) && DayText(parts[2])
    ensures var parts := Split(s, '-');
            |parts| == 3 && YearText(parts[0]) && MonthText(parts[1]) && DayText(parts[2]) ==>
              var d := Date(DigitsValue(parts[0]), DigitsValue(parts[1]), DayValue(parts[2]));
              (d.Valid() ==> r == Some(d)) && (!d.Valid() ==> r.None?)
  {
    var parts := Split(s, '-');
    if |parts| == 3 && YearText(parts[0]) && MonthText(parts[1]) && DayText(parts[2]) then
      var d := Date(DigitsValue(parts[0]), DigitsValue(parts[1]), DayValue(parts[2]));
      if d.Valid() then Some(d) else None
    else None
  }

  /** `strftime("%m/%d/%Y")` of a date. */
  function MonthDayYearText(d: Date): string
    requires d.Valid()
  {
    ZeroPad(d.month, 2) + "/" + ZeroPad(d.day, 2) + "/" + ZeroPad(d.year, 4)
  }

  /** `strftime("%Y-%m-%d")` of a date. */
  function YearMonthDayText(d: Date): string
    requires d.Valid()
  {
    ZeroPad(d.year, 4) + "-" + ZeroPad(d.month, 2) + "-" + ZeroPad(d.day, 2)
  }

  /** A zero-padded two-digit month or day lies in its field language. */
  lemma PaddedFields(d: Date)
    requires d.Valid()
    ensures MonthText(ZeroPad(d.month, 2)) && DigitsValue(ZeroPad(d.month, 2)) == d.month
    ensures DayText(ZeroPad(d.day, 2)) && DayValue(ZeroPad(d.day, 2)) == d.day
  {
    PaddedMonth(d.month);
    PaddedDay(d.day);
  }

  lemma PaddedMonth(month: nat)
    requires 1 <= month <= 12
    ensures MonthText(ZeroPad(month, 2)) && DigitsValue(ZeroPad(month, 2)) == month
  {
    TwoDigits(ZeroPad(month, 2));
  }

  lemma PaddedDay(day: nat)
    requires 1 <= day <= 31
    ensures DayText(ZeroPad(day, 2)) && DayValue(ZeroPad(day, 2)) == day
  {
    TwoDigits(ZeroPad(day, 2));
  }

  lemma NoSeparatorInDigits(p: string, sep: char)
    requires AllDigits(p) && !IsDigit(sep)
    ensures sep !in p
  {
  }

  /** Three separated pieces split back apart. */
  lemma SplitThree(a: string, b: string, c: string, sep: char)
    requires sep !in a && sep !in b && sep !in c
    ensures Split(a + [sep] + b + [sep] + c, sep) == [a, b, c]
  {
    SplitNoSeparator(c, sep);
    SplitFirstPiece(b, sep, c);
    SplitFirstPiece(a, sep, b + [sep] + c);
    assert a + [sep] + b + [sep] + c == a + [sep] + (b + [sep] + c);
  }

  /** Every valid date survives printing and parsing back, in both formats. */
  lemma DateRoundTrip(d: Date)
    requires d.Valid()
    ensures ParseMonthDayYear(MonthDayYearText(d)) == Some(d)
    ensures ParseYearMonthDay(YearMonthDayText(d)) == Some(d)
  {
    var m, dd, y := ZeroPad(d.month, 2), ZeroPad(d.day, 2), ZeroPad(d.year, 4);
    PaddedFields(d);
    NoSeparatorInDigits(m, '/'); NoSeparatorInDigits(dd, '/'); NoSeparatorInDigits(y, '/');
    NoSeparatorInDigits(m, '-'); NoSeparatorInDigits(dd, '-'); NoSeparatorInDigits(y, '-');
    SplitThree(m, dd, y, '/');
    SplitThree(y, m, dd, '-');
  }

  /** Unpadded one-digit months and days are accepted. */
  lemma UnpaddedDate(d: Date)
    requires d.Valid() && d.month < 10 && d.day < 10
    ensures ParseMonthDayYear([DigitChar(d.month)] + "/" + [DigitChar(d.day)] + "/" + ZeroPad(d.year, 4)) == Some(d)
  {
    var m, dd, y := [DigitChar(d.month)], [DigitChar(d.day)], ZeroPad(d.year, 4);
    OneDigit(m); OneDigit(dd);
    NoSeparatorInDigits(y, '/');
    SplitThree(m, dd, y, '/');
  }

  /** A one-digit day padded with a space is accepted. */
  lemma SpacePaddedDay(d: Date)
    requires d.Valid() && d.month < 10 && d.day < 10
    ensures ParseMonthDayYear([DigitChar(d.month)] + "/" + [' ', DigitChar(d.day)] + "/" + ZeroPad(d.year, 4)) == Some(d)
  {
    var m, dd, y := [DigitChar(d.month)], [' ', DigitChar(d.day)], ZeroPad(d.year, 4);
    OneDigit(m);
    assert DayText(dd) && DayValue(dd) == d.day;
    NoSeparatorInDigits(y, '/');
    SplitThree(m, dd, y, '/');
  }

  /** A day past the end of its month matches `%d` but is refused by the
      constructor. */
  lemma DayPastMonthEnd(year: nat, month: nat, day: nat)
    requires MinYear <= year <= MaxYear && 1 <= month <= 12 && DaysInMonth(year, month) < day <= 31
    ensures ParseMonthDayYear(ZeroPad(month, 2) + "/" + ZeroPad(day, 2) + "/" + ZeroPad(year, 4)) == None
  {
    var m, dd, y := ZeroPad(month, 2), ZeroPad(day, 2), ZeroPad(year, 4);
    PaddedMonth(month); PaddedDay(day);
    NoSeparatorInDigits(m, '/'); NoSeparatorInDigits(dd, '/'); NoSeparatorInDigits(y, '/');
    SplitThree(m, dd, y, '/');
  }

  /** `%Y` wants four digits: a two-digit year never matches. */
  lemma ShortYearRefused(m: string, dd: string, y: string)
    requires '/' !in m && '/' !in dd && '/' !in y && |y| != 4
    ensures ParseMonthDayYear(m + "/" + dd + "/" + y) == None
  {
    SplitThree(m, dd, y, '/');
  }

  /** Year zero and below match nothing a date can hold: `0000` matches
      `%Y` but is outside the calendar. */
  lemma YearZeroRefused(m: string, dd: string)
    requires '-' !in m && '-' !in dd
    ensures ParseYearMonthDay("0000-" + m + "-" + dd) == None
  {
    var y := "0000";
    assert y[..3] == "000" && "000"[..2] == "00" && "00"[..1] == "0" && "0"[..0] == "";
    assert YearText(y) && DigitsValue(y) == 0;
    assert "0000-" + m + "-" + dd == y + ['-'] + m + ['-'] + dd;
    SplitThree(y, m, dd, '-');
  }

  // ---------------------------------------------------------------- times

  /** `datetime.strptime(s, "%H:%M").time()`. */
  function ParseHourMinute(s: string): (r: Option<Clock>)
    ensures r.Some? ==> r.value.Valid() && r.value.second == 0 && r.value.microsecond == 0
    ensures r.Some? ==> Count(s, ':') == 1 && HourText(Split(s, ':')[0]) && MinuteText(Split(s, ':')[1])
    ensures r.Some? ==> r.value.hour == DigitsValue(Split(s, ':')[0]) && r.value.minute == DigitsValue(Split(s, ':')[1])
  {
    var parts := Split(s, ':');
    if |parts| == 2 && HourText(parts[0]) && MinuteText(parts[1]) then
      FieldRanges(parts[0]);
      FieldRanges(parts[1]);
      Some(Clock(DigitsValue(parts[0]), DigitsValue(parts[1]), 0, 0))
    else None
  }

  /** `datetime.strptime(s, "%H:%M:%S").time()`: seconds 60 and 61 match the
      pattern but the constructor refuses them. */
  function ParseHourMinuteSecond(s: string): (r: Option<Clock>)
    ensures r.Some? ==> r.value.Valid() && r.value.microsecond == 0
    ensures r.Some? ==> var parts := Split(s, ':');
              && Count(s, ':') == 2 && HourText(parts[0]) && MinuteText(parts[1]) && SecondText(parts[2])
              && r.value == Clock(DigitsValue(parts[0]), DigitsValue(parts[1]), DigitsValue(parts[2]), 0)
  {
    var parts := Split(s, ':');
    if |parts| == 3 && HourText(parts[0]) && MinuteText(parts[1]) && SecondText(parts[2]) then
      assert DigitsValue(parts[0]) < 24 && DigitsValue(parts[1]) < 60 by {
        FieldRanges(parts[0]);
        FieldRanges(parts[1]);
      }
      if DigitsValue(parts[2]) < 60 then
        Some(Clock(DigitsValue(parts[0]), DigitsValue(parts[1]), DigitsValue(parts[2]), 0))
      else None
    else None
  }

  /** `strftime("%H:%M:%S")` of a clock reading. */
  function ClockText(c: Clock): string
    requires c.Valid()
  {
    ZeroPad(c.hour, 2) + ":" + ZeroPad(c.minute, 2) + ":" + ZeroPad(c.second, 2)
  }

  /** A zero-padded two-digit hour, minute or second lies in its language. */
  lemma PaddedClockFields(c: Clock)
    requires c.Valid()
    ensures HourText(ZeroPad(c.hour, 2)) && DigitsValue(ZeroPad(c.hour, 2)) == c.hour
    ensures MinuteText(ZeroPad(c.minute, 2)) && DigitsValue(ZeroPad(c.minute, 2)) == c.minute
    ensures SecondText(ZeroPad(c.second, 2)) && DigitsValue(ZeroPad(c.second, 2)) == c.second
  {
    TwoDigits(ZeroPad(c.hour, 2));
    TwoDigits(ZeroPad(c.minute, 2));
    TwoDigits(ZeroPad(c.second, 2));
  }

  /** Every whole-second clock reading survives printing and parsing back,
      and so does its hour and minute. */
  lemma ClockRoundTrip(c: Clock)
    requires c.Valid() && c.microsecond == 0
    ensures ParseHourMinuteSecond(ClockText(c)) == Some(c)
    ensures ParseHourMinute(ZeroPad(c.hour, 2) + ":" + ZeroPad(c.minute, 2)) == Some(Clock(c.hour, c.minute, 0, 0))
  {
    SecondsRoundTrip(c);
    MinutesRoundTrip(c);
  }

  lemma SecondsRoundTrip(c: Clock)
    requires c.Valid() && c.microsecond == 0
    ensures ParseHourMinuteSecond(ClockText(c)) == Some(c)
  {
    var h, m, s := ZeroPad(c.hour, 2), ZeroPad(c.minute, 2), ZeroPad(c.second, 2);
    PaddedClockFields(c);
    NoSeparatorInDigits(h, ':'); NoSeparatorInDigits(m, ':'); NoSeparatorInDigits(s, ':');
    SplitThree(h, m, s, ':');
  }

  lemma MinutesRoundTrip(c: Clock)
    requires c.Valid()
    ensures ParseHourMinute(ZeroPad(c.hour, 2) + ":" + ZeroPad(c.minute, 2)) == Some(Clock(c.hour, c.minute, 0, 0))
  {
    var h, m := ZeroPad(c.hour, 2), ZeroPad(c.minute, 2);
    PaddedClockFields(c);
    NoSeparatorInDigits(h, ':'); NoSeparatorInDigits(m, ':');
    SplitFirstPiece(h, ':', m);
    SplitNoSeparator(m, ':');
  }

  /** Seconds 60 and 61 match `%S` but are refused by the constructor. */
  lemma LeapSecondRefused(hour: nat, minute: nat, second: nat)
    requires hour < 24 && minute < 60 && 60 <= second <= 61
    ensures ParseHourMinuteSecond(ZeroPad(hour, 2) + ":" + ZeroPad(minute, 2) + ":" + ZeroPad(second, 2)) == None
  {
    var h, m, sec := ZeroPad(hour, 2), ZeroPad(minute, 2), ZeroPad(second, 2);
    NoSeparatorInDigits(h, ':'); NoSeparatorInDigits(m, ':'); NoSeparatorInDigits(sec, ':');
    SplitThree(h, m, sec, ':');
  }

  /** An hour of 24 or more never matches `%H`. */
  lemma LateHourRefused(hour: nat, m: string)
    requires 24 <= hour < 100 && ':' !in m
    ensures ParseHourMinute(ZeroPad(hour, 2) + ":" + m) == None
  {
    var h := ZeroPad(hour, 2);
    FieldRanges(h);
    NoSeparatorInDigits(h, ':');
    SplitNoSeparator(m, ':');
    SplitFirstPiece(h, ':', m);
  }

  /** A one-digit hour, as in the cell "8:30:00", reads as the clock it names. */
  lemma OneDigitHourSeconds(hour: nat, minute: nat, second: nat)
    requires hour < 10 && minute < 60 && second < 60
    ensures ParseHourMinuteSecond([DigitChar(hour)] + ":" + ZeroPad(minute, 2) + ":" + ZeroPad(second, 2))
            == Some(Clock(hour, minute, second, 0))
  {
    var h, m, sec := [DigitChar(hour)], ZeroPad(minute, 2), ZeroPad(second, 2);
    OneDigit(h); TwoDigits(m); TwoDigits(sec);
    assert HourText(h) && MinuteText(m) && SecondText(sec);
    NoSeparatorInDigits(m, ':');
    NoSeparatorInDigits(sec, ':');
    SplitThree(h, m, sec, ':');
  }

  /** A one-digit hour is accepted. */
  lemma OneDigitHour(hour: nat, minute: nat)
    requires hour < 10 && minute < 60
    ensures ParseHourMinute([DigitChar(hour)] + ":" + ZeroPad(minute, 2)) == Some(Clock(hour, minute, 0, 0))
  {
    var h, m := [DigitChar(hour)], ZeroPad(minute, 2);
    OneDigit(h); TwoDigits(m);
    assert HourText(h) && MinuteText(m);
    NoSeparatorInDigits(m, ':');
    SplitNoSeparator(m, ':');
    SplitFirstPiece(h, ':', m);
  }
}

=== FILE: supplements.dfy ===
/** What the two supplement scripts share: a data cell is split at `+` into
    pieces, each piece is read as "<amount><unit> <substance> ...", the route
    of administration is looked up in the cell's last word, and each dose
    becomes a `ZenobaseEvent` with a "volume" or "weight" field.

    A piece reads as a dose, or fails in one of the ways the scripts count as
    a parse error (no leading number, no unit, a `%` without a percentage),
    or has no second word, where `split(" ")[1]` raises an IndexError that
    nothing catches. */
module Supplements {
  import opened Results
  import opened Text
  import opened Calendar
  import opened Values
  import opened Event
  import opened Patterns

  // ---------------------------------------------------------------- cells

  /** The text neither starts nor ends with whitespace. */
  predicate Stripped(x: string) {
    x == "" || (!IsSpace(x[0]) && !IsSpace(x[|x| - 1]))
  }

  /** `map(str.strip, data_cell.split("+"))`: one stripped piece per `+`
      plus one, none holding a `+`. */
  function Pieces(data: string): (r: seq<string>)
    ensures |r| == Count(data, '+') + 1
    ensures forall k :: 0 <= k < |r| ==> '+' !in r[k] && Stripped(r[k])
  {
    var parts := Split(data, '+');
    seq(|parts|, k requires 0 <= k < |parts| =>
      var p := Strip(parts[k]);
      assert forall m :: 0 <= m < |p| ==> p[m] == parts[k][StripStart(parts[k]) + m];
      p)
  }

  lemma StripStripped(x: string)
    requires Stripped(x)
    ensures Strip(x) == x
  {
    assert TrimStart(x) == x;
    assert TrimEnd(x) == x;
  }

  /** Writing pieces with `+` between them and reading them back gives the
      same pieces, when none holds a `+` or surrounding whitespace. */
  lemma PiecesRoundTrip(doses: seq<string>)
    requires |doses| >= 1
    requires forall k :: 0 <= k < |doses| ==> '+' !in doses[k] && Stripped(doses[k])
    ensures Pieces(Join(doses, '+')) == doses
  {
    SplitJoin(doses, '+');
    forall k | 0 <= k < |doses| ensures Strip(doses[k]) == doses[k] {
      StripStripped(doses[k]);
    }
  }

  /** The last space-separated word of a text, `s.split(" ")[-1]`. */
  function LastWord(s: string): string {
    var words := Split(s, ' ');
    words[|words| - 1]
  }

  /** The route of a data cell: the first route named in its last word, or
      "oral" when none is. */
  function CellRoute(data: string): (r: string)
    ensures r in Routes
    ensures r != "oral" ==> exists pos :: OccursAt(LastWord(data), r, pos)
    ensures FirstAlternative(LastWord(data), Routes).None? ==> r == "oral"
  {
    RouteOf(LastWord(data))
  }

  /** Each route, alone at position 0, is the only route that occurs there. */
  lemma RouteAlone(route: string)
    requires route in Routes
    ensures AltAt(route, Routes, 0) == Some(route)
  {
    assert OccursAt(route, route, 0);
    var k :| 0 <= k < |Routes| && Routes[k] == route;
    RoutesPrefixFree();
    AltAtPrefixFree(route, Routes, 0, k);
  }

  /** A cell whose last word is a route is given that route. */
  lemma RouteNamedLast(prefix: string, route: string)
    requires route in Routes
    ensures CellRoute(prefix + " " + route) == route
  {
    assert ' ' !in route;
    SplitLastPiece(prefix, ' ', route);
    assert LastWord(prefix + " " + route) == route;
    RouteAlone(route);
    var f := FirstAltFrom(route, Routes, 0);
    assert f == Some((0, route));
  }

  /** The piece after the last separator is the text after it. */
  lemma {:induction false} SplitLastPiece(a: string, sep: char, b: string)
    requires sep !in b
    ensures var parts := Split(a + [sep] + b, sep); |parts| >= 2 && parts[|parts| - 1] == b
  {
    var s := a + [sep] + b;
    if |a| == 0 {
      assert s[1..] == b;
      SplitNoSeparator(b, sep);
    } else {
      SplitLastPiece(a[1..], sep, b);
      assert s[1..] == a[1..] + [sep] + b;
    }
  }

  // ---------------------------------------------------------------- doses

  /** What a piece says: the amount as its matched text (the float the
      scripts build from it is not modelled), the unit, the percentage for an
      alcoholic drink, and the substance. */
  datatype Dose = Dose(amount: string, unit: string, percent: Option<string>, substance: string)

  datatype DoseReading =
    | Found(dose: Dose)
    | Unreadable   // a parse error: counted, and the piece skipped
    | NoSubstance  // the uncaught IndexError of `split(" ")[1]`

  /** The three regular expressions a piece needs all match. */
  predicate Readable(t: string) {
    && LeadingAmount(t).Some?
    && FirstUnit(t).Some?
    && ('%' in t ==> FirstPercent(t).Some?)
  }

  /** The index of the first space at or after `from`, or `|t|`. */
  function SpaceFrom(t: string, from: nat): (i: nat)
    requires from <= |t|
    ensures from <= i <= |t| && (i < |t| ==> t[i] == ' ')
    ensures forall k :: from <= k < i ==> t[k] != ' '
    decreases |t| - from
  {
    if from == |t| || t[from] == ' ' then from else SpaceFrom(t, from + 1)
  }

  /** The text between the first space and the next one (or the end). */
  function SecondWord(t: string): (r: Option<string>)
    ensures r.None? <==> ' ' !in t
    ensures r.Some? ==> ' ' !in r.value
  {
    var i := SpaceFrom(t, 0);
    if i == |t| then None
    else
      var j := SpaceFrom(t, i + 1);
      Some(t[i + 1..j])
  }

  /** `t.split(" ")[1]` is the second word. */
  lemma SecondWordIsSplit(t: string)
    requires ' ' in t
    ensures |Split(t, ' ')| >= 2 && Split(t, ' ')[1] == SecondWord(t).value
  {
    var i := SpaceFrom(t, 0);
    var j := SpaceFrom(t, i + 1);
    SecondPiece(t, i, j);
  }

  /** The second piece runs from just after the first space to the next. */
  lemma SecondPiece(t: string, i: nat, j: nat)
    requires i < |t| && t[i] == ' ' && forall k :: 0 <= k < i ==> t[k] != ' '
    requires i + 1 <= j <= |t| && (j < |t| ==> t[j] == ' ') && forall k :: i + 1 <= k < j ==> t[k] != ' '
    ensures |Split(t, ' ')| >= 2 && Split(t, ' ')[1] == t[i + 1..j]
  {
    var u := t[i + 1..];
    SplitAt(t, i);
    var n := j - (i + 1);
    forall k | 0 <= k < n ensures u[k] != ' ' {
      assert u[k] == t[i + 1 + k];
    }
    SplitHead(u, n);
    assert u[..n] == t[i + 1..j];
  }

  /** Splitting at the first space. */
  lemma SplitAt(t: string, i: nat)
    requires i < |t| && t[i] == ' ' && forall k :: 0 <= k < i ==> t[k] != ' '
    ensures Split(t, ' ') == [t[..i]] + Split(t[i + 1..], ' ')
  {
    assert t == t[..i] + [' '] + t[i + 1..];
    SplitFirstPiece(t[..i], ' ', t[i + 1..]);
  }

  /** The first piece runs up to the first space. */
  lemma SplitHead(u: string, j: nat)
    requires j <= |u| && (forall k :: 0 <= k < j ==> u[k] != ' ') && (j < |u| ==> u[j] == ' ')
    ensures Split(u, ' ')[0] == u[..j]
  {
    if j == |u| {
      assert u[..j] == u;
      SplitNoSeparator(u, ' ');
    } else {
      SplitAt(u, j);
    }
  }

  /** Lines that read a piece, in the scripts' order: the leading number, the
      unit, the percentage when there is a `%`, then the second word
      (`split(" ")[1]`, see `ReadDoseSplits`). */
  function ReadDose(t: string): (r: DoseReading)
    ensures r.Unreadable? <==> !Readable(t)
    ensures r.NoSubstance? <==> Readable(t) && ' ' !in t
    ensures r.Found? ==> && LeadingAmount(t) == Some(r.dose.amount)
                         && FirstUnit(t) == Some(r.dose.unit)
                         && r.dose.percent == (if '%' in t then FirstPercent(t) else None)
                         && SecondWord(t) == Some(r.dose.substance)
    ensures UnitKnown(r)
  {
    match LeadingAmount(t)
    case None => Unreadable
    case Some(amount) =>
      match FirstUnit(t)
      case None => Unreadable
      case Some(unit) =>
        if '%' in t && FirstPercent(t).None? then Unreadable
        else
          match SecondWord(t)
          case None => NoSubstance
          case Some(word) => Found(Dose(amount, unit, if '%' in t then FirstPercent(t) else None, word))
  }

  /** The substance is `split(" ")[1]`, and the IndexError is a piece that
      splits into a single word. */
  lemma ReadDoseSplits(t: string)
    ensures ReadDose(t).NoSubstance? <==> Readable(t) && |Split(t, ' ')| < 2
    ensures ReadDose(t).Found? ==> |Split(t, ' ')| >= 2 && ReadDose(t).dose.substance == Split(t, ' ')[1]
  {
    CountZero(t, ' ');
    if ' ' in t {
      SecondWordIsSplit(t);
    }
  }

  /** A reading whose dose, if there is one, has a unit of the unit pattern. */
  predicate UnitKnown(r: DoseReading) {
    r.Found? ==> r.dose.unit in Units
  }

  /** Every piece of a cell, read. */
  function ReadDoses(pieces: seq<string>): (r: seq<DoseReading>)
    ensures |r| == |pieces|
    ensures forall k :: 0 <= k < |pieces| ==> r[k] == ReadDose(pieces[k]) && UnitKnown(r[k])
  {
    seq(|pieces|, k requires 0 <= k < |pieces| => ReadDose(pieces[k]))
  }

  /** The text a dose without percentage is written as. */
  function DoseText(d: Dose): string {
    d.amount + d.unit + " " + d.substance
  }

  /** A dose that can be written and read back. */
  predicate Writable(d: Dose) {
    && NumberShaped(d.amount) && d.unit in Units && d.percent.None?
    && ' ' !in d.substance && '%' !in d.substance
  }

  /** No unit begins with a digit or a point. */
  lemma UnitsStartWithLetters(k: int)
    requires 0 <= k < |Units|
    ensures |Units[k]| >= 1 && !IsDigit(Units[k][0]) && Units[k][0] != '.'
  {
  }

  /** Units are letters only. */
  lemma UnitsAreLetters(u: string)
    requires u in Units
    ensures ' ' !in u && '%' !in u
  {
  }

  /** A number followed by a letter is read whole. */
  lemma AmountThenLetter(amount: string, rest: string)
    requires NumberShaped(amount) && |rest| >= 1 && !IsDigit(rest[0]) && rest[0] != '.'
    ensures LeadingAmount(amount + rest) == Some(amount)
  {
    var s := amount + rest;
    assert s[|amount|] == rest[0];
    forall k | 0 <= k < |amount| ensures s[k] == amount[k] { }
    var e1 := DigitRunEnd(s, 0);
    assert e1 <= |amount|;
    if e1 < |amount| {
      assert amount[e1] == '.';
      var e2 := DigitRunEnd(s, e1 + 1);
      assert e2 <= |amount|;
      assert e2 == |amount|;
      assert NumberEnd(s, 0) == Some(|amount|);
    } else {
      assert NumberEnd(s, 0) == Some(|amount|);
    }
    assert s[..|amount|] == amount;
  }

  /** The written unit is the first one found. */
  lemma FirstUnitOfText(d: Dose)
    requires Writable(d)
    ensures FirstUnit(DoseText(d)) == Some(d.unit)
  {
    var s := DoseText(d);
    var n := |d.amount|;
    var u :| 0 <= u < |Units| && Units[u] == d.unit;
    assert OccursAt(s, Units[u], n) by {
      assert s[n..n + |d.unit|] == d.unit;
    }
    forall q | 0 <= q < n ensures AltAt(s, Units, q).None? {
      assert s[q] == d.amount[q];
      forall k | 0 <= k < |Units| ensures !OccursAt(s, Units[k], q) {
        UnitsStartWithLetters(k);
      }
    }
    UnitsPrefixFree();
    FirstAlternativeAt(s, Units, n, u);
  }

  /** The substance is the second word of the written text. */
  lemma SubstanceOfText(d: Dose)
    requires Writable(d)
    ensures SecondWord(DoseText(d)) == Some(d.substance)
  {
    var s := DoseText(d);
    var head := d.amount + d.unit;
    assert s == head + [' '] + d.substance;
    UnitsAreLetters(d.unit);
    forall k | 0 <= k < |head| ensures s[k] != ' ' {
      assert s[k] == head[k];
      if k < |d.amount| {
        assert head[k] == d.amount[k];
      } else {
        assert head[k] == d.unit[k - |d.amount|];
      }
    }
    assert s[|head|] == ' ';
    assert SpaceFrom(s, 0) == |head|;
    assert SpaceFrom(s, |head| + 1) == |s| by {
      forall k | |head| + 1 <= k < |s| ensures s[k] != ' ' { assert s[k] == d.substance[k - |head| - 1]; }
    }
    assert s[|head| + 1..|s|] == d.substance;
    assert SecondWord(s) == Some(s[|head| + 1..|s|]);
  }

  /** Reading back a written dose gives the dose. */
  lemma DoseRoundTrip(d: Dose)
    requires Writable(d)
    ensures ReadDose(DoseText(d)) == Found(d)
  {
    var s := DoseText(d);
    var k :| 0 <= k < |Units| && Units[k] == d.unit;
    UnitsStartWithLetters(k);
    UnitsAreLetters(d.unit);
    assert s == d.amount + (d.unit + " " + d.substance);
    AmountThenLetter(d.amount, d.unit + " " + d.substance);
    FirstUnitOfText(d);
    SubstanceOfText(d);
    NoPercentInText(d);
    assert ' ' in s by { assert s[|d.amount| + |d.unit|] == ' '; }
    assert Readable(s);
    var r := ReadDose(s);
    assert r.Found?;
    assert r.dose.amount == d.amount && r.dose.unit == d.unit;
    assert r.dose.percent == None && r.dose.substance == d.substance;
  }

  /** A written dose holds no `%`. */
  lemma NoPercentInText(d: Dose)
    requires Writable(d)
    ensures '%' !in DoseText(d)
  {
    var s := DoseText(d);
    UnitsAreLetters(d.unit);
    forall m | 0 <= m < |s| ensures s[m] != '%' {
      if m < |d.amount| {
        assert s[m] == d.amount[m];
      } else if m < |d.amount| + |d.unit| {
        assert s[m] == d.unit[m - |d.amount|];
      } else if m > |d.amount| + |d.unit| {
        assert s[m] == d.substance[m - |d.amount| - |d.unit| - 1];
      }
    }
  }

  // ---------------------------------------------------------------- events

  /** `"volume" if "l" in unit else "weight"`. */
  function KindOf(unit: string): (k: string)
    ensures k == "volume" <==> 'l' in unit
    ensures k == "weight" <==> 'l' !in unit
  {
    if 'l' in unit then "volume" else "weight"
  }

  /** A JSON list of strings, as the scripts build for tags and timestamps. */
  function StrList(tags: seq<string>): (v: Value)
    ensures v.VList? && |v.items| == |tags| && forall k :: 0 <= k < |tags| ==> v.items[k] == VStr(tags[k])
  {
    VList(seq(|tags|, k requires 0 <= k < |tags| => VStr(tags[k])))
  }

  /** A list of strings holds no datetime. */
  lemma StrListPlain(xs: seq<string>)
    ensures WellFormed(StrList(xs)) && DateTimeFree(StrList(xs))
  {
  }

  /** The dict handed to `ZenobaseEvent`. */
  function DoseData(stamp: Value, tags: seq<string>, amount: string, kind: string, unit: string): map<string, Value> {
    map["timestamp" := stamp, "tag" := StrList(tags),
        kind := VDict(map["@value" := VNum(amount), "unit" := VStr(unit)])]
  }

  /** The record with the percentage set when there is one. */
  function WithPercent(e: Event, percent: Option<string>): Event {
    if percent.Some? then e["percentage" := VStr(percent.value)] else e
  }

  /** The fields of a dose record: the stamp, the tags, the amount and unit
      under the kind, and the percentage when there is one. */
  lemma DoseDataShape(stamp: Value, tags: seq<string>, amount: string, kind: string, unit: string, percent: Option<string>)
    requires kind in {"volume", "weight"}
    ensures var e := WithPercent(DoseData(stamp, tags, amount, kind, unit), percent);
            && e.Keys == {"timestamp", "tag", kind} + (if percent.Some? then {"percentage"} else {})
            && e["timestamp"] == stamp && e["tag"] == StrList(tags)
            && e[kind] == VDict(map["@value" := VNum(amount), "unit" := VStr(unit)])
            && (percent.Some? ==> e["percentage"] == VStr(percent.value))
  {
    assert kind != "percentage" && kind != "timestamp" && kind != "tag";
  }

  /** The unit `clean_data` leaves in a field of the given kind. */
  function CleanedUnit(kind: string, unit: string): string {
    if kind == "volume" then ReplaceChar(unit, 'l', 'L')
    else if unit in MicrogramAliases then Microgram
    else unit
  }

  lemma DoseDataWellFormed(stamp: Value, tags: seq<string>, amount: string, kind: string, unit: string)
    requires WellFormed(stamp) && kind in {"volume", "weight"}
    ensures var data := DoseData(stamp, tags, amount, kind, unit);
            && data.Keys <= ValidFields
            && forall k :: k in data ==> WellFormed(data[k])
  {
    assert WellFormed(StrList(tags));
  }

  /** Construction of a dose dict rewrites the field of its kind and keeps
      the rest. */
  lemma DoseDataConstruction(stamp: Value, tags: seq<string>, amount: string, kind: string, unit: string, zone: int)
    requires ValidOffset(zone) && WellFormed(stamp) && DateTimeFree(stamp) && kind in {"volume", "weight"}
    ensures var data := DoseData(stamp, tags, amount, kind, unit);
            var f := VDict(map["@value" := VNum(amount), "unit" := VStr(unit)]);
            && NormalizeVolume(f).Ok? && NormalizeWeight(f).Ok?
            && MakeEvent(data, zone)
               == Ok(data[kind := if kind == "volume" then NormalizeVolume(f).value else NormalizeWeight(f).value])
  {
    DoseDataWellFormed(stamp, tags, amount, kind, unit);
    var data := DoseData(stamp, tags, amount, kind, unit);
    if kind == "volume" {
      MakeEventVolumeOnly(data, zone);
    } else {
      MakeEventWeightOnly(data, zone);
    }
  }

  /** The unit field after normalisation is the one `CleanedUnit` names. */
  lemma UnitNormalized(amount: string, kind: string, unit: string)
    requires kind in {"volume", "weight"}
    ensures var f := VDict(map["@value" := VNum(amount), "unit" := VStr(unit)]);
            var g := VDict(map["@value" := VNum(amount), "unit" := VStr(CleanedUnit(kind, unit))]);
            (if kind == "volume" then NormalizeVolume(f) else NormalizeWeight(f)) == Ok(g)
  {
    var f := map["@value" := VNum(amount), "unit" := VStr(unit)];
    var g := map["@value" := VNum(amount), "unit" := VStr(CleanedUnit(kind, unit))];
    if kind == "volume" {
      assert f["unit" := VStr(ReplaceChar(unit, 'l', 'L'))] == g;
    } else if unit in MicrogramAliases {
      assert f["unit" := VStr(Microgram)] == g;
    } else {
      assert f["unit"] != VStr(MicrogramAliases[0]) && f["unit"] != VStr(MicrogramAliases[1]);
      assert f == g;
    }
  }

  /** `ZenobaseEvent({"timestamp": stamp, "tag": tags, kind: {...}})` for a
      datetime-free stamp: construction cannot fail, keeps the stamp and the
      tags, and only rewrites the unit as `CleanedUnit` says. */
  lemma DoseDataBuilds(stamp: Value, tags: seq<string>, amount: string, kind: string, unit: string, zone: int)
    requires ValidOffset(zone) && WellFormed(stamp) && DateTimeFree(stamp) && kind in {"volume", "weight"}
    ensures MakeEvent(DoseData(stamp, tags, amount, kind, unit), zone)
            == Ok(DoseData(stamp, tags, amount, kind, CleanedUnit(kind, unit)))
  {
    var data := DoseData(stamp, tags, amount, kind, unit);
    var f := VDict(map["@value" := VNum(amount), "unit" := VStr(unit)]);
    var g := VDict(map["@value" := VNum(amount), "unit" := VStr(CleanedUnit(kind, unit))]);
    assert (forall k :: k in data ==> WellFormed(data[k])) && MakeEvent(data, zone) == Ok(data[kind := g]) by {
      DoseDataWellFormed(stamp, tags, amount, kind, unit);
      DoseDataConstruction(stamp, tags, amount, kind, unit, zone);
      UnitNormalized(amount, kind, unit);
    }
    DoseDataUnitSet(stamp, tags, amount, kind, unit, CleanedUnit(kind, unit));
  }

  /** Setting the field of the kind to another unit gives the dict of that unit. */
  lemma DoseDataUnitSet(stamp: Value, tags: seq<string>, amount: string, kind: string, unit: string, unit': string)
    requires kind in {"volume", "weight"}
    ensures DoseData(stamp, tags, amount, kind, unit)[kind := VDict(map["@value" := VNum(amount), "unit" := VStr(unit')])]
            == DoseData(stamp, tags, amount, kind, unit')
  {
  }


  /** The unit Zenobase receives for each recognised unit: micrograms as
      "ug" and litres with a capital `L`. */
  function ZenobaseUnit(u: string): string {
    if u == "mcg" then "ug"
    else if u == "ml" then "mL"
    else if u == "cl" then "cL"
    else if u == "dl" then "dL"
    else if u == "l" then "L"
    else u
  }

  /** The timestamped script hands the unit over as found; construction
      then gives the Zenobase spelling. */
  lemma FoundUnitCleaned(u: string)
    requires u in Units
    ensures CleanedUnit(KindOf(u), u) == ZenobaseUnit(u)
  {
    if 'l' in u {
      assert u == "ml" || u == "cl" || u == "dl" || u == "l";
      assert ReplaceChar(u, 'l', 'L') == ZenobaseUnit(u);
    } else if u == "mcg" {
      assert u == MicrogramAliases[0];
    } else {
      assert u == "ug" || u == "mg" || u == "g";
      assert u != MicrogramAliases[0] && u != MicrogramAliases[1];
    }
  }
}

=== FILE: text.dfy ===
/** String helpers with the semantics of the Python built-ins the source uses:
    `str.replace` of one character, `str.split(sep)`, `str.strip()`, the `in`
    substring test, `str(int)` and fixed-width zero padding. */
module Text {

  predicate IsDigit(c: char) {
    '0' <= c <= '9'
  }

  predicate AllDigits(s: string) {
    forall i :: 0 <= i < |s| ==> IsDigit(s[i])
  }

  function DigitValue(c: char): nat
    requires IsDigit(c)
  {
    (c as int - '0' as int) as nat
  }

  function DigitChar(d: nat): (c: char)
    requires d < 10
    ensures IsDigit(c) && DigitValue(c) == d
  {
    "0123456789"[d]
  }

  /** Number of occurrences of `c` in `s`. */
  function Count(s: string, c: char): nat
  {
    if |s| == 0 then 0 else (if s[0] == c then 1 else 0) + Count(s[1..], c)
  }

  lemma {:induction false} CountZero(s: string, c: char)
    ensures Count(s, c) == 0 <==> c !in s
  {
    if |s| > 0 {
      CountZero(s[1..], c);
      assert s == [s[0]] + s[1..];
    }
  }

  /** `s.replace(a, b)` for single characters. */
  function ReplaceChar(s: string, a: char, b: char): (r: string)
    ensures |r| == |s|
    ensures forall i :: 0 <= i < |s| ==> r[i] == (if s[i] == a then b else s[i])
  {
    if |s| == 0 then "" else [if s[0] == a then b else s[0]] + ReplaceChar(s[1..], a, b)
  }

  lemma ReplaceCharRemoves(s: string, a: char, b: char)
    requires a != b
    ensures a !in ReplaceChar(s, a, b)
  {
  }

  lemma ReplaceCharIdempotent(s: string, a: char, b: char)
    ensures ReplaceChar(ReplaceChar(s, a, b), a, b) == ReplaceChar(s, a, b)
  {
  }

  /** Concatenation of `parts` with `sep` between neighbours; the inverse of Split. */
  function Join(parts: seq<string>, sep: char): string
    requires |parts| >= 1
  {
    if |parts| == 1 then parts[0] else parts[0] + [sep] + Join(parts[1..], sep)
  }

  /** `s.split(sep)`: the pieces between occurrences of `sep`, one more than
      the number of separators, empty pieces included. */
  function Split(s: string, sep: char): (parts: seq<string>)
    ensures |parts| == Count(s, sep) + 1
    ensures forall i :: 0 <= i < |parts| ==> sep !in parts[i]
    ensures Join(parts, sep) == s
  {
    if |s| == 0 then [""]
    else
      var rest := Split(s[1..], sep);
      if s[0] == sep then
        assert Join([""] + rest, sep) == "" + [sep] + Join(rest, sep);
        [""] + rest
      else
        var parts := [[s[0]] + rest[0]] + rest[1..];
        assert sep !in parts[0];
        assert Join(parts, sep) == s by {
          if |rest| == 1 {
          } else {
            assert parts[1..] == rest[1..];
          }
        }
        parts
  }

  /** Splitting a text with no separator gives the text back as one piece. */
  lemma {:induction false} SplitNoSeparator(a: string, sep: char)
    requires sep !in a
    ensures Split(a, sep) == [a]
  {
    if |a| > 0 {
      SplitNoSeparator(a[1..], sep);
      assert [a[0]] + a[1..] == a;
    }
  }

  /** A piece free of the separator, then the separator, splits off as the
      first piece. */
  lemma {:induction false} SplitFirstPiece(a: string, sep: char, rest: string)
    requires sep !in a
    ensures Split(a + [sep] + rest, sep) == [a] + Split(rest, sep)
  {
    var s := a + [sep] + rest;
    if |a| == 0 {
      assert s[1..] == rest;
    } else {
      assert s[1..] == a[1..] + [sep] + rest;
      SplitFirstPiece(a[1..], sep, rest);
      var r := Split(s[1..], sep);
      assert r[0] == a[1..] && r[1..] == Split(rest, sep);
      assert Split(s, sep) == [[s[0]] + r[0]] + r[1..];
      assert [s[0]] + r[0] == a;
    }
  }

  /** Split undoes Join when no piece holds the separator. */
  lemma {:induction false} SplitJoin(parts: seq<string>, sep: char)
    requires |parts| >= 1
    requires forall i :: 0 <= i < |parts| ==> sep !in parts[i]
    ensures Split(Join(parts, sep), sep) == parts
  {
    if |parts| == 1 {
      SplitNoSeparator(parts[0], sep);
    } else {
      SplitJoin(parts[1..], sep);
      SplitFirstPiece(parts[0], sep, Join(parts[1..], sep));
      assert [parts[0]] + parts[1..] == parts;
    }
  }

  /** Python's `str.isspace` for one character. */
  predicate IsSpace(c: char) {
    c in {' ', '\t', '\n', '\r', '\U{000B}', '\U{000C}', '\U{001C}', '\U{001D}', '\U{001E}',
          '\U{001F}', '\U{0085}', '\U{00A0}', '\U{1680}', '\U{2000}', '\U{2001}', '\U{2002}',
          '\U{2003}', '\U{2004}', '\U{2005}', '\U{2006}', '\U{2007}', '\U{2008}', '\U{2009}',
          '\U{200A}', '\U{2028}', '\U{2029}', '\U{202F}', '\U{205F}', '\U{3000}'}
  }

  function TrimStart(s: string): (r: string)
    ensures |r| <= |s| && r == s[|s| - |r|..]
    ensures forall i :: 0 <= i < |s| - |r| ==> IsSpace(s[i])
    ensures r == "" || !IsSpace(r[0])
  {
    if |s| > 0 && IsSpace(s[0]) then TrimStart(s[1..]) else s
  }

  function TrimEnd(s: string): (r: string)
    ensures |r| <= |s| && r == s[..|r|]
    ensures forall i :: |r| <= i < |s| ==> IsSpace(s[i])
    ensures r == "" || !IsSpace(r[|r| - 1])
  {
    if |s| > 0 && IsSpace(s[|s| - 1]) then TrimEnd(s[..|s| - 1]) else s
  }

  /** Number of whitespace characters `s.strip()` removes at the front. */
  function StripStart(s: string): nat
  {
    |s| - |TrimStart(s)|
  }

  /** `s.strip()`: `s` is `r` with only whitespace added on either side, and
      `r` neither starts nor ends with whitespace. */
  function Strip(s: string): (r: string)
    ensures r == "" || (!IsSpace(r[0]) && !IsSpace(r[|r| - 1]))
    ensures StripStart(s) + |r| <= |s| && s[StripStart(s)..StripStart(s) + |r|] == r
    ensures forall i :: 0 <= i < StripStart(s) ==> IsSpace(s[i])
    ensures forall i :: StripStart(s) + |r| <= i < |s| ==> IsSpace(s[i])
  {
    var t := TrimStart(s);
    var r := TrimEnd(t);
    var a := |s| - |t|;
    assert s[a..a + |r|] == r;
    r
  }

  predicate IsPrefix(p: string, s: string) {
    |p| <= |s| && s[..|p|] == p
  }

  /** `sub` occurs in `s` starting at index `i`. */
  predicate OccursAt(s: string, sub: string, i: int) {
    0 <= i <= |s| - |sub| && s[i..i + |sub|] == sub
  }

  /** Python's `sub in s`. */
  predicate Contains(s: string, sub: string)
    ensures Contains(s, sub) <==> exists i :: OccursAt(s, sub, i)
  {
    if IsPrefix(sub, s) then
      assert OccursAt(s, sub, 0);
      true
    else if |s| == 0 then
      false
    else
      OccursInTail(s, sub);
      Contains(s[1..], sub)
  }

  lemma OccursInTail(s: string, sub: string)
    requires |s| > 0 && !IsPrefix(sub, s)
    ensures (exists i :: OccursAt(s, sub, i)) <==> (exists j :: OccursAt(s[1..], sub, j))
  {
    var tail := s[1..];
    if i :| OccursAt(s, sub, i) {
      assert i != 0;
      assert s[i..i + |sub|] == tail[i - 1..i - 1 + |sub|];
      assert OccursAt(tail, sub, i - 1);
    }
    if j :| OccursAt(tail, sub, j) {
      assert s[j + 1..j + 1 + |sub|] == tail[j..j + |sub|];
      assert OccursAt(s, sub, j + 1);
    }
  }

  /** Value of a string of decimal digits, most significant first. */
  function DigitsValue(s: string): nat
    requires AllDigits(s)
  {
    if |s| == 0 then 0 else DigitsValue(s[..|s| - 1]) * 10 + DigitValue(s[|s| - 1])
  }

  function Pow10(n: nat): nat
    ensures Pow10(n) >= 1
  {
    if n == 0 then 1 else 10 * Pow10(n - 1)
  }

  /** The `width` least significant decimal digits of `n`, zero-padded on the
      left, as strftime prints `%m`, `%H` or `%Y`. */
  function ZeroPad(n: nat, width: nat): (r: string)
    requires n < Pow10(width)
    ensures |r| == width && AllDigits(r)
    ensures DigitsValue(r) == n
  {
    if width == 0 then ""
    else
      var r := ZeroPad(n / 10, width - 1) + [DigitChar(n % 10)];
      assert r[..|r| - 1] == ZeroPad(n / 10, width - 1);
      r
  }

  /** `str(n)` for a natural number: no leading zeros. */
  function NatToString(n: nat): (r: string)
    ensures |r| >= 1 && AllDigits(r)
    ensures DigitsValue(r) == n
    ensures |r| > 1 ==> r[0] != '0'
  {
    if n < 10 then [DigitChar(n)]
    else
      var r := NatToString(n / 10) + [DigitChar(n % 10)];
      assert r[..|r| - 1] == NatToString(n / 10);
      r
  }

  /** `str(i)` for a Python int: an optional minus sign, then the digits. */
  function IntToString(i: int): (r: string)
    ensures i >= 0 ==> r == NatToString(i)
    ensures i < 0 ==> r == "-" + NatToString(-i)
  {
    if i < 0 then "-" + NatToString(-i) else NatToString(i)
  }
}

=== FILE: time_format.dfy ===
/** The two timestamp formatters of the package.

    `fmt_datetime` (pyzenobase/util.py) prints `YYYY-MM-DDTHH:MM:SS.000±HHMM`
    after localising a naive value into the zone, or converting an aware value
    into it. The zone is a fixed UTC offset in minutes, passed in by the caller.

    `dt_to_timestamp` (pyzenobase/main.py) prints the wall-clock fields, the
    literal `.000` and then whatever offset text the caller supplies.

    `ParseStamp` reads the printed layout back; the lemmas below use it to
    state what the printed text means. */
module TimeFormat {
  import opened Results
  import opened Text
  import opened Calendar

  const Millis := ".000"

  /** `strftime("%Y-%m-%dT%H:%M:%S")`: the 19 wall-clock characters. */
  function WallText(d: Date, c: Clock): (r: string)
    requires d.Valid() && c.Valid()
    ensures |r| == 19
  {
    ZeroPad(d.year, 4) + "-" + ZeroPad(d.month, 2) + "-" + ZeroPad(d.day, 2) + "T"
    + ZeroPad(c.hour, 2) + ":" + ZeroPad(c.minute, 2) + ":" + ZeroPad(c.second, 2)
  }

  function Abs(x: int): nat {
    if x < 0 then -x else x
  }

  /** `strftime("%z")` of a whole-minute offset: a sign, then hours and minutes. */
  function OffsetText(o: int): (r: string)
    requires ValidOffset(o)
    ensures |r| == 5
  {
    (if o < 0 then "-" else "+") + ZeroPad(Abs(o) / 60, 2) + ZeroPad(Abs(o) % 60, 2)
  }

  /** The layout of `fmt_datetime`: wall clock, `.000`, numeric offset. */
  function Stamp(d: Date, c: Clock, o: int): (r: string)
    requires d.Valid() && c.Valid() && ValidOffset(o)
    ensures |r| == 28
  {
    WallText(d, c) + Millis + OffsetText(o)
  }

  /** `fmt_datetime(dt, zone)`: a naive value is localised (its wall clock is
      kept and the zone's offset printed); an aware value is converted to the
      zone first, which fails (Python's OverflowError) only next to the ends of
      the calendar. */
  function FmtDateTime(dt: DateTime, zone: int): (r: Option<string>)
    requires dt.Valid() && ValidOffset(zone)
    ensures dt.offset.None? ==> r.Some?
    ensures r.None? ==> Ordinal(dt.date) <= Ordinal(FirstDate) + 1 || Ordinal(dt.date) >= Ordinal(LastDate) - 1
    ensures r.Some? ==> |r.value| == 28 && r.value[19..23] == Millis
  {
    if dt.offset.None? then Some(Stamp(dt.date, dt.clock, zone))
    else
      match ToZone(dt, zone)
      case None => None
      case Some(local) => Some(Stamp(local.date, local.clock, zone))
  }

  /** `fmt_datetime` of a naive value, which never fails. */
  function FmtNaive(dt: DateTime, zone: int): (r: string)
    requires dt.Valid() && dt.offset.None? && ValidOffset(zone)
    ensures Some(r) == FmtDateTime(dt, zone)
  {
    Stamp(dt.date, dt.clock, zone)
  }

  /** `dt_to_timestamp(dt, timezone)`: the wall clock of `dt` (whether naive or
      aware), `.000`, then `timezone` verbatim. */
  function DtToTimestamp(dt: DateTime, timezone: string): (r: string)
    requires dt.Valid()
    ensures |r| == 23 + |timezone|
    ensures r[19..23] == Millis && r[23..] == timezone
    ensures ParseWall(r[..19]) == Some((dt.date, Clock(dt.clock.hour, dt.clock.minute, dt.clock.second, 0)))
  {
    var w := WallText(dt.date, dt.clock);
    var r := w + Millis + timezone;
    assert r[..19] == w;
    ParseWallText(dt.date, dt.clock);
    r
  }

  /** The default `timezone` argument of `dt_to_timestamp`. */
  const DefaultTimestampZone := "+00:00"

  /** Reads a fixed-width field of decimal digits. */
  function Field(s: string): Option<nat> {
    if AllDigits(s) then Some(DigitsValue(s)) else None
  }

  /** Reads the 19 characters `YYYY-MM-DDTHH:MM:SS` back into fields. */
  function ParseWall(s: string): Option<(Date, Clock)> {
    if |s| != 19 || s[4] != '-' || s[7] != '-' || s[10] != 'T' || s[13] != ':' || s[16] != ':' then None
    else
      match (Field(s[0..4]), Field(s[5..7]), Field(s[8..10]), Field(s[11..13]), Field(s[14..16]), Field(s[17..19]))
      case (Some(y), Some(mo), Some(d), Some(h), Some(mi), Some(sec)) =>
        Some((Date(y, mo, d), Clock(h, mi, sec, 0)))
      case _ => None
  }

  /** What a printed timestamp says: its wall clock (to the second) and offset. */
  datatype Printed = Printed(date: Date, clock: Clock, offset: int)

  /** Reads the 28-character layout of `fmt_datetime` back. */
  function ParseStamp(s: string): Option<Printed> {
    if |s| != 28 || s[19..23] != Millis || (s[23] != '+' && s[23] != '-') then None
    else
      match (ParseWall(s[..19]), Field(s[24..26]), Field(s[26..28]))
      case (Some(w), Some(hh), Some(mm)) =>
        var magnitude: int := hh * 60 + mm;
        Some(Printed(w.0, w.1, if s[23] == '-' then -magnitude else magnitude))
      case _ => None
  }

  /** Where the six fields sit in the 19 wall-clock characters. */
  lemma WallSlices(y: string, mo: string, d: string, h: string, mi: string, sec: string)
    requires |y| == 4 && |mo| == 2 && |d| == 2 && |h| == 2 && |mi| == 2 && |sec| == 2
    ensures var s := y + "-" + mo + "-" + d + "T" + h + ":" + mi + ":" + sec;
            && |s| == 19 && s[4] == '-' && s[7] == '-' && s[10] == 'T' && s[13] == ':' && s[16] == ':'
            && s[0..4] == y && s[5..7] == mo && s[8..10] == d && s[11..13] == h && s[14..16] == mi && s[17..19] == sec
  {
    var s := y + "-" + mo + "-" + d + "T" + h + ":" + mi + ":" + sec;
    assert s[0..4] == y;
    assert s[5..7] == mo;
    assert s[8..10] == d;
    assert s[11..13] == h;
    assert s[14..16] == mi;
    assert s[17..19] == sec;
  }

  /** The wall-clock text reads back as the date and the clock to the second. */
  lemma ParseWallText(d: Date, c: Clock)
    requires d.Valid() && c.Valid()
    ensures ParseWall(WallText(d, c)) == Some((d, Clock(c.hour, c.minute, c.second, 0)))
  {
    WallSlices(ZeroPad(d.year, 4), ZeroPad(d.month, 2), ZeroPad(d.day, 2),
               ZeroPad(c.hour, 2), ZeroPad(c.minute, 2), ZeroPad(c.second, 2));
  }

  lemma OffsetTextParts(o: int)
    requires ValidOffset(o)
    ensures var t := OffsetText(o);
            && t[0] == (if o < 0 then '-' else '+')
            && Field(t[1..3]) == Some(Abs(o) / 60)
            && Field(t[3..5]) == Some(Abs(o) % 60)
  {
    var t := OffsetText(o);
    assert t[1..3] == ZeroPad(Abs(o) / 60, 2);
    assert t[3..5] == ZeroPad(Abs(o) % 60, 2);
  }

  /** Reading any text laid out as a wall clock, `.000` and a signed offset. */
  lemma ParseStampParts(w: string, x: (Date, Clock), t: string, negative: bool, hh: nat, mm: nat)
    requires |w| == 19 && ParseWall(w) == Some(x)
    requires |t| == 5 && t[0] == (if negative then '-' else '+')
    requires Field(t[1..3]) == Some(hh) && Field(t[3..5]) == Some(mm)
    ensures ParseStamp(w + Millis + t) == Some(Printed(x.0, x.1, if negative then -(hh * 60 + mm) else hh * 60 + mm))
  {
    var s := w + Millis + t;
    assert s[..19] == w;
    assert s[19..23] == Millis;
    assert s[24..26] == t[1..3];
    assert s[26..28] == t[3..5];
  }

  /** Hours and minutes of an offset put back together give the offset. */
  lemma OffsetParts(o: int)
    requires ValidOffset(o)
    ensures var m: int := (Abs(o) / 60) * 60 + Abs(o) % 60; (if o < 0 then -m else m) == o
  {
  }

  /** Reading the layout back gives exactly the wall clock and offset printed. */
  lemma ParseStampRoundTrip(d: Date, c: Clock, o: int)
    requires d.Valid() && c.Valid() && ValidOffset(o)
    ensures ParseStamp(Stamp(d, c, o)) == Some(Printed(d, Clock(c.hour, c.minute, c.second, 0), o))
  {
    var w, t, x := WallText(d, c), OffsetText(o), (d, Clock(c.hour, c.minute, c.second, 0));
    var hh, mm := Abs(o) / 60, Abs(o) % 60;
    assert ParseWall(w) == Some(x) by {
      ParseWallText(d, c);
    }
    assert t[0] == (if o < 0 then '-' else '+') && Field(t[1..3]) == Some(hh) && Field(t[3..5]) == Some(mm) by {
      OffsetTextParts(o);
    }
    assert (if o < 0 then -(hh * 60 + mm) else hh * 60 + mm) == o by {
      OffsetParts(o);
    }
    ParseStampParts(w, x, t, o < 0, hh, mm);
  }

  /** A naive value keeps its wall-clock fields and gets the zone's offset. */
  lemma FmtNaiveMeaning(dt: DateTime, zone: int)
    requires dt.Valid() && dt.offset.None? && ValidOffset(zone)
    ensures ParseStamp(FmtNaive(dt, zone))
            == Some(Printed(dt.date, Clock(dt.clock.hour, dt.clock.minute, dt.clock.second, 0), zone))
  {
    ParseStampRoundTrip(dt.date, dt.clock, zone);
  }

  /** An aware value is printed in the zone: the printed wall clock minus the
      printed offset is the instant the input denotes, to the second. */
  lemma FmtAwareMeaning(dt: DateTime, zone: int)
    requires dt.Valid() && dt.offset.Some? && ValidOffset(zone)
    requires FmtDateTime(dt, zone).Some?
    ensures var p := ParseStamp(FmtDateTime(dt, zone).value);
            && p.Some? && p.value.offset == zone && p.value.date.Valid()
            && WallMinutes(p.value.date, p.value.clock) - p.value.offset == UtcMinutes(dt)
            && p.value.clock.second == dt.clock.second
  {
    var local := ToZone(dt, zone).value;
    ParseStampRoundTrip(local.date, local.clock, zone);
  }

  /** The printed layout has no sub-second field. */
  lemma StampIgnoresMicroseconds(d: Date, c: Clock, o: int, micro: int)
    requires d.Valid() && c.Valid() && ValidOffset(o) && 0 <= micro < 1000000
    ensures Stamp(d, c.(microsecond := micro), o) == Stamp(d, c, o)
  {
    assert WallText(d, c.(microsecond := micro)) == WallText(d, c);
  }

  /** Converting between zones carries the sub-second part along untouched. */
  lemma ToZoneIgnoresMicroseconds(dt: DateTime, zone: int, micro: int)
    requires dt.Valid() && dt.offset.Some? && ValidOffset(zone) && 0 <= micro < 1000000
    ensures var r, r' := ToZone(dt, zone), ToZone(dt.(clock := dt.clock.(microsecond := micro)), zone);
            && (r.None? <==> r'.None?)
            && (r.Some? ==> r'.value == r.value.(clock := r.value.clock.(microsecond := micro)))
  {
    var o := dt.offset.value;
    var dt' := dt.(clock := dt.clock.(microsecond := micro));
    AddMinutesKeepsMicroseconds(dt.date, dt.clock, -o, micro);
    var u, u' := AddMinutes(dt.date, dt.clock, -o), AddMinutes(dt'.date, dt'.clock, -o);
    if u.Some? {
      var utc := u.value;
      assert u'.value == (utc.0, utc.1.(microsecond := micro));
      AddMinutesKeepsMicroseconds(utc.0, utc.1, zone, micro);
      var l, l' := AddMinutes(utc.0, utc.1, zone), AddMinutes(u'.value.0, u'.value.1, zone);
      if l.Some? {
        assert ToZone(dt, zone) == Some(DateTime(l.value.0, l.value.1, Some(zone)));
        assert ToZone(dt', zone) == Some(DateTime(l'.value.0, l'.value.1, Some(zone)));
      }
    }
  }

  /** The millisecond field is always `.000`: sub-second input never shows. */
  lemma FmtIgnoresMicroseconds(dt: DateTime, zone: int, micro: int)
    requires dt.Valid() && ValidOffset(zone) && 0 <= micro < 1000000
    ensures var dt' := dt.(clock := dt.clock.(microsecond := micro));
            FmtDateTime(dt', zone) == FmtDateTime(dt, zone)
  {
    if dt.offset.None? {
      StampIgnoresMicroseconds(dt.date, dt.clock, zone, micro);
    } else {
      ToZoneIgnoresMicroseconds(dt, zone, micro);
      var l := ToZone(dt, zone);
      if l.Some? {
        StampIgnoresMicroseconds(l.value.date, l.value.clock, zone, micro);
      }
    }
  }
}

=== FILE: timestamped_supps.dfy ===
/** `create_timestamped_supps` of the upload script. The sheet holds pairs
    of columns (time, data) starting at column 1; row `j + 1` belongs to the
    `j`-th date the first column yields. A time cell may hold several times
    and may start with `~` (approximate); a data cell holds doses joined by
    `+`, each optionally starting with `~` (approximate) or `?` (unknown,
    every `?` read as `0`).

    Every piece of a row with a time either becomes one event or counts one
    parse error; a time cell with no readable time counts one more and the
    row is stamped at midnight. An empty piece, a piece without a second
    word, or a row shorter than the column pair raises an IndexError that
    ends the whole run: `IndexOutOfRange`. The upload of the events is the
    client's `create_events` and is not repeated here. */
module TimestampedSupps {
  import opened Results
  import opened Text
  import opened Calendar
  import opened Values
  import opened TimeFormat
  import opened Event
  import opened Patterns
  import opened Strptime
  import opened Sheet
  import opened Supplements

  // ---------------------------------------------------------------- times

  /** `strptime(x, "%H:%M").time()` of every match, None when one raises. */
  function ParseClocks(found: seq<string>): (r: Option<seq<Clock>>)
    ensures r.None? <==> exists k :: 0 <= k < |found| && ParseHourMinute(found[k]).None?
    ensures r.Some? ==> |r.value| == |found|
    ensures r.Some? ==> forall k :: 0 <= k < |found| ==> ParseHourMinute(found[k]) == Some(r.value[k])
  {
    if |found| == 0 then Some([])
    else
      assert forall k :: 1 <= k < |found| ==> found[k] == found[1..][k - 1];
      match ParseHourMinute(found[0])
      case None => None
      case Some(c) =>
        match ParseClocks(found[1..])
        case None => None
        case Some(cs) => Some([c] + cs)
  }

  /** What a time cell says: its times, whether none could be read, and
      whether it is marked approximate. */
  datatype CellTimes = CellTimes(clocks: seq<Clock>, unknown: bool, approximate: bool)

  /** Lines 212-227 for a non-empty time cell. */
  function ReadTimes(cell: string): (r: CellTimes)
    requires cell != ""
    ensures r.approximate <==> cell[0] == '~'
    ensures r.unknown <==> FindTimes(cell) == [] || ParseClocks(FindTimes(cell)).None?
    ensures r.unknown ==> r.clocks == [Midnight]
    ensures !r.unknown ==> ParseClocks(FindTimes(cell)) == Some(r.clocks)
    ensures |r.clocks| >= 1
    ensures forall k :: 0 <= k < |r.clocks| ==> r.clocks[k].Valid() && r.clocks[k].second == 0 && r.clocks[k].microsecond == 0
  {
    var found := FindTimes(cell);
    match ParseClocks(found)
    case Some(cs) =>
      if |cs| >= 1 then CellTimes(cs, false, cell[0] == '~')
      else CellTimes([Midnight], true, cell[0] == '~')
    case None => CellTimes([Midnight], true, cell[0] == '~')
  }

  /** `HH:MM`, the way a time is written in the sheet. */
  function HourMinuteText(c: Clock): string
    requires c.Valid()
  {
    ZeroPad(c.hour, 2) + ":" + ZeroPad(c.minute, 2)
  }

  /** A five-character `HH:MM` is found whole. */
  lemma FindsHourMinute(s: string, at: nat)
    requires at + 5 == |s| && forall k :: at <= k < |s| && k != at + 2 ==> IsDigit(s[k])
    requires s[at + 2] == ':'
    ensures FindTimesFrom(s, at) == [s[at..]]
  {
    assert IsDigit(s[at]) && IsDigit(s[at + 1]) && IsDigit(s[at + 3]) && IsDigit(s[at + 4]);
    assert TimeAt(s, at) == Some(5);
    assert FindTimesFrom(s, at + 5) == [];
    assert s[at..at + 5] == s[at..];
  }

  /** A single match parses to its one time. */
  lemma ParseClocksOne(t: string, c: Clock)
    requires ParseHourMinute(t) == Some(c)
    ensures ParseClocks([t]) == Some([c])
  {
    var one: seq<string> := [t];
    var none: seq<Clock> := [];
    assert one[1..] == [];
    assert ParseClocks(one[1..]) == Some(none);
    assert [c] + none == [c];
  }

  /** A written `HH:MM` is the one time found in its cell, with or without
      a leading `~`, and parses back to the clock. */
  lemma HourMinuteFound(c: Clock)
    requires c.Valid() && c.second == 0 && c.microsecond == 0
    ensures var t := HourMinuteText(c);
            && FindTimes(t) == [t] && FindTimes("~" + t) == [t] && ParseHourMinute(t) == Some(c)
  {
    var t := HourMinuteText(c);
    ClockRoundTrip(c);
    FindsHourMinute(t, 0);
    assert t[0..] == t;
    var a := "~" + t;
    FindsHourMinute(a, 1);
    assert a[1..] == t;
    assert TimeAt(a, 0).None?;
    assert FindTimesFrom(a, 0) == FindTimesFrom(a, 1);
  }

  /** A written time reads back as that time, approximate when marked. */
  lemma ReadTimesRoundTrip(c: Clock)
    requires c.Valid() && c.second == 0 && c.microsecond == 0
    ensures ReadTimes(HourMinuteText(c)) == CellTimes([c], false, false)
    ensures ReadTimes("~" + HourMinuteText(c)) == CellTimes([c], false, true)
  {
    var t := HourMinuteText(c);
    assert FindTimes(t) == [t] && FindTimes("~" + t) == [t] && ParseClocks([t]) == Some([c]) by {
      HourMinuteFound(c);
      ParseClocksOne(t, c);
    }
  }

  // ---------------------------------------------------------------- markers

  /** A piece with its dose marker taken off. */
  datatype Marked = Marked(text: string, unknownDose: bool, approximateDose: bool)

  /** Lines 243-248: a leading `~` is dropped; with a leading `?` every `?`
      becomes `0`. Reading `piece[0]` of an empty piece raises, so the caller
      rules that out. */
  function ReadMarker(piece: string): (r: Marked)
    requires piece != ""
    ensures r.approximateDose <==> piece[0] == '~'
    ensures r.unknownDose <==> piece[0] == '?'
    ensures r.approximateDose ==> r.text == piece[1..]
    ensures r.unknownDose ==> && |r.text| == |piece| && '?' !in r.text && r.text[0] == '0'
                              && forall k :: 0 <= k < |piece| ==> r.text[k] == (if piece[k] == '?' then '0' else piece[k])
    ensures !r.approximateDose && !r.unknownDose ==> r.text == piece
  {
    if piece[0] == '~' then Marked(piece[1..], false, true)
    else if piece[0] == '?' then
      ReplaceCharRemoves(piece, '?', '0');
      Marked(ReplaceChar(piece, '?', '0'), true, false)
    else Marked(piece, false, false)
  }

  // ---------------------------------------------------------------- tags

  /** The order lines 289-303 append the extra tags in. */
  const MarkerOrder: seq<string> := ["alcohol", "unknown_dose", "approximate_dose", "unknown_time", "approximate_time"]

  /** The entries of `order` whose flag is set, in the order they come. */
  function Keep(order: seq<string>, flags: seq<bool>): (r: seq<string>)
    requires |flags| == |order|
    ensures |r| <= |order|
    ensures forall t :: t in r ==> t in order
  {
    if |order| == 0 then []
    else (if flags[0] then [order[0]] else []) + Keep(order[1..], flags[1..])
  }

  /** `[tag]` when `b` holds, nothing otherwise. */
  function Opt(b: bool, tag: string): (r: seq<string>)
    ensures tag in r <==> b
    ensures forall t :: t in r ==> t == tag
  {
    if b then [tag] else []
  }

  /** The tags appended after construction: each present exactly when its
      condition holds, in the fixed order. */
  function MarkerTags(alcohol: bool, unknownDose: bool, approximateDose: bool, unknownTime: bool, approximateTime: bool)
    : (r: seq<string>)
    ensures "alcohol" in r <==> alcohol
    ensures "unknown_dose" in r <==> unknownDose
    ensures "approximate_dose" in r <==> approximateDose
    ensures "unknown_time" in r <==> unknownTime
    ensures "approximate_time" in r <==> approximateTime
  {
    Opt(alcohol, "alcohol") + (Opt(unknownDose, "unknown_dose") + (Opt(approximateDose, "approximate_dose")
    + (Opt(unknownTime, "unknown_time") + Opt(approximateTime, "approximate_time"))))
  }

  /** The extra tags are the marker tags whose condition holds, in the
      fixed order and nothing else. */
  lemma MarkerTagsInOrder(alcohol: bool, unknownDose: bool, approximateDose: bool, unknownTime: bool, approximateTime: bool)
    ensures MarkerTags(alcohol, unknownDose, approximateDose, unknownTime, approximateTime)
            == Keep(MarkerOrder, [alcohol, unknownDose, approximateDose, unknownTime, approximateTime])
  {
    KeepFive(MarkerOrder, [alcohol, unknownDose, approximateDose, unknownTime, approximateTime]);
  }

  /** Filtering five entries, spelled out. */
  lemma KeepFive(o: seq<string>, f: seq<bool>)
    requires |o| == |f| == 5
    ensures Keep(o, f) == Opt(f[0], o[0]) + (Opt(f[1], o[1]) + (Opt(f[2], o[2]) + (Opt(f[3], o[3]) + Opt(f[4], o[4]))))
  {
    var none: seq<string> := [];
    assert Keep(o[5..], f[5..]) == none;
    assert Keep(o[4..], f[4..]) == Opt(f[4], o[4]) + none == Opt(f[4], o[4]);
    assert Keep(o[3..], f[3..]) == Opt(f[3], o[3]) + Keep(o[4..], f[4..]);
    assert Keep(o[2..], f[2..]) == Opt(f[2], o[2]) + Keep(o[3..], f[3..]);
    assert Keep(o[1..], f[1..]) == Opt(f[1], o[1]) + Keep(o[2..], f[2..]);
    assert Keep(o, f) == Opt(f[0], o[0]) + Keep(o[1..], f[1..]);
  }

  // ---------------------------------------------------------------- events

  /** The event of one dose (lines 281-305): the record construction
      returns, then the percentage and the extra tags set on it. Construction
      keeps the tag list as it is, so appending to it afterwards is the same
      as building it whole; `SuppEventConstructed` shows the record is what
      construction returns. */
  function SuppEvent(stamp: Value, dose: Dose, roa: string, extra: seq<string>, zone: int): (e: Event)
    requires ValidOffset(zone) && WellFormed(stamp) && DateTimeFree(stamp) && dose.unit in Units
    ensures e.Keys == {"timestamp", "tag", KindOf(dose.unit)} + (if dose.percent.Some? then {"percentage"} else {})
    ensures e["timestamp"] == stamp
    ensures e["tag"] == StrList([dose.substance, roa, "timestamped"] + extra)
    ensures e[KindOf(dose.unit)] == VDict(map["@value" := VNum(dose.amount), "unit" := VStr(ZenobaseUnit(dose.unit))])
    ensures dose.percent.Some? ==> e["percentage"] == VStr(dose.percent.value)
  {
    var kind, tags := KindOf(dose.unit), [dose.substance, roa, "timestamped"] + extra;
    FoundUnitCleaned(dose.unit);
    DoseDataShape(stamp, tags, dose.amount, kind, ZenobaseUnit(dose.unit), dose.percent);
    WithPercent(DoseData(stamp, tags, dose.amount, kind, CleanedUnit(kind, dose.unit)), dose.percent)
  }

  /** `SuppEvent` is `ZenobaseEvent` of the dict the script builds, with the
      percentage set afterwards: construction succeeds and the unit is the
      only thing it rewrites. */
  lemma SuppEventConstructed(stamp: Value, dose: Dose, roa: string, extra: seq<string>, zone: int)
    requires ValidOffset(zone) && WellFormed(stamp) && DateTimeFree(stamp) && dose.unit in Units
    ensures var data := DoseData(stamp, [dose.substance, roa, "timestamped"] + extra, dose.amount, KindOf(dose.unit), dose.unit);
            && MakeEvent(data, zone).Ok?
            && WithPercent(MakeEvent(data, zone).value, dose.percent) == SuppEvent(stamp, dose, roa, extra, zone)
  {
    DoseDataBuilds(stamp, [dose.substance, roa, "timestamped"] + extra, dose.amount, KindOf(dose.unit), dose.unit, zone);
  }

  /** The events of some pieces, and the parse errors they counted. */
  datatype Tally = Tally(events: seq<Event>, errors: nat)

  /** Reading this piece raises: it is empty, or it reads but has no second word. */
  predicate PieceCrashes(piece: string) {
    piece == "" || ReadDose(ReadMarker(piece).text).NoSubstance?
  }

  /** A piece of a cell, read: empty (`piece[0]` raises), or its markers and
      the dose its remaining text reads as. */
  datatype PieceReading =
    | EmptyPiece
    | MarkedDose(marks: Marked, reading: DoseReading)

  /** Reading this piece raises. */
  predicate Raises(p: PieceReading) {
    p.EmptyPiece? || p.reading.NoSubstance?
  }

  /** A read piece whose dose, if there is one, has a unit of the unit pattern. */
  predicate KnownPiece(p: PieceReading) {
    p.MarkedDose? ==> UnitKnown(p.reading)
  }

  /** Every piece of a cell, read: the markers first, then the dose. */
  function ReadPieces(pieces: seq<string>): (r: seq<PieceReading>)
    ensures |r| == |pieces|
    ensures forall k :: 0 <= k < |pieces| ==> KnownPiece(r[k]) && (Raises(r[k]) <==> PieceCrashes(pieces[k]))
    ensures forall k :: 0 <= k < |pieces| && pieces[k] != "" ==>
              r[k] == MarkedDose(ReadMarker(pieces[k]), ReadDose(ReadMarker(pieces[k]).text))
  {
    seq(|pieces|, k requires 0 <= k < |pieces| =>
      if pieces[k] == "" then EmptyPiece else MarkedDose(ReadMarker(pieces[k]), ReadDose(ReadMarker(pieces[k]).text)))
  }

  /** The event of a piece that reads as a dose, with the tags its markers,
      its percentage and its row's times call for. */
  function MarkedEvent(marks: Marked, dose: Dose, stamp: Value, times: CellTimes, roa: string, zone: int): Event
    requires ValidOffset(zone) && WellFormed(stamp) && DateTimeFree(stamp) && dose.unit in Units
  {
    SuppEvent(stamp, dose, roa, MarkerTags(dose.percent.Some?, marks.unknownDose, marks.approximateDose,
                                           times.unknown, times.approximate), zone)
  }

  /** Lines 240-305 for one piece, once read. */
  function ReadingEvents(p: PieceReading, stamp: Value, times: CellTimes, roa: string, zone: int)
    : (r: Result<Tally, SheetError>)
    requires ValidOffset(zone) && WellFormed(stamp) && DateTimeFree(stamp) && KnownPiece(p)
    ensures r.Err? <==> Raises(p)
    ensures r.Err? ==> r.error == IndexOutOfRange
    ensures r.Ok? ==> |r.value.events| + r.value.errors == 1
    ensures r.Ok? ==> (r.value.errors == 1 <==> p.reading.Unreadable?)
    ensures r.Ok? && r.value.errors == 0 ==> r.value.events == [MarkedEvent(p.marks, p.reading.dose, stamp, times, roa, zone)]
  {
    match p
    case EmptyPiece => Err(IndexOutOfRange)
    case MarkedDose(marks, reading) =>
      match reading
      case Unreadable => Ok(Tally([], 1))
      case NoSubstance => Err(IndexOutOfRange)
      case Found(dose) => Ok(Tally([MarkedEvent(marks, dose, stamp, times, roa, zone)], 0))
  }

  /** The loop over the pieces of a cell, once read. It stops at the first
      piece that raises; otherwise every piece gives one event or one error. */
  function ReadingsEvents(ps: seq<PieceReading>, stamp: Value, times: CellTimes, roa: string, zone: int)
    : (r: Result<Tally, SheetError>)
    requires ValidOffset(zone) && WellFormed(stamp) && DateTimeFree(stamp)
    requires forall k :: 0 <= k < |ps| ==> KnownPiece(ps[k])
    ensures r.Err? <==> exists k :: 0 <= k < |ps| && Raises(ps[k])
    ensures r.Err? ==> r.error == IndexOutOfRange
    ensures r.Ok? ==> |r.value.events| + r.value.errors == |ps|
  {
    if |ps| == 0 then Ok(Tally([], 0))
    else
      assert forall k :: 1 <= k < |ps| ==> ps[k] == ps[1..][k - 1];
      var here :- ReadingEvents(ps[0], stamp, times, roa, zone);
      var rest :- ReadingsEvents(ps[1..], stamp, times, roa, zone);
      Ok(Tally(here.events + rest.events, here.errors + rest.errors))
  }

  /** The marked events of the pieces that read as doses, in order. */
  function FoundEvents(ps: seq<PieceReading>, stamp: Value, times: CellTimes, roa: string, zone: int): seq<Event>
    requires ValidOffset(zone) && WellFormed(stamp) && DateTimeFree(stamp)
    requires forall k :: 0 <= k < |ps| ==> KnownPiece(ps[k])
  {
    if |ps| == 0 then []
    else
      assert forall k :: 1 <= k < |ps| ==> ps[k] == ps[1..][k - 1];
      assert KnownPiece(ps[0]);
      var here := if ps[0].MarkedDose? && ps[0].reading.Found?
                  then [MarkedEvent(ps[0].marks, ps[0].reading.dose, stamp, times, roa, zone)] else [];
      here + FoundEvents(ps[1..], stamp, times, roa, zone)
  }

  /** When no piece raises, the loop yields exactly the marked events of the
      pieces that read as doses, in the pieces' order. */
  lemma {:induction false} ReadingsContent(ps: seq<PieceReading>, stamp: Value, times: CellTimes, roa: string, zone: int)
    requires ValidOffset(zone) && WellFormed(stamp) && DateTimeFree(stamp)
    requires forall k :: 0 <= k < |ps| ==> KnownPiece(ps[k])
    ensures ReadingsEvents(ps, stamp, times, roa, zone).Ok? ==>
              ReadingsEvents(ps, stamp, times, roa, zone).value.events == FoundEvents(ps, stamp, times, roa, zone)
  {
    if |ps| > 0 {
      var rest := ps[1..];
      assert forall k :: 1 <= k < |ps| ==> ps[k] == rest[k - 1];
      ReadingsContent(rest, stamp, times, roa, zone);
    }
  }

  /** `times_to_dt(d, times)`: each time on date `d`, printed in the zone. */
  function Stamps(d: SheetDate, clocks: seq<Clock>, zone: int): (r: seq<string>)
    requires ValidOffset(zone) && forall k :: 0 <= k < |clocks| ==> clocks[k].Valid()
    ensures |r| == |clocks|
    ensures forall k :: 0 <= k < |clocks| ==>
              ParseStamp(r[k]) == Some(Printed(d, Clock(clocks[k].hour, clocks[k].minute, clocks[k].second, 0), zone))
  {
    if |clocks| == 0 then []
    else
      FmtNaiveMeaning(Combine(d, clocks[0]), zone);
      [FmtNaive(Combine(d, clocks[0]), zone)] + Stamps(d, clocks[1..], zone)
  }

  /** The timestamp field of a row's events: `times_to_dt` as a list. */
  function CellStamp(d: SheetDate, clocks: seq<Clock>, zone: int): (v: Value)
    requires ValidOffset(zone) && forall k :: 0 <= k < |clocks| ==> clocks[k].Valid()
    ensures WellFormed(v) && DateTimeFree(v)
    ensures v.VList? && |v.items| == |clocks|
  {
    StrListPlain(Stamps(d, clocks, zone));
    StrList(Stamps(d, clocks, zone))
  }

  /** Some read piece raises exactly when some piece of the cell crashes. */
  lemma PiecesRaise(pieces: seq<string>)
    ensures (exists k :: 0 <= k < |ReadPieces(pieces)| && Raises(ReadPieces(pieces)[k]))
            <==> exists k :: 0 <= k < |pieces| && PieceCrashes(pieces[k])
  {
    var ps := ReadPieces(pieces);
    if exists k :: 0 <= k < |pieces| && PieceCrashes(pieces[k]) {
      var k :| 0 <= k < |pieces| && PieceCrashes(pieces[k]);
      assert Raises(ps[k]);
    }
  }

  /** What a row with a time contributes: one per piece, plus one when no
      time could be read. */
  function Demand(timeCell: string, dataCell: string): nat {
    if timeCell == "" then 0
    else |Pieces(dataCell)| + (if ReadTimes(timeCell).unknown then 1 else 0)
  }

  /** Lines 209-305 for the two cells of one date. */
  function CellEvents(timeCell: string, dataCell: string, d: SheetDate, zone: int): (r: Result<Tally, SheetError>)
    requires ValidOffset(zone)
    ensures timeCell == "" ==> r == Ok(Tally([], 0))
    ensures r.Err? <==> timeCell != "" && exists k :: 0 <= k < |Pieces(dataCell)| && PieceCrashes(Pieces(dataCell)[k])
    ensures r.Err? ==> r.error == IndexOutOfRange
    ensures r.Ok? ==> |r.value.events| + r.value.errors == Demand(timeCell, dataCell)
    ensures r.Ok? && timeCell != "" ==>
              r.value.events == FoundEvents(ReadPieces(Pieces(dataCell)), CellStamp(d, ReadTimes(timeCell).clocks, zone),
                                            ReadTimes(timeCell), CellRoute(dataCell), zone)
  {
    if timeCell == "" then Ok(Tally([], 0))
    else
      var times := ReadTimes(timeCell);
      var stamp := CellStamp(d, times.clocks, zone);
      PiecesRaise(Pieces(dataCell));
      ReadingsContent(ReadPieces(Pieces(dataCell)), stamp, times, CellRoute(dataCell), zone);
      var t :- ReadingsEvents(ReadPieces(Pieces(dataCell)), stamp, times, CellRoute(dataCell), zone);
      Ok(Tally(t.events, t.errors + (if times.unknown then 1 else 0)))
  }

  // ---------------------------------------------------------------- table

  /** `raw_table[j+1][i]` and `raw_table[j+1][i+1]` both exist. */
  predicate PairExists(raw: Table, i: nat, j: nat) {
    j + 1 < |raw| && i + 1 < |raw[j + 1]|
  }

  /** The two cells of date `j` in the column pair at `i`. */
  function TimeCell(raw: Table, i: nat, j: nat): string
    requires PairExists(raw, i, j)
  {
    raw[j + 1][i]
  }

  function DataCell(raw: Table, i: nat, j: nat): string
    requires PairExists(raw, i, j)
  {
    raw[j + 1][i + 1]
  }

  /** The contributions of dates `j` onwards in the column pair at `i`. */
  function ColumnDemand(raw: Table, dates: seq<SheetDate>, i: nat, j: nat): nat
    requires j <= |dates| && forall k :: j <= k < |dates| ==> PairExists(raw, i, k)
    decreases |dates| - j
  {
    if j == |dates| then 0
    else Demand(TimeCell(raw, i, j), DataCell(raw, i, j)) + ColumnDemand(raw, dates, i, j + 1)
  }

  /** `for j, d in enumerate(dates)` from `j` on, for the column pair at `i`.
      Both cells are read before the time cell is looked at. */
  function DatesEvents(raw: Table, dates: seq<SheetDate>, i: nat, j: nat, zone: int): (r: Result<Tally, SheetError>)
    requires ValidOffset(zone) && j <= |dates|
    ensures r.Err? ==> r.error == IndexOutOfRange
    ensures r.Ok? ==> forall k :: j <= k < |dates| ==> PairExists(raw, i, k)
    ensures r.Ok? ==> |r.value.events| + r.value.errors == ColumnDemand(raw, dates, i, j)
    decreases |dates| - j
  {
    if j == |dates| then Ok(Tally([], 0))
    else if !PairExists(raw, i, j) then Err(IndexOutOfRange)
    else
      var here :- CellEvents(TimeCell(raw, i, j), DataCell(raw, i, j), dates[j], zone);
      var rest :- DatesEvents(raw, dates, i, j + 1, zone);
      Ok(Tally(here.events + rest.events, here.errors + rest.errors))
  }

  /** Every column pair from `i` on, stepping by two, reaches every date. */
  predicate PairsFrom(raw: Table, dates: seq<SheetDate>, i: nat)
    requires |raw| >= 1
  {
    forall c, k :: i <= c < |raw[0]| && (c - i) % 2 == 0 && 0 <= k < |dates| ==> PairExists(raw, c, k)
  }

  lemma PairsStep(raw: Table, dates: seq<SheetDate>, i: nat)
    requires |raw| >= 1 && PairsFrom(raw, dates, i + 2)
    requires forall k :: 0 <= k < |dates| ==> PairExists(raw, i, k)
    ensures PairsFrom(raw, dates, i)
  {
    forall c, k | i <= c < |raw[0]| && (c - i) % 2 == 0 && 0 <= k < |dates| ensures PairExists(raw, c, k) {
      if c > i {
        assert (c - (i + 2)) % 2 == 0;
      }
    }
  }

  /** `for i in range(i, len(raw_table[0]), 2)`. */
  function ColumnsEvents(raw: Table, dates: seq<SheetDate>, i: nat, zone: int): (r: Result<Tally, SheetError>)
    requires ValidOffset(zone) && |raw| >= 1
    ensures r.Err? ==> r.error == IndexOutOfRange
    ensures r.Ok? ==> PairsFrom(raw, dates, i)
    decreases |raw[0]| - i
  {
    if i >= |raw[0]| then Ok(Tally([], 0))
    else
      var here :- DatesEvents(raw, dates, i, 0, zone);
      var rest :- ColumnsEvents(raw, dates, i + 2, zone);
      PairsStep(raw, dates, i);
      Ok(Tally(here.events + rest.events, here.errors + rest.errors))
  }

  /** `create_timestamped_supps` up to the upload: the dates first (a date
      cell that does not parse raises), then `raw_table[0]`, which an empty
      sheet does not have, then the column pairs 1-2, 3-4, ... */
  function CreateTimestampedSupps(raw: Table, zone: int): (r: Result<Tally, SheetError>)
    requires ValidOffset(zone)
    ensures GetDates(raw).Err? ==> r == Err(GetDates(raw).error)
    ensures GetDates(raw).Ok? && |raw| == 0 ==> r == Err(IndexOutOfRange)
    ensures r.Err? ==> r.error == IndexOutOfRange || r.error.BadDate?
    ensures r.Ok? ==> |raw| >= 1 && PairsFrom(raw, GetDates(raw).value, 1)
  {
    var dates :- GetDates(raw);
    if |raw| == 0 then Err(IndexOutOfRange)
    else ColumnsEvents(raw, dates, 1, zone)
  }
}

=== FILE: values.dfy ===
/** The dynamically typed values that flow through event records and API
    payloads: the JSON shapes, plus Python `datetime` objects, which callers may
    put into a record before it is cleaned. */
module Values {
  import opened Calendar

  datatype Value =
    | VNull
    | VBool(b: bool)
    | VInt(i: int)
    | VNum(literal: string)   // a Python float, kept as its decimal text
    | VStr(s: string)
    | VDateTime(dt: DateTime)
    | VList(items: seq<Value>)
    | VDict(fields: map<string, Value>)

  /** Every `datetime` inside `v` has in-range fields, as Python guarantees. */
  predicate WellFormed(v: Value) {
    match v
    case VDateTime(dt) => dt.Valid()
    case VList(xs) => forall i :: 0 <= i < |xs| ==> WellFormed(xs[i])
    case VDict(m) => forall k :: k in m ==> WellFormed(m[k])
    case _ => true
  }

  /** `json.dumps` accepts `v`: it holds no `datetime` anywhere. */
  predicate JsonSerializable(v: Value) {
    match v
    case VDateTime(_) => false
    case VList(xs) => forall i :: 0 <= i < |xs| ==> JsonSerializable(xs[i])
    case VDict(m) => forall k :: k in m ==> JsonSerializable(m[k])
    case _ => true
  }
}
